=== FILE: README.md ===
# Smart-Safe-Vision core, modelled in Dafny

Smart-Safe-Vision watches parking cameras. Its core works as follows.

- **Streaming.** A streaming task reads frames from a camera, JPEG-encodes them and stores each one in Redis as base64 text under `camera_frame_{id}`. A process-wide set of running ids keeps a stream from being launched twice. A view serves the stored frame as an MJPEG stream.
- **Plate detection.** A detection loop polls that key, decodes the frame and runs YOLO on it. Plate boxes at least 50x20 pixels are cropped, with a 5-pixel margin, and sent to an OCR task.
- **OCR.** The OCR task runs Tesseract on three image variants with seven profiles. It keeps the best Arabic-or-digit candidate and falls back to plain Arabic and then English. Finally it reduces the text to a Tunisian plate, `left تونس right`.
- **Fire detection.** A fire task polls its own key, colours the boxes YOLO returns and describes each fire box, or else the whole frame, with CLIP. It writes the frame and a JSON result back to Redis.
- **Notifications.** Notification tasks push alerts to the `alerts` WebSocket group, keep an hour of alert history in Redis, and report on camera health and daily statistics. The notification service saves plate notifications and broadcasts them.
- **Account forms.** The forms check e-mail and CIN (an 8-digit national id) uniqueness.
- **Browser scripts.** The map page's scripts read the CSRF cookie, colour toasts and keep department statistics. A cart script adds a product.

Everything that touches the outside world is an input to the model. That covers Redis, the channel layer, the database, OpenCV, YOLO, CLIP, Tesseract and the clock. Each is a value, a function parameter, an event sequence, or a fault that says where a step raises. Effects are returned as logs.

| file | module | models |
|---|---|---|
| wrappers.dfy | `Wrappers` | `Option` |
| json.dfy | `Json` | JSON values of payload dictionaries |
| text.dfy | `Text` | Python `strip`, `split`, `join`, `int()`, digit text |
| base64.dfy | `Base64` | standard base64 (section 4 of RFC 4648) and the re-padding of `decode_frame_from_redis` |
| geometry.dfy | `Geometry` | boxes and NumPy slicing used for crops |
| plate.dfy | `PlateText` | `extract_license_plate_text` |
| ocr.dfy | `OcrTask` | candidate selection and outcomes of `run_ocr_task` |
| detect.dfy | `Detection` | `decode_frame_from_redis`, `process_detections`, `detect_from_redis`, `health_check_cameras` |
| fire.dfy | `FireTask` | `generate_clip_description`, `detect_fire_from_redis` |
| streaming.dfy | `Streaming` | `should_start_stream`, `stream_camera`, `stream_all_cameras`, `detect_all_cameras`, both streaming views |
| notify_tasks.dfy | `AlertTasks` | the Celery tasks of notification_tasks.py |
| notify_service.dfy | `NotificationService` | `NotificationService` |
| forms.dfy | `Accounts`, `AccountForms`, `AdminAccountForms` | the two `CinEmailControle` mixins and `clean_email_or_cin` |
| mapjs.dfy | `Cookies`, `MapPage` | `getCookie`, `showToast` colours, `updateStats` |
| cart.dfy | `Cart` | the effective `addToCart` |

## Model

| member | source | states |
|---|---|---|
| Text.StripRemovesOnlyEndSpaces | gismap/tasks/ocr_task.py:57 | `strip()` returns a contiguous slice of its input, cuts only whitespace at either end, and leaves no whitespace at either end. |
| Text.JoinSplit | gismap/tasks/notification_tasks.py:294 | Splitting a key on '_' and joining the parts with '_' gives the key back, so no character is lost or invented. |
| Text.SplitAfterField | gismap/tasks/yolo_detect_task.py:278-285 | A field free of the separator, followed by the separator, splits off as exactly one part ahead of the rest's parts. |
| Text.ParseIntOfNatToString | gismap/tasks/notification_tasks.py:296 | `int()` reads the decimal text of any natural number back as that number. |
| Text.ParseIntRejectsNonNumeric | gismap/tasks/notification_tasks.py:294-304 | `int()` fails on text whose first character is not whitespace, a digit or a sign, so that key falls into the `continue` branch. |
| Text.DigitsValueOfNatToString | gismap/tasks/notification_tasks.py:57 | The digit text written into an alert key denotes the number it was made from. |
| Base64.Encode | gismap/tasks/streaming_tasks.py:28 | Encoded text is a whole number of 4-character groups, and it is empty exactly when the bytes are. |
| Base64.DecodeEncode | gismap/tasks/streaming_tasks.py:28 | Decoding the encoding of any bytes gives exactly those bytes back (the partner of `Encode`). |
| Base64.TripleRoundTrip | gismap/tasks/streaming_tasks.py:28 | A full 3-byte group survives encoding then decoding, whether or not it is the last group. |
| Base64.PairRoundTrip | gismap/tasks/streaming_tasks.py:28 | A trailing 2-byte group, padded with one '=', decodes back to its two bytes. |
| Base64.SingleRoundTrip | gismap/tasks/streaming_tasks.py:28 | A trailing single byte, padded with "==", decodes back to that byte. |
| Base64.SymbolRoundTrip | gismap/tasks/streaming_tasks.py:28 | Each 6-bit value maps to an alphabet symbol that maps back to it. |
| Base64.Repad | gismap/tasks/yolo_detect_task.py:94 | Re-padding appends only '=' characters, fewer than four, to reach a multiple of four, and leaves text already a multiple of four unchanged. |
| Base64.RepadRestoresEncoding | gismap/tasks/yolo_detect_task.py:94 | Re-padding an encoding, or an encoding whose trailing '=' were lost, restores exactly that encoding. |
| Base64.PaddingOfEncoding | gismap/tasks/streaming_tasks.py:28 | '=' can appear only in the last two characters of an encoding. |
| Base64.UnpaddedDropsPadding | gismap/tasks/yolo_detect_task.py:94 | Dropping padding removes only trailing '=' and leaves no '=' at the end. |
| Geometry.SliceBound | gismap/tasks/yolo_detect_task.py:122-128 | A NumPy slice index lands within the axis: it stays put if inside, is clipped to the length if past it, and wraps from the end if negative. |
| Geometry.CropIsClampedGrownBox | gismap/tasks/yolo_detect_task.py:122-128 | For a box whose grown far edges are non-negative, the crop is the box grown by the margin and clamped to the frame. |
| Geometry.NegativeStopWraps | gismap/tasks/yolo_detect_task.py:122-128 | A box entirely left of the frame has a negative slice stop, which counts from the right edge, so the crop is not empty. |
| PlateText.Clean | gismap/tasks/ocr_task.py:57-66 | After cleaning, only digits, whitespace and Arabic-block characters remain. |
| PlateText.CleanKeepsJoinedRuns | gismap/tasks/ocr_task.py:57-71 | Cleaning finds the same digit runs as the raw text with only the bracket, bar and underscore characters removed (the characters deleted outright). |
| PlateText.DigitRunsHoldDigits | gismap/tasks/ocr_task.py:71 | The runs `findall(r'\d+')` returns concatenate to exactly the digits of the text, in order. |
| PlateText.DigitRuns | gismap/tasks/ocr_task.py:71 | Every run found is a non-empty string of digits. |
| PlateText.TwoRuns | gismap/tasks/ocr_task.py:71 | Two digit blocks separated by non-digits are found as exactly those two runs. |
| PlateText.RepairRunCuts | gismap/tasks/ocr_task.py:76-103 | Per run length: single digits are dropped; a 4-digit run anchored on 179 or 911 is cut to that anchor; a 7-digit anchored run is split around the anchor, dropping its fourth digit; a 6-digit run is halved; anything else is kept whole. |
| PlateText.RepairRun | gismap/tasks/ocr_task.py:76-103 | One run yields at most two pieces, each of length at least 2 and never 6, and digits stay digits. |
| PlateText.RepairKeepsOrder | gismap/tasks/ocr_task.py:76-105 | Repairing a list of runs repairs each run in place, so the order is kept. |
| PlateText.RepairSettles | gismap/tasks/ocr_task.py:76-105 | Every repaired piece is settled: a second repair leaves it alone. |
| PlateText.RepairKeepsDigits | gismap/tasks/ocr_task.py:76-105 | Repaired pieces of digit runs are digit strings. |
| PlateText.ReconstructOnRepairedRuns | gismap/tasks/ocr_task.py:108-155 | On repaired runs the full reconstruction, marker check and both dead branches included, equals the short form: two or more runs give `first تونس last`; a single run of 4 or more digits is returned; otherwise nothing. |
| PlateText.ExtractLicensePlateText | gismap/tasks/ocr_task.py:49-155 | Empty text gives `None`. Any other text gives the plate of the repaired digit runs of the text with joiner characters removed. Every plate is either one settled digit run of length 4 or more, or `left تونس right` with two settled digit runs. |
| PlateText.ExtractIsIdempotent | gismap/tasks/ocr_task.py:49-155 | Extracting from an extracted plate gives the same plate. |
| PlateText.SingleRunPlateReadsBack | gismap/tasks/ocr_task.py:134-145 | A settled digit block of 4 or more digits reads back as itself. |
| PlateText.TwoRunPlateReadsBack | gismap/tasks/ocr_task.py:118-132 | A formatted plate of two settled digit runs reads back as itself. |
| PlateText.TwoRunText | gismap/tasks/ocr_task.py:118-132 | Two digit blocks around any non-digit, non-joiner gap give the plate of their repaired pair, whatever the gap says. |
| PlateText.MarkedPlateReadsBack | gismap/tasks/ocr_task.py:108-127 | "179 تونس 911" reads as the plate `179 تونس 911`. |
| PlateText.MisreadAnchorRepaired | gismap/tasks/ocr_task.py:78-80 | "1799 911", the 179.9 misreading, reads as `179 تونس 911`. |
| PlateText.RepairsMisreadAnchor | gismap/tasks/ocr_task.py:78-88 | The runs ["1799", "911"] repair to ["179", "911"]. |
| OcrTask.Language | gismap/tasks/ocr_task.py:202-205 | The language is "ara" exactly when the profile mentions "ara", else "eng". |
| OcrTask.Trials | gismap/tasks/ocr_task.py:177-205 | Each of the 3 image variants is tried with each of the 7 profiles, variant-major, and each trial keeps the engine's answer for its pair. |
| OcrTask.SelectBest | gismap/tasks/ocr_task.py:194-219 | No candidate exactly when no trial competes (a stripped answer of at least two characters). Otherwise the result is the first trial with the maximal score, since only a strictly greater score replaces the current best. |
| OcrTask.Fallback | gismap/tasks/ocr_task.py:221-240 | Stripped non-empty Arabic text wins with confidence 10. Otherwise stripped non-empty English text wins with confidence 5. Otherwise nothing. |
| OcrTask.RunOcrTask | gismap/tasks/ocr_task.py:157-290 | A decode error exactly when the image does not decode. No text exactly when nothing competes and the fallback is empty. Otherwise the outcome is about the chosen candidate: the first best-scoring trial, or the fallback reading when no trial competes. It is a success exactly when a plate can be extracted from that candidate's text. A success carries that plate, the candidate's confidence (at least 20, or 10, or 5) and its variant, the camera and the timestamp. An invalid format carries the candidate's raw text, its variant and the camera. |
| OcrTask.ChosenIsUnique | gismap/tasks/ocr_task.py:207-240 | At most one candidate is chosen: two first maxima coincide, and a fallback is used only when no trial competes. So the outcome is determined by the input. |
| Detection.DecodeFrame | gismap/tasks/yolo_detect_task.py:90-106 | A frame is returned exactly when the re-padded text base64-decodes to bytes the image decoder accepts, and then it is those bytes. |
| Detection.StoredFrameDecodes | gismap/tasks/yolo_detect_task.py:90-106 | A frame the streamer stored decodes back to its JPEG bytes, with or without its padding. |
| Detection.DetectPlates | gismap/tasks/yolo_detect_task.py:47-74 | Failed inference gives no detections and no raw results, and the raw results are always passed through. |
| Detection.ProcessDetections | gismap/tasks/yolo_detect_task.py:108-145 | The loop sends exactly the dispatches and draws exactly the boxes that the detection list determines. |
| Detection.ProcessedBoxes | gismap/tasks/yolo_detect_task.py:117-141 | A box is drawn exactly when a detection of at least 50x20 has it. Each dispatch carries a non-empty crop of such a box together with the camera id. There are never more dispatches than drawn boxes. |
| Detection.SmallBoxIgnored | gismap/tasks/yolo_detect_task.py:117-119 | A box narrower than 50 or lower than 20 neither dispatches nor draws. |
| Detection.PlateInFrameDispatched | gismap/tasks/yolo_detect_task.py:122-138 | An accepted box inside the frame dispatches its box grown by 5 pixels and clamped to 640x384. |
| Detection.Step | gismap/tasks/yolo_detect_task.py:160-228 | An absent frame changes nothing. Only a frame without a quit counts an iteration. A decoded frame resets the error count, and a failed decode or a lost store adds one. A crash after the reset leaves the count at 1. The loop stops on a quit, on an interrupt, or when a decode failure or crash takes the count past 10. A lost store never stops it. The pass queues exactly the OCR requests of its event: all of a frame's, including one that quits, and those reached before a crash or an interrupt. |
| Detection.QueuedBefore | gismap/tasks/yolo_detect_task.py:185-211 | The requests queued before an exception are a prefix of the frame's requests. They are all of them once `process_detections` has returned, so a raise in the display, the cleanup or the sleep keeps every one. Before the frame decoded there are none. |
| Detection.EventSent | gismap/tasks/yolo_detect_task.py:159-228 | A frame queues all its dispatches. A crash or an interrupt queues what was queued before it struck. Absent frames, failed decodes and lost connections queue nothing. |
| Detection.DetectFromRedis | gismap/tasks/yolo_detect_task.py:147-241 | The summary always has status "completed" and the camera id. Its iteration count is bounded by the iteration limit and by the number of frames met. The loop reads the events up to where it stops or reaches the limit. The requests returned are exactly the ones those events queued, including those of a pass a crash or an interrupt cut short, and the count is their completed frames. Events are left unread only at the limit or after a quit, an interrupt, or an error that adds to the count. |
| Detection.RunStopsAt | gismap/tasks/yolo_detect_task.py:159-228 | A loop that leaves events unread below its limit stopped on its last pass, which was a quit, an interrupt, a failed decode or a crash before the reset. |
| Detection.RunLog | gismap/tasks/yolo_detect_task.py:159-228 | The loop reads a prefix of the events. Its requests and its count are those of that prefix, and it leaves events unread only once it has stopped or reached the limit. |
| Detection.FramesRunToBound | gismap/tasks/yolo_detect_task.py:159-211 | A camera that yields a decoded frame on every pass keeps the loop running until the count reaches the limit. |
| Detection.DefaultBoundReached | gismap/tasks/yolo_detect_task.py:147-148 | With the default limit, 1200 decoded frames give exactly 1000 iterations. |
| Detection.RunBounds | gismap/tasks/yolo_detect_task.py:211 | Iterations never decrease, grow by at most the frames met, and do not pass the limit. |
| Detection.AbsentFrameIsInvisible | gismap/tasks/yolo_detect_task.py:164-167 | A pass that finds no frame leaves the whole remaining run unchanged. |
| Detection.DecodeFailuresStop | gismap/tasks/yolo_detect_task.py:170-176 | Repeated decode failures keep the loop running while the count stays at 10 or less, and stop it with count 11, without counting iterations or sending anything. |
| Detection.EleventhFailureStops | gismap/tasks/yolo_detect_task.py:170-176 | From the start, 10 failed decodes keep the loop running and 11 stop it. |
| Detection.StoreLossNeverStops | gismap/tasks/yolo_detect_task.py:213-216 | Any number of connection errors leaves the loop running. |
| Detection.DecodedFrameResets | gismap/tasks/yolo_detect_task.py:179 | A decoded frame resets the error count to zero. |
| Detection.HealthCheckReportsLastKey | gismap/tasks/yolo_detect_task.py:278-285 | Each matching key's camera is reported with the TTL of the last matching key for that id, and is active exactly when that TTL is positive. |
| Detection.HealthCheckIds | gismap/tasks/yolo_detect_task.py:278-285 | Only ids taken from matching keys are reported. |
| Detection.HealthCheck | gismap/tasks/yolo_detect_task.py:278-285 | Every reported camera is active exactly when its TTL is positive. |
| Detection.HealthCheckCovers | gismap/tasks/yolo_detect_task.py:278-285 | Every matching key's camera is reported. |
| Detection.HealthCheckDomain | gismap/tasks/yolo_detect_task.py:278-285 | The reported ids are exactly the ids of the matching keys. |
| Detection.HealthCheckTask | gismap/tasks/yolo_detect_task.py:269-292 | The error result exactly when listing the keys raised, or decoding a key or reading its TTL raised, since nothing inside the loop catches. Otherwise the status map: the reported ids are exactly those of the listed keys, and each camera is active exactly when its TTL is positive. |
| Detection.StreamedKeyReadsInactive | gismap/tasks/yolo_detect_task.py:278-285 | The streamer's key for camera n is reported under n, and since it has no expiry the camera reads as inactive. |
| FireTask.DescriptionNamesPrompt | gismap/tasks/fire_clip_tasks.py:30-61 | A description names exactly the prompt CLIP ranked first, and the failure text names no prompt (the partner of `Description`). |
| FireTask.FirstDifference | gismap/tasks/fire_clip_tasks.py:39-46 | Any two distinct prompts differ at a position inside both, so a description cannot begin with two prompts. |
| FireTask.BoxColour | gismap/tasks/fire_clip_tasks.py:107 | A box is drawn red (0, 0, 255 in BGR order) exactly when its lower-cased class name equals "fire"; every other box is drawn cyan (255, 255, 0). |
| FireTask.Drawn | gismap/tasks/fire_clip_tasks.py:98-122 | Every box is drawn once, in order, with its own colour. |
| FireTask.FireDescriptions | gismap/tasks/fire_clip_tasks.py:98-122 | There is one description per fire box. |
| FireTask.FrameVerdict | gismap/tasks/fire_clip_tasks.py:98-128 | Fire is reported exactly when some box is a fire box. There is one description per fire box, or a single description of the full 640x384 frame when there is none. |
| FireTask.FireCountPositive | gismap/tasks/fire_clip_tasks.py:98-122 | The fire count is positive exactly when some box is a fire box. |
| FireTask.DescriptionsAreWellFormed | gismap/tasks/fire_clip_tasks.py:98-128 | Every description in a frame result is a description CLIP could give. |
| FireTask.EventWrites | gismap/tasks/fire_clip_tasks.py:139-153 | A processed frame makes two writes, a failure at most the two of the frame it interrupted, and a missing or undecodable frame none. |
| FireTask.ResultReportsVerdict | gismap/tasks/fire_clip_tasks.py:139-147 | The JSON written under the result key is an object whose `fire_detected` is true exactly when a detected box is fire, and whose `clip_descriptions` holds one description per fire box, or one when there is none. |
| FireTask.FireStep | gismap/tasks/fire_clip_tasks.py:72-157 | A pass appends exactly its event's writes. Only a processed frame counts an iteration, so a failure after the frame's writes leaves them stored but uncounted. Only a failure stops the loop. |
| FireTask.DetectFireFromRedis | gismap/tasks/fire_clip_tasks.py:68-161 | Taken as if the import at line 66 resolved: the summary keeps the camera id and iterations stay within the limit. The writes alternate frame key and result key, two per iteration plus at most two from a frame a failure cut short. They are exactly the writes of the events the loop reads before it stops or reaches the limit, and the count is those events' processed frames. Events are left unread only at the limit or after a failure. |
| FireTask.FireRunStopsAt | gismap/tasks/fire_clip_tasks.py:72-161 | A loop that leaves events unread below its limit stopped on a failure, its last pass. |
| FireTask.FireRunLog | gismap/tasks/fire_clip_tasks.py:72-153 | The loop reads a prefix of the events. Its writes and its count are those of that prefix, and it leaves events unread only once it has stopped or reached the limit. |
| FireTask.FireRunInvariant | gismap/tasks/fire_clip_tasks.py:72-157 | Across the loop, writes alternate between the frame key and the result key. A running loop has two per iteration, a stopped one at most two more. Earlier writes are never changed. |
| FireTask.FireStepInvariant | gismap/tasks/fire_clip_tasks.py:72-157 | One pass keeps that consistency, adds at most one iteration and only appends writes. |
| FireTask.FramesRunToBound | gismap/tasks/fire_clip_tasks.py:72-153 | A camera that yields a decoded frame on every pass keeps the loop running until the count reaches the limit. |
| FireTask.DefaultBoundReached | gismap/tasks/fire_clip_tasks.py:65 | With the default limit, 8 decoded frames give exactly 5 iterations. |
| FireTask.SkippedFramesAreInvisible | gismap/tasks/fire_clip_tasks.py:72-84 | A pass with no frame or an undecodable frame leaves the remaining run unchanged. |
| Streaming.ShouldStart | gismap/streaming_utils.py:4-8 | Yes exactly when the id is not yet running. Afterwards it is running, and no other id changes. |
| Streaming.GuardsAnswerFirstSightings | gismap/streaming_utils.py:4-8 | Over a run of calls, a call answers yes exactly when its id is neither running beforehand nor seen earlier in the run. The running set ends as the old set plus every id asked about. |
| Streaming.OnlyFirstCallStarts | gismap/streaming_utils.py:4-8 | A repeated id is never started twice. |
| Streaming.StreamCamera | gismap/tasks/streaming_tasks.py:13-34 | An unopenable source writes nothing. Otherwise every write goes to `camera_frame_{id}` and base64-decodes to the JPEG of the frame read at that position. Without a raise there is one write per frame and the capture is released at the end. A raise while encoding or storing frame k leaves exactly k writes and no release. |
| Streaming.FrameWrites | gismap/tasks/streaming_tasks.py:21-29 | Frame i is stored under the camera's frame key as the base64 of its JPEG. |
| Streaming.FramesDecode | gismap/tasks/streaming_tasks.py:27-29 | Every stored value decodes back to its frame's JPEG. |
| Streaming.StartStreamsFollowsGuard | gismap/tasks/streaming_tasks.py:40-45 | The corrected task launches exactly the cameras the guard says yes to, in order, and leaves the guard's running set. |
| Streaming.LaunchesOnlyUnrecorded | gismap/tasks/streaming_tasks.py:40-45 | Only cameras not already running are launched. |
| Streaming.RepeatLaunchesNothing | gismap/tasks/streaming_tasks.py:40-45 | Running the corrected task a second time launches nothing. |
| Streaming.NothingLaunchedWhenAllRunning | gismap/tasks/streaming_tasks.py:40-45 | When every camera is running, nothing is launched and the set is unchanged. |
| Streaming.StartStreamsAsWritten | gismap/tasks/streaming_tasks.py:40-45 | The task as written never launches a stream. |
| Streaming.StrandedCamera | gismap/tasks/streaming_tasks.py:43-45 | As written, the first camera not yet running is marked running and the task then fails. After that no run of either version ever launches it. |
| Streaming.DetectIgnoresGuard | gismap/tasks/streaming_tasks.py:47-51 | One detection task is queued per camera, in order, with no guard. |
| Streaming.Listed | gismap/streaming_views.py:31-34 | Without a department every camera is listed; with one, exactly that department's cameras are. |
| Streaming.AllCamerasStream | gismap/streaming_views.py:27-45 | The corrected view lists the department's cameras. It launches exactly the listed cameras the guard admits, in order, each of them not running before, and returns the guard's set afterwards. |
| Streaming.LaunchesAreListed | gismap/streaming_views.py:36-38 | Every launch is for one of the cameras considered. |
| Streaming.AllCamerasStreamAsWritten | gismap/streaming_views.py:36-38 | The view as written launches no stream. |
| Streaming.ChunkFraming | gismap/streaming_views.py:19-24 | Each chunk is the `--frame` delimiter, a JPEG content-type header, the frame bytes and CRLF. The response boundary is "frame". |
| Streaming.AbsentFrameYieldsNothing | gismap/streaming_views.py:21-22 | Polls that find no frame yield no chunk. |
| Streaming.ViewOfEncoded | gismap/streaming_views.py:13-24 | Polling base64 frames yields one chunk per frame, carrying exactly that frame's bytes. |
| Streaming.IngestThenView | gismap/streaming_views.py:13-24 | What the streamer stores, the view serves as one chunk per captured frame with that frame's JPEG (ingest and view compose). |
| AlertTasks.UpTo | gismap/tasks/notification_tasks.py:25-79 | An exception after k effects keeps exactly the first k of them; without one, all effects happen. |
| AlertTasks.Attempt | gismap/tasks/notification_tasks.py:81-137 | A task returns its result exactly when nothing raised, and then it has made all its effects. After a raise it returns the error result, having made exactly the effects before the raise. |
| AlertTasks.AlertPlace | gismap/tasks/notification_tasks.py:29-38 | A given name or place is kept. A missing one comes from the camera row, with "Non défini" for a camera without a department. If the lookup fails, the defaults are "Caméra {id}" and "Non défini". |
| AlertTasks.SendAlertNotification | gismap/tasks/notification_tasks.py:20-79 | Success exactly when nothing raises. The effects are a prefix of the alerts group, the history entry and the camera group, carrying the matricule and the resolved place. A raise after k of them keeps k. A success has all three and is stamped with the second clock reading. |
| AlertTasks.AlertIsHighPriority | gismap/tasks/notification_tasks.py:41-68 | The alert is a high-priority `send_alert`. The camera group gets the same payload, and the history entry lives 3600 s. |
| AlertTasks.HistoryKeyRoundTrip | gismap/tasks/notification_tasks.py:57-62 | The cleanup task reads back from a history key exactly the time it was written with (the partner of `HistoryKey`). |
| AlertTasks.Deletions | gismap/tasks/notification_tasks.py:291-304 | Deletes at most the keys listed, and a key exactly when it starts with "alert_", has expired, and its delete goes through; a key that fails to parse or to delete is skipped. |
| AlertTasks.CleanupOldAlerts | gismap/tasks/notification_tasks.py:278-312 | The error result exactly when reading the clock or listing the keys raised, and then nothing is deleted. Otherwise a key is deleted exactly when it starts with "alert_", its third '_'-field parses to a time more than 86400 s in the past, and its delete goes through. The result is the number deleted. |
| AlertTasks.HistoryEntryExpiry | gismap/tasks/notification_tasks.py:285-302 | A history entry is deleted exactly when it is more than a day old and its delete goes through. |
| AlertTasks.SystemAlertBroadcast | gismap/tasks/notification_tasks.py:87-98 | The alert goes to the alerts group with its type and priority, and with the details, `{}` when none are given. |
| AlertTasks.SystemAlert | gismap/tasks/notification_tasks.py:81-106 | The success result carries the message and comes exactly when nothing raised. The broadcast is made unless the raise came before it. |
| AlertTasks.StatusBroadcasts | gismap/tasks/notification_tasks.py:114-129 | The same status payload goes to the alerts and camera_status groups, then the status is stored for 300 s under `camera_status_{id}`. |
| AlertTasks.UpdateCameraStatus | gismap/tasks/notification_tasks.py:108-137 | The success result carries the camera and status, and comes exactly when nothing raised, after all three effects. A raise after k effects leaves exactly the first k. |
| AlertTasks.HealthPartition | gismap/tasks/notification_tasks.py:151-168 | Online and offline ids partition the cameras. A camera is online exactly when its frame key exists with a positive TTL. |
| AlertTasks.MonitorCameraHealth | gismap/tasks/notification_tasks.py:139-210 | Without a raise, online + offline = total = number of cameras, and the offline list is the offline partition. The effects are then the online statuses, the offline alerts and the summary to the alerts group. A raise during the scan leaves a prefix of the online statuses. A raise after the offline alerts leaves everything but the summary. Either gives the error result. |
| AlertTasks.OnlineCamerasMarkedOnline | gismap/tasks/notification_tasks.py:161-164 | Exactly one "online" status update per online camera. |
| AlertTasks.OfflineCameraAlerted | gismap/tasks/notification_tasks.py:171-180 | An offline camera that can be re-read gets a medium camera_offline alert naming it, then an "offline" status update. |
| AlertTasks.AuthorizedIsDifference | gismap/tasks/notification_tasks.py:223-228 | Unauthorized sightings never exceed all sightings, and the difference is the authorized count. |
| AlertTasks.Percentage | gismap/tasks/notification_tasks.py:256 | No detections gives 0, and otherwise the share lies between 0 and 100. |
| AlertTasks.DailyReport | gismap/tasks/notification_tasks.py:220-259 | The totals add up, the authorized count is the independent one, the percentage lies in [0, 100], and the camera table is the per-camera statistics. |
| AlertTasks.GenerateDailyReport | gismap/tasks/notification_tasks.py:212-276 | The report is returned exactly when nothing raised. A low-priority daily_report alert carrying the report is queued exactly when there were unauthorized sightings and the raise, if any, came after it. |
| AlertTasks.CameraEntries | gismap/tasks/notification_tasks.py:231-247 | Each name in the per-camera table belongs to the last camera carrying that name, with that camera's counts. |
| AlertTasks.IncidentEffect | gismap/tasks/notification_tasks.py:443-454 | Each incident alert has its kind's type and priority. The details hold the camera id and name, and any given details override them. |
| AlertTasks.IncidentAlert | gismap/tasks/notification_tasks.py:438-459 | The success result carries the camera and comes exactly when nothing raised. A raise in queueing leaves no alert and gives `{"success": False}`. The other two incident tasks are the same code with their kind. |
| AlertTasks.IncidentPriorities | gismap/tasks/notification_tasks.py:438-505 | Human-boxes alerts are medium; fall and aggression alerts are high. Each kind has its own alert type. |
| NotificationService.SaveNotification | gismap/tasks/notification_service.py:100-136 | A save fails exactly when the database raises. The image is attached exactly when it is truthy bytes and attaching does not raise, and an attachment failure does not stop the save. |
| NotificationService.SendWebsocket | gismap/tasks/notification_service.py:138-164 | Reports success exactly when a live layer delivers, and then it sent one `send_notification` envelope to the notifications group. |
| NotificationService.SendUnauthorized | gismap/tasks/notification_service.py:17-61 | The save comes first. A non-bytes image makes the call return nothing after the save and send nothing. Otherwise the saved notification is returned. |
| NotificationService.SendDoesNotDependOnSave | gismap/tasks/notification_service.py:17-61 | The broadcast goes out whether or not the save worked; `notification_id` is null exactly when the save failed. |
| NotificationService.AttachFailureStillSaves | gismap/tasks/notification_service.py:100-136 | A failing image attachment still saves the notification, without an image. |
| NotificationService.ImageTravelsAsBase64 | gismap/tasks/notification_service.py:17-61 | `image_base64` is null exactly for an absent or empty image, and otherwise decodes back to the image bytes. |
| NotificationService.SendAuthorized | gismap/tasks/notification_service.py:63-98 | The notification is saved without an image and announced without an image field. The effect count is one per successful save plus one per delivered broadcast. |
| Accounts.CleanCin | authentification/forms/formsAdmin.py:19-25 | The CIN is never altered. An unchanged CIN on an edited instance is accepted. Otherwise it is refused exactly when some user has it. |
| Accounts.CleanEmailOrCin | authentification/forms/formsAdmin.py:83-93 | Eight digits are a CIN, whatever the e-mail validator says. Otherwise a valid e-mail is accepted. Otherwise the fixed error is raised. The value is returned unaltered. |
| AccountForms.CleanEmail | authentification/forms/formsAdmin.py:11-17 | The e-mail is never altered. An unchanged e-mail on an edited instance is accepted. Otherwise it is refused exactly when some user has it. |
| AccountForms.EditKeepsOwnIdentity | authentification/forms/formsAdmin.py:11-25 | Re-saving a user with their own e-mail and CIN passes both checks. |
| AdminAccountForms.CinField | authentification/forms/admin/formsAdmin.py:13-18 | The field accepts only exactly eight digits after stripping. |
| AdminAccountForms.CinFieldMatchesCinBranch | authentification/forms/admin/formsAdmin.py:13-18 | On stripped input the field accepts exactly what the reset form's CIN branch accepts. |
| AdminAccountForms.CleanEmail | authentification/forms/admin/formsAdmin.py:20-24 | Accepted exactly when no user has the e-mail. A refusal names the first holder in key order. |
| AdminAccountForms.OwnEmailRefused | authentification/forms/admin/formsAdmin.py:20-24 | Unlike the other copy, a user's own e-mail is refused on edit. |
| Cookies.GetCookie | static/js/map.js:461-465 | A value read never contains ';'. |
| Cookies.GetCookieOfJar | static/js/map.js:461-465 | On a browser cookie string, a cookie is read exactly when the name occurs once, and the value read is that cookie's value. |
| Cookies.SuffixNameIgnored | app/static/js/map.js:248-252 | A cookie whose name merely ends with the wanted name is not read. |
| Cookies.PrefixedParts | static/js/map.js:462-463 | Splitting on "; name=" gives one more part than the number of cookies with that name. |
| MapPage.ToastColour | static/js/map.js:6-10 | success, error and warning each get their own colour, and any other type gets blue #3498db. |
| MapPage.AppToastColour | app/static/js/map.js:2-6 | The same for the older page, with its own palette and blue #007bff. |
| MapPage.UpdateStats | static/js/map.js:351-358 | The count and area move by the changes. Coverage is 0 without area, always lies in [0, 100], and is the rounded share of the site while the area fits inside the site. |
| Cart.Find | static/js/pan.js:16 | Finds the first item with the product id, or reports that none has it. |
| Cart.AddToCart | static/js/pan.js:14-24 | An existing item for product 1 gets one more and the rest are unchanged; otherwise `{productId: 1, quantity: 1}` is appended. |
| Cart.AddToCartKeepsCart | static/js/pan.js:14-24 | Product ids stay unique, product 1's quantity rises by one, every other quantity is unchanged, and the cart grows by at most one item. |
| Cart.PressesAccumulate | static/js/pan.js:14-24 | n presses on an empty cart leave one item with quantity n. |

## Left out

- Digits and whitespace are ASCII ('0'..'9'; space, tab, newline, carriage return, vertical tab, form feed). Python's `\d`, `\s`, `isdigit` and `strip` also accept other Unicode digits and spaces.
- Image work is not computed. That covers OpenCV preprocessing and `imencode`, YOLO inference, CLIP scores and the Tesseract engine. Each is an input: frames are given JPEG bytes, detections are given boxes, CLIP answers and OCR texts are given per call.
- Floating point is out: confidences, CLIP percentages, `round(..., 2)`, `toFixed(2)` and turf areas are not modelled as binary floats. `MapPage.UpdateStats` works on exact reals and does not round the area to two decimals.
- Logging and `print` calls are left out, including an exception a logging call could raise, as is the OCR task's debug-image write (gismap/tasks/ocr_task.py:247-249).
- The OCR task's Redis writes under `detected_plate_*` (gismap/tasks/ocr_task.py:262-269) are left out. So is its outer `except` returning an error dictionary (gismap/tasks/ocr_task.py:292-294).
- The display window of the detection loop is left out; a 'q' press is the event's `quit` flag. An exception from the display or the cleanup is a crash that has queued all of the frame's OCR requests.
- FireTask.DetectFireFromRedis: as written, the task raises ImportError on every call. Line 66 of gismap/tasks/fire_clip_tasks.py imports `send_fire_alert` from gismap/tasks/notification_tasks.py, which does not define it, and that import runs before the try/finally at lines 71-161. So the real task reads, writes and returns nothing. The model describes the loop as if the import resolved, and leaves out the alert it would send (lines 131-137).
- Streaming.StreamCamera: the release of the capture is no longer promised for every opened source. `stream_camera` has no try/finally, so a raise from `cv2.imencode`, `b64encode` or `redis_client.set` (gismap/tasks/streaming_tasks.py:27-29) ends the task before `cap.release()` at line 33. A raise from `cap.read` or `time.sleep` is not modelled.
- Base64 decoding is strict (section 4 of RFC 4648). Python's `b64decode` silently discards characters outside the alphabet, and that leniency is not modelled.
- Concurrency is left out. Celery workers, the threads of the camera pool, and races on the process-local `running_streams` set are not modelled; each task runs alone over the state it is given.
- `User` in authentification/models.py declares no `cin` field, so `User.objects.filter(cin=...)` relies on a field defined elsewhere. `Accounts.User` carries `cin` as an optional column.
- `RegexValidator` is not imported in authentification/forms/admin/formsAdmin.py. `AdminAccountForms.CinField` models the field as if the import existed.
- Form saving (`CreateAgentForm.save` and similar) and Django's own field validation other than the CIN field are left out. `validate_email` is a parameter.
- AlertTasks.MonitorCameraHealth: inside the per-camera offline block, a raise from `update_camera_status.delay` after `send_system_alert.delay` succeeded is swallowed, leaving the alert without the status; the model treats that block as all or nothing (`reread` gives `None` when any part raised).
- `send_periodic_stats`, `backup_detections` and `test_notification_system` (gismap/tasks/notification_tasks.py:314-436) are left out: they only gather counts, write files or send fixed test messages.
- Payloads are JSON values; their text serialisation and the ISO timestamps are inputs.
- NumPy slicing with a negative stop is modelled (`Geometry.NegativeStopWraps`), but the crop is only characterised for boxes whose grown edges are non-negative. YOLO's boxes lie inside the resized frame.
- The polling loops (`while True`, capture reads, the streaming view's generator) are finite sequences of events or polls. An infinite run is any of its prefixes.
- `departement_id` arrives as text from the query string. `Streaming.AllCamerasStream` takes it already converted to a department number; an empty string counts as absent.
- pan.js declares `addToCart` twice. Only the second declaration is reachable, so the first (an alert only) is not modelled.
- Text.ParseInt carries no contract of its own; its behaviour is stated by `Text.ParseIntOfNatToString` and `Text.ParseIntRejectsNonNumeric`.
- Text.Strip states only a length bound in its own contract; the full characterisation is `Text.StripRemovesOnlyEndSpaces`.
- The streamer writes base64 text under `camera_frame_{id}`, which is what the detection loop and the MJPEG view read. The fire task reads raw JPEG bytes under `camera:{id}:frame` (gismap/tasks/fire_clip_tasks.py:73), which none of the modelled tasks writes; the fire model takes its frames as events. It writes its annotated frame under `frame:{id}:fire` and its result under `result:{id}:fire`.
- `health_check_cameras` TTLs come from Redis. The streamer sets no expiry, which is why `Detection.StreamedKeyReadsInactive` holds.

## Findings

| source | as written | input that shows it | evidently intended | confidence | as-written member | corrected member |
|---|---|---|---|---|---|---|
| gismap/tasks/streaming_tasks.py:43-45 | `stream_all_cameras` passes `camera.rtsp_url`, but the camera model (gismap/models.py:16) names the field `url`. The guard has already marked the camera running when the attribute lookup raises. | Any camera not yet running: the task raises `AttributeError` and launches nothing. The camera stays marked running, so later calls never launch it. | Pass the camera's `url`, so every camera the guard admits is launched once. | not executed | Streaming.StartStreamsAsWritten, Streaming.StrandedCamera | Streaming.StartStreams, Streaming.RepeatLaunchesNothing |
| gismap/streaming_views.py:36-38 | `all_cameras_stream` makes the same `camera.rtsp_url` lookup after the guard marks the camera. | Any listed camera not yet running: the view fails and launches nothing. | Launch each listed camera that is not yet running, with its `url`. | not executed | Streaming.AllCamerasStreamAsWritten | Streaming.AllCamerasStream |

=== FILE: base64.dfy ===
/** The standard base64 alphabet and padding of section 4 of RFC 4648, as
    Python's `base64.b64encode` / `base64.b64decode` use it for camera
    frames and notification images. Decoding here is strict: a string that
    is not a padded sequence of alphabet quartets is rejected. */
module Base64 {
  import opened Wrappers

  type Byte = x: int | 0 <= x < 256
  type Sextet = x: int | 0 <= x < 64

  /** The character that encodes a 6-bit value. */
  function Symbol(v: Sextet): char
  {
    if v < 26 then ('A' as int + v) as char
    else if v < 52 then ('a' as int + (v - 26)) as char
    else if v < 62 then ('0' as int + (v - 52)) as char
    else if v == 62 then '+'
    else '/'
  }

  predicate IsSymbol(c: char)
  {
    ('A' <= c <= 'Z') || ('a' <= c <= 'z') || ('0' <= c <= '9') || c == '+' || c == '/'
  }

  /** The 6-bit value a symbol stands for; the inverse of `Symbol`. */
  function SymbolValue(c: char): (v: Sextet)
    requires IsSymbol(c)
    ensures Symbol(v) == c
  {
    if 'A' <= c <= 'Z' then c as int - 'A' as int
    else if 'a' <= c <= 'z' then c as int - 'a' as int + 26
    else if '0' <= c <= '9' then c as int - '0' as int + 52
    else if c == '+' then 62
    else 63
  }

  lemma SymbolRoundTrip(v: Sextet)
    ensures IsSymbol(Symbol(v)) && SymbolValue(Symbol(v)) == v
  {
  }

  // ---------------------------------------------------------------------
  // Quartets

  function EncodeTriple(a: Byte, b: Byte, c: Byte): (q: string)
    ensures |q| == 4
  {
    [Symbol(a / 4), Symbol((a % 4) * 16 + b / 16), Symbol((b % 16) * 4 + c / 64), Symbol(c % 64)]
  }

  function EncodePair(a: Byte, b: Byte): (q: string)
    ensures |q| == 4
  {
    [Symbol(a / 4), Symbol((a % 4) * 16 + b / 16), Symbol((b % 16) * 4), '=']
  }

  function EncodeSingle(a: Byte): (q: string)
    ensures |q| == 4
  {
    [Symbol(a / 4), Symbol((a % 4) * 16), '=', '=']
  }

  /** Four alphabet symbols carry three bytes. */
  function DecodeFull(q: string): Option<seq<Byte>>
    requires |q| == 4
  {
    if IsSymbol(q[0]) && IsSymbol(q[1]) && IsSymbol(q[2]) && IsSymbol(q[3]) then
      var v0, v1, v2, v3 := SymbolValue(q[0]), SymbolValue(q[1]), SymbolValue(q[2]), SymbolValue(q[3]);
      Some([v0 * 4 + v1 / 16, (v1 % 16) * 16 + v2 / 4, (v2 % 4) * 64 + v3])
    else None
  }

  /** The final quartet may end in one or two padding characters. */
  function DecodeLast(q: string): Option<seq<Byte>>
    requires |q| == 4
  {
    if q[2] == '=' && q[3] == '=' then
      if IsSymbol(q[0]) && IsSymbol(q[1]) then
        Some([SymbolValue(q[0]) * 4 + SymbolValue(q[1]) / 16])
      else None
    else if q[3] == '=' then
      if IsSymbol(q[0]) && IsSymbol(q[1]) && IsSymbol(q[2]) then
        var v1, v2 := SymbolValue(q[1]), SymbolValue(q[2]);
        Some([SymbolValue(q[0]) * 4 + v1 / 16, (v1 % 16) * 16 + v2 / 4])
      else None
    else DecodeFull(q)
  }

  lemma TripleRoundTrip(a: Byte, b: Byte, c: Byte)
    ensures DecodeFull(EncodeTriple(a, b, c)) == Some([a, b, c])
    ensures DecodeLast(EncodeTriple(a, b, c)) == Some([a, b, c])
  {
    var v0, v1, v2, v3 := a / 4, (a % 4) * 16 + b / 16, (b % 16) * 4 + c / 64, c % 64;
    SextetBounds(a, b, c);
    assert EncodeTriple(a, b, c) == [Symbol(v0), Symbol(v1), Symbol(v2), Symbol(v3)];
    SymbolsDecode(v0, v1, v2, v3);
    TripleBits(a, b, c);
  }

  /** Four symbols decode to the bytes their 24 bits spell. */
  lemma SymbolsDecode(v0: Sextet, v1: Sextet, v2: Sextet, v3: Sextet)
    ensures var q := [Symbol(v0), Symbol(v1), Symbol(v2), Symbol(v3)];
      && DecodeFull(q) == Some([v0 * 4 + v1 / 16, (v1 % 16) * 16 + v2 / 4, (v2 % 4) * 64 + v3])
      && DecodeLast(q) == DecodeFull(q)
  {
    SymbolRoundTrip(v0);
    SymbolRoundTrip(v1);
    SymbolRoundTrip(v2);
    SymbolRoundTrip(v3);
  }

  /** Each of the four pieces a triple is cut into fits in six bits. */
  lemma SextetBounds(a: Byte, b: Byte, c: Byte)
    ensures 0 <= a / 4 < 64 && 0 <= (a % 4) * 16 + b / 16 < 64
    ensures 0 <= (b % 16) * 4 + c / 64 < 64 && 0 <= c % 64 < 64
  {
  }

  /** The three bytes come back from the four sextets they were cut into. */
  lemma TripleBits(a: Byte, b: Byte, c: Byte)
    ensures var v0, v1, v2, v3 := a / 4, (a % 4) * 16 + b / 16, (b % 16) * 4 + c / 64, c % 64;
      [v0 * 4 + v1 / 16, (v1 % 16) * 16 + v2 / 4, (v2 % 4) * 64 + v3] == [a, b, c]
  {
    JoinFirst(a, b);
    JoinSecond(b, (a % 4) * 16 + b / 16, c);
    JoinThird(b, c);
  }

  /** The first byte comes back from its six high bits and the two bits
      carried into the second symbol. */
  lemma JoinFirst(a: Byte, b: Byte)
    ensures (a / 4) * 4 + ((a % 4) * 16 + b / 16) / 16 == a
  {
    assert ((a % 4) * 16 + b / 16) / 16 == a % 4;
  }

  /** The second byte: four bits from the second symbol, four from the
      third. */
  lemma JoinSecond(b: Byte, v1: int, c: Byte)
    requires v1 % 16 == b / 16
    ensures (v1 % 16) * 16 + ((b % 16) * 4 + c / 64) / 4 == b
  {
    assert ((b % 16) * 4 + c / 64) / 4 == b % 16;
  }

  /** The third byte: two bits from the third symbol, six from the fourth. */
  lemma JoinThird(b: Byte, c: Byte)
    ensures (((b % 16) * 4 + c / 64) % 4) * 64 + c % 64 == c
  {
    assert ((b % 16) * 4 + c / 64) % 4 == c / 64;
  }

  lemma PairRoundTrip(a: Byte, b: Byte)
    ensures DecodeLast(EncodePair(a, b)) == Some([a, b])
  {
    var v0, v1, v2 := a / 4, (a % 4) * 16 + b / 16, (b % 16) * 4;
    SymbolRoundTrip(v0);
    SymbolRoundTrip(v1);
    SymbolRoundTrip(v2);
    assert EncodePair(a, b) == [Symbol(v0), Symbol(v1), Symbol(v2), '='];
    JoinFirst(a, b);
    JoinSecond(b, v1, 0);
  }

  lemma SingleRoundTrip(a: Byte)
    ensures DecodeLast(EncodeSingle(a)) == Some([a])
  {
    SymbolRoundTrip(a / 4);
    SymbolRoundTrip((a % 4) * 16);
    JoinFirst(a, 0);
  }

  // ---------------------------------------------------------------------
  // Whole strings

  /** `base64.b64encode(data).decode()`. */
  function Encode(data: seq<Byte>): (s: string)
    ensures |s| % 4 == 0
    ensures |s| == 0 <==> |data| == 0
  {
    if |data| == 0 then ""
    else if |data| == 1 then EncodeSingle(data[0])
    else if |data| == 2 then EncodePair(data[0], data[1])
    else
      var rest := Encode(data[3..]);
      assert |EncodeTriple(data[0], data[1], data[2]) + rest| == 4 + |rest|;
      EncodeTriple(data[0], data[1], data[2]) + rest
  }

  /** Strict `base64.b64decode`: `None` where Python raises or would have
      to discard characters. */
  function Decode(s: string): Option<seq<Byte>>
    decreases |s|
  {
    if |s| == 0 then Some([])
    else if |s| < 4 then None
    else if |s| == 4 then DecodeLast(s)
    else
      match DecodeFull(s[..4])
      case None => None
      case Some(head) =>
        match Decode(s[4..])
        case None => None
        case Some(tail) => Some(head + tail)
  }

  /** A full leading quartet decodes on its own, ahead of the rest. */
  lemma {:induction false} DecodeQuartetThen(q: string, rest: string)
    requires |q| == 4 && rest != []
    requires DecodeFull(q).Some? && Decode(rest).Some?
    ensures Decode(q + rest) == Some(DecodeFull(q).value + Decode(rest).value)
  {
    var s := q + rest;
    assert s[..4] == q;
    assert s[4..] == rest;
  }

  /** Decoding undoes encoding. */
  lemma {:induction false} DecodeEncode(data: seq<Byte>)
    ensures Decode(Encode(data)) == Some(data)
    decreases |data|
  {
    if |data| == 1 {
      OneByteRoundTrip(data);
    } else if |data| == 2 {
      TwoBytesRoundTrip(data);
    } else if |data| == 3 {
      ThreeBytesRoundTrip(data);
    } else if |data| > 3 {
      DecodeEncode(data[3..]);
      LongRoundTrip(data);
    }
  }

  lemma OneByteRoundTrip(data: seq<Byte>)
    requires |data| == 1
    ensures Decode(Encode(data)) == Some(data)
  {
    SingleRoundTrip(data[0]);
    assert Encode(data) == EncodeSingle(data[0]);
    assert data == [data[0]];
  }

  lemma TwoBytesRoundTrip(data: seq<Byte>)
    requires |data| == 2
    ensures Decode(Encode(data)) == Some(data)
  {
    PairRoundTrip(data[0], data[1]);
    assert Encode(data) == EncodePair(data[0], data[1]);
    assert data == [data[0], data[1]];
  }

  lemma ThreeBytesRoundTrip(data: seq<Byte>)
    requires |data| == 3
    ensures Decode(Encode(data)) == Some(data)
  {
    EncodeSplits(data);
    assert Encode(data[3..]) == [];
    assert EncodeTriple(data[0], data[1], data[2]) + [] == EncodeTriple(data[0], data[1], data[2]);
    TripleRoundTrip(data[0], data[1], data[2]);
    assert data == [data[0], data[1], data[2]];
  }

  lemma {:induction false} LongRoundTrip(data: seq<Byte>)
    requires |data| > 3
    requires Decode(Encode(data[3..])) == Some(data[3..])
    ensures Decode(Encode(data)) == Some(data)
  {
    EncodeSplits(data);
    TripleThen(data[0], data[1], data[2], Encode(data[3..]), data[3..]);
  }

  /** From three bytes on, the encoding is a full quartet followed by the
      encoding of the rest. */
  lemma EncodeSplits(data: seq<Byte>)
    requires |data| >= 3
    ensures Encode(data) == EncodeTriple(data[0], data[1], data[2]) + Encode(data[3..])
    ensures data == [data[0], data[1], data[2]] + data[3..]
  {
    HeadThenRest(data);
  }

  lemma HeadThenRest<T>(s: seq<T>)
    requires |s| >= 3
    ensures s == [s[0], s[1], s[2]] + s[3..]
  {
    var t := [s[0], s[1], s[2]] + s[3..];
    assert |t| == |s|;
    assert forall i :: 0 <= i < |s| ==> t[i] == s[i];
  }

  /** A full quartet ahead of a decodable encoding decodes to its three
      bytes ahead of the rest. */
  lemma TripleThen(a: Byte, b: Byte, c: Byte, rest: string, tail: seq<Byte>)
    requires Decode(rest) == Some(tail)
    requires |rest| % 4 == 0
    ensures Decode(EncodeTriple(a, b, c) + rest) == Some([a, b, c] + tail)
  {
    var q := EncodeTriple(a, b, c);
    TripleRoundTrip(a, b, c);
    if rest == [] {
      assert q + rest == q;
      assert [a, b, c] + tail == [a, b, c];
    } else {
      DecodeQuartetThen(q, rest);
    }
  }

  // ---------------------------------------------------------------------
  // Re-padding

  /** `-n % 4` with Python's floor modulo: the '=' count that brings `n`
      up to a multiple of four. */
  function PaddingNeeded(n: nat): (k: nat)
    ensures k < 4
    ensures (n + k) % 4 == 0
    ensures n % 4 == 0 ==> k == 0
  {
    (-(n as int)) % 4
  }

  function Equals(k: nat): (s: string)
    ensures |s| == k && forall i :: 0 <= i < k ==> s[i] == '='
  {
    if k == 0 then "" else Equals(k - 1) + "="
  }

  /** `s + '=' * (-len(s) % 4)`. */
  function Repad(s: string): (r: string)
    ensures |r| % 4 == 0
    ensures |s| <= |r| < |s| + 4 && r[..|s|] == s
    ensures forall i :: |s| <= i < |r| ==> r[i] == '='
    ensures |s| % 4 == 0 ==> r == s
  {
    s + Equals(PaddingNeeded(|s|))
  }

  /** The encoding with its trailing '=' characters dropped, as some
      producers send it. */
  function Unpadded(s: string): (r: string)
    ensures |r| <= |s| && r == s[..|r|]
    decreases |s|
  {
    if |s| > 0 && s[|s| - 1] == '=' then Unpadded(s[..|s| - 1]) else s
  }

  /** An encoding is already aligned, so re-padding leaves it alone, and
      re-padding an encoding stripped of its '=' restores it. */
  lemma RepadRestoresEncoding(data: seq<Byte>)
    ensures Repad(Encode(data)) == Encode(data)
    ensures Repad(Unpadded(Encode(data))) == Encode(data)
  {
    var e := Encode(data);
    var u := Unpadded(e);
    PaddingOfEncoding(data);
    UnpaddedDropsPadding(e);
    assert |u| == |e| || e[|u|] == '=';
    assert |u| >= |e| - 2;
    var k := |e| - |u|;
    assert k < 4 && (|u| + k) % 4 == 0;
    assert PaddingNeeded(|u|) == k;
    assert Repad(u) == u + Equals(k);
    assert e == u + e[|u|..];
  }

  /** An encoding ends in at most two '=' and none precede them. */
  lemma PaddingOfEncoding(data: seq<Byte>)
    ensures forall i :: 0 <= i < |Encode(data)| - 2 ==> Encode(data)[i] != '='
  {
    var e := Encode(data);
    if |data| >= 3 {
      PaddingOfEncoding(data[3..]);
      var q := EncodeTriple(data[0], data[1], data[2]);
      assert e == q + Encode(data[3..]);
      forall i | 0 <= i < |e| - 2
        ensures e[i] != '='
      {
        if i < 4 {
          SymbolRoundTrip(0);
          assert IsSymbol(q[i]);
        } else {
          assert e[i] == Encode(data[3..])[i - 4];
        }
      }
    } else if |data| == 2 {
      assert IsSymbol(e[0]) && IsSymbol(e[1]);
    } else if |data| == 1 {
      assert IsSymbol(e[0]) && IsSymbol(e[1]);
    }
  }

  /** `Unpadded` removes exactly the trailing '=' run. */
  lemma {:induction false} UnpaddedDropsPadding(s: string)
    ensures forall i :: |Unpadded(s)| <= i < |s| ==> s[i] == '='
    ensures Unpadded(s) == [] || Unpadded(s)[|Unpadded(s)| - 1] != '='
    decreases |s|
  {
    if |s| > 0 && s[|s| - 1] == '=' {
      UnpaddedDropsPadding(s[..|s| - 1]);
    }
  }
}

=== FILE: cart.dfy ===
/** The cart of static/js/pan.js. The file declares `addToCart` twice; a
    later function declaration replaces an earlier one, so the button runs
    the second: it bumps the quantity of product 1 or appends it. */
module Cart {

  datatype Item = Item(productId: int, quantity: int)

  /** The product the handler always adds. */
  const ProductId := 1

  /** `cart.find(item => item.productId === id)`, as an index. */
  function Find(cart: seq<Item>, id: int): (k: int)
    ensures -1 <= k < |cart|
    ensures k >= 0 ==> cart[k].productId == id && forall j :: 0 <= j < k ==> cart[j].productId != id
    ensures k == -1 ==> forall j :: 0 <= j < |cart| ==> cart[j].productId != id
    decreases |cart|
  {
    if cart == [] then -1
    else if cart[0].productId == id then 0
    else
      var k := Find(cart[1..], id);
      assert forall j :: 1 <= j < |cart| ==> cart[j] == cart[1..][j - 1];
      if k == -1 then -1 else k + 1
  }

  /** The effective `addToCart`: the first item for the product gets one
      more, otherwise `{productId: 1, quantity: 1}` is appended. */
  function AddToCart(cart: seq<Item>): (r: seq<Item>)
    ensures Find(cart, ProductId) >= 0 ==>
              var k := Find(cart, ProductId);
              |r| == |cart| && r[k] == Item(ProductId, cart[k].quantity + 1)
              && forall j :: 0 <= j < |cart| && j != k ==> r[j] == cart[j]
    ensures Find(cart, ProductId) == -1 ==> r == cart + [Item(ProductId, 1)]
  {
    var k := Find(cart, ProductId);
    if k >= 0 then cart[k := Item(ProductId, cart[k].quantity + 1)]
    else cart + [Item(ProductId, 1)]
  }

  predicate UniqueIds(cart: seq<Item>)
  {
    forall i, j :: 0 <= i < j < |cart| ==> cart[i].productId != cart[j].productId
  }

  /** The quantity the cart records for a product, 0 when it is absent. */
  function QuantityOf(cart: seq<Item>, id: int): int
  {
    var k := Find(cart, id);
    if k >= 0 then cart[k].quantity else 0
  }

  /** Adding keeps product ids unique, adds exactly one to the product's
      quantity, leaves every other product's quantity alone, and grows the
      cart by at most one item. */
  lemma AddToCartKeepsCart(cart: seq<Item>)
    requires UniqueIds(cart)
    ensures UniqueIds(AddToCart(cart))
    ensures QuantityOf(AddToCart(cart), ProductId) == QuantityOf(cart, ProductId) + 1
    ensures forall id :: id != ProductId ==> QuantityOf(AddToCart(cart), id) == QuantityOf(cart, id)
    ensures |cart| <= |AddToCart(cart)| <= |cart| + 1
  {
    var r := AddToCart(cart);
    var k := Find(cart, ProductId);
    forall id | id != ProductId
      ensures QuantityOf(r, id) == QuantityOf(cart, id)
    {
      FindUnchanged(cart, r, id);
    }
    if k == -1 {
      assert r[|cart|].productId == ProductId;
      FindAfterAppend(cart, ProductId);
    } else {
      FindSameIds(cart, r, ProductId);
    }
  }

  /** Carts with the same product ids at every position find the same
      index. */
  lemma {:induction false} FindSameIds(a: seq<Item>, b: seq<Item>, id: int)
    requires |a| == |b| && forall j :: 0 <= j < |a| ==> a[j].productId == b[j].productId
    ensures Find(a, id) == Find(b, id)
    decreases |a|
  {
    if a != [] {
      FindSameIds(a[1..], b[1..], id);
    }
  }

  /** Products other than the one added are found where they were, with
      the same item. */
  lemma FindUnchanged(cart: seq<Item>, r: seq<Item>, id: int)
    requires r == AddToCart(cart) && id != ProductId
    ensures Find(r, id) == Find(cart, id)
    ensures Find(cart, id) >= 0 ==> r[Find(r, id)] == cart[Find(cart, id)]
  {
    if Find(cart, ProductId) >= 0 {
      FindSameIds(cart, r, id);
    } else {
      FindAfterAppend(cart, id);
    }
  }

  lemma {:induction false} FindAfterAppend(cart: seq<Item>, id: int)
    ensures var k := Find(cart + [Item(ProductId, 1)], id);
      if Find(cart, id) >= 0 then k == Find(cart, id)
      else if id == ProductId then k == |cart|
      else k == -1
    decreases |cart|
  {
    var ext := cart + [Item(ProductId, 1)];
    if cart != [] {
      assert ext[1..] == cart[1..] + [Item(ProductId, 1)];
      FindAfterAppend(cart[1..], id);
    } else {
      assert ext[1..] == [];
    }
  }

  /** Pressing the button `n` times on an empty cart leaves one item for
      the product with quantity `n`. */
  function Press(cart: seq<Item>, n: nat): seq<Item>
  {
    if n == 0 then cart else AddToCart(Press(cart, n - 1))
  }

  lemma {:induction false} PressesAccumulate(n: nat)
    ensures n > 0 ==> Press([], n) == [Item(ProductId, n)]
    ensures n == 0 ==> Press([], n) == []
  {
    if n > 1 {
      PressesAccumulate(n - 1);
      assert Find([Item(ProductId, n - 1)], ProductId) == 0;
    }
  }
}

=== FILE: detect.dfy ===
/** The plate-detection task of gismap/tasks/yolo_detect_task.py: frame
    decoding, the box filter and crop of `process_detections`, the polling
    loop of `detect_from_redis` as a state machine over abstract events, and
    `health_check_cameras`. The YOLO model, OpenCV and Redis are inputs. */
module Detection {
  import opened Wrappers
  import opened Text
  import opened Geometry
  import Base64

  /** Frames are resized to 640x384 before detection. */
  const FrameWidth: nat := 640
  const FrameHeight: nat := 384
  const MinBoxWidth := 50
  const MinBoxHeight := 20
  const CropMargin: nat := 5
  const MaxConsecutiveErrors: nat := 10
  const DefaultMaxIterations := 1000
  const FrameKeyPrefix := "camera_frame_"

  // ---------------------------------------------------------------------
  // Decoding a stored frame

  /** `decode_frame_from_redis`: re-pad, base64-decode, and hand the bytes
      to the image decoder `imageDecodes`; any failure gives `None`. */
  function DecodeFrame(encoded: string, imageDecodes: seq<Base64.Byte> -> bool): (frame: Option<seq<Base64.Byte>>)
    ensures frame.Some? ==> imageDecodes(frame.value) && Base64.Decode(Base64.Repad(encoded)) == Some(frame.value)
    ensures var bytes := Base64.Decode(Base64.Repad(encoded));
      bytes.Some? && imageDecodes(bytes.value) ==> frame == bytes
  {
    match Base64.Decode(Base64.Repad(encoded))
    case None => None
    case Some(bytes) => if imageDecodes(bytes) then Some(bytes) else None
  }

  /** A frame the streamer stored decodes back to its JPEG bytes, whether
      or not its padding survived. */
  lemma StoredFrameDecodes(jpeg: seq<Base64.Byte>, imageDecodes: seq<Base64.Byte> -> bool)
    requires imageDecodes(jpeg)
    ensures DecodeFrame(Base64.Encode(jpeg), imageDecodes) == Some(jpeg)
    ensures DecodeFrame(Base64.Unpadded(Base64.Encode(jpeg)), imageDecodes) == Some(jpeg)
  {
    Base64.RepadRestoresEncoding(jpeg);
    Base64.DecodeEncode(jpeg);
  }

  // ---------------------------------------------------------------------
  // Detector output

  datatype Detection = Detection(bbox: Box, confidence: real)

  /** The predictor's results: per result, its boxes, or `None` when the
      result has no box tensor. */
  type Prediction = seq<Option<seq<Detection>>>

  /** `YOLODetector.detect_plates`: `prediction` is `None` when inference
      raised, and then the result is an empty list with no raw results. */
  function DetectPlates(prediction: Option<Prediction>): (r: (seq<Detection>, Option<Prediction>))
    ensures prediction.None? ==> r == ([], None)
    ensures r.1 == prediction
  {
    match prediction
    case None => ([], None)
    case Some(results) => (Flatten(results), Some(results))
  }

  // ---------------------------------------------------------------------
  // process_detections

  /** Boxes narrower than 50 or shorter than 20 pixels are skipped. */
  predicate Accepted(d: Detection)
  {
    d.bbox.Width() >= MinBoxWidth && d.bbox.Height() >= MinBoxHeight
  }

  /** The crop sent to OCR: the box grown by 5 pixels, cut by numpy. */
  function PlateCrop(d: Detection): Region
  {
    Crop(d.bbox, CropMargin, FrameWidth, FrameHeight)
  }

  /** One `run_ocr_task.delay` call: the JPEG of `crop` for `cameraId`. */
  datatype OcrDispatch = OcrDispatch(crop: Region, cameraId: int)

  /** What one detection contributes to the drawing and to OCR. */
  function DrawnFor(d: Detection): seq<Box>
  {
    if Accepted(d) then [d.bbox] else []
  }

  function SentFor(d: Detection, cameraId: int): seq<OcrDispatch>
  {
    if Accepted(d) && !PlateCrop(d).IsEmpty() then [OcrDispatch(PlateCrop(d), cameraId)] else []
  }

  /** The boxes drawn on the annotated frame, in order. */
  function AnnotatedBoxes(dets: seq<Detection>): seq<Box>
  {
    if dets == [] then [] else DrawnFor(dets[0]) + AnnotatedBoxes(dets[1..])
  }

  /** The OCR dispatches, in order. */
  function Dispatches(dets: seq<Detection>, cameraId: int): seq<OcrDispatch>
  {
    if dets == [] then [] else SentFor(dets[0], cameraId) + Dispatches(dets[1..], cameraId)
  }

  lemma DispatchesSnoc(dets: seq<Detection>, d: Detection, cameraId: int)
    ensures Dispatches(dets + [d], cameraId) == Dispatches(dets, cameraId) + SentFor(d, cameraId)
    ensures AnnotatedBoxes(dets + [d]) == AnnotatedBoxes(dets) + DrawnFor(d)
  {
    SentSnoc(dets, d, cameraId);
    DrawnSnoc(dets, d);
  }

  lemma {:induction false} SentSnoc(dets: seq<Detection>, d: Detection, cameraId: int)
    ensures Dispatches(dets + [d], cameraId) == Dispatches(dets, cameraId) + SentFor(d, cameraId)
  {
    if dets == [] {
      assert [] + [d] == [d];
      assert [d][1..] == [];
    } else {
      assert (dets + [d])[1..] == dets[1..] + [d];
      SentSnoc(dets[1..], d, cameraId);
    }
  }

  lemma {:induction false} DrawnSnoc(dets: seq<Detection>, d: Detection)
    ensures AnnotatedBoxes(dets + [d]) == AnnotatedBoxes(dets) + DrawnFor(d)
  {
    if dets == [] {
      assert [] + [d] == [d];
      assert [d][1..] == [];
    } else {
      assert (dets + [d])[1..] == dets[1..] + [d];
      DrawnSnoc(dets[1..], d);
    }
  }

  /** `process_detections`, as its loop runs: every accepted box is drawn,
      and every accepted box whose crop is not empty is sent to OCR. */
  method ProcessDetections(dets: seq<Detection>, cameraId: int) returns (sent: seq<OcrDispatch>, drawn: seq<Box>)
    ensures sent == Dispatches(dets, cameraId)
    ensures drawn == AnnotatedBoxes(dets)
  {
    sent := [];
    drawn := [];
    var k := 0;
    while k < |dets|
      invariant 0 <= k <= |dets|
      invariant sent == Dispatches(dets[..k], cameraId)
      invariant drawn == AnnotatedBoxes(dets[..k])
    {
      var d := dets[k];
      assert dets[..k + 1] == dets[..k] + [d];
      DispatchesSnoc(dets[..k], d, cameraId);
      var width, height := d.bbox.x2 - d.bbox.x1, d.bbox.y2 - d.bbox.y1;
      if width < MinBoxWidth || height < MinBoxHeight {
        k := k + 1;
        continue;
      }
      var crop := PlateCrop(d);
      if !crop.IsEmpty() {
        sent := sent + [OcrDispatch(crop, cameraId)];
      }
      drawn := drawn + [d.bbox];
      k := k + 1;
    }
    assert dets[..k] == dets;
  }

  /** A box is drawn iff it passes the size filter, and every OCR request
      is for an accepted box's non-empty crop inside the frame. */
  lemma ProcessedBoxes(dets: seq<Detection>, cameraId: int)
    ensures forall b :: b in AnnotatedBoxes(dets) <==> exists d :: d in dets && Accepted(d) && d.bbox == b
    ensures forall o :: o in Dispatches(dets, cameraId) ==>
              exists d :: d in dets && Accepted(d) && o.crop == PlateCrop(d) && !o.crop.IsEmpty()
    ensures forall o :: o in Dispatches(dets, cameraId) ==>
              o.cameraId == cameraId && o.crop.cols.hi <= FrameWidth && o.crop.rows.hi <= FrameHeight
    ensures |Dispatches(dets, cameraId)| <= |AnnotatedBoxes(dets)|
  {
    DrawnBoxes(dets);
    SentBoxes(dets, cameraId);
  }

  lemma {:induction false} DrawnBoxes(dets: seq<Detection>)
    ensures forall b :: b in AnnotatedBoxes(dets) <==> exists d :: d in dets && Accepted(d) && d.bbox == b
  {
    if dets != [] {
      DrawnBoxes(dets[1..]);
      assert forall d :: d in dets[1..] ==> d in dets;
      assert forall d :: d in dets ==> d == dets[0] || d in dets[1..];
    }
  }

  lemma {:induction false} SentBoxes(dets: seq<Detection>, cameraId: int)
    ensures forall o :: o in Dispatches(dets, cameraId) ==>
              exists d :: d in dets && Accepted(d) && o.crop == PlateCrop(d) && !o.crop.IsEmpty()
    ensures forall o :: o in Dispatches(dets, cameraId) ==>
              o.cameraId == cameraId && o.crop.cols.hi <= FrameWidth && o.crop.rows.hi <= FrameHeight
    ensures |Dispatches(dets, cameraId)| <= |AnnotatedBoxes(dets)|
  {
    if dets != [] {
      SentBoxes(dets[1..], cameraId);
      assert forall d :: d in dets[1..] ==> d in dets;
    }
  }

  /** A box below the size limits produces no request and no drawing. */
  lemma SmallBoxIgnored(d: Detection, rest: seq<Detection>, cameraId: int)
    requires d.bbox.Width() < MinBoxWidth || d.bbox.Height() < MinBoxHeight
    ensures Dispatches([d] + rest, cameraId) == Dispatches(rest, cameraId)
    ensures AnnotatedBoxes([d] + rest) == AnnotatedBoxes(rest)
  {
    assert ([d] + rest)[1..] == rest;
  }

  /** A box inside the frame gets exactly one request, for the box grown
      by the margin and clamped to the frame. */
  lemma PlateInFrameDispatched(d: Detection, rest: seq<Detection>, cameraId: int)
    requires Accepted(d)
    requires 0 <= d.bbox.x1 && d.bbox.x2 <= FrameWidth && 0 <= d.bbox.y1 && d.bbox.y2 <= FrameHeight
    ensures Dispatches([d] + rest, cameraId) == [OcrDispatch(PlateCrop(d), cameraId)] + Dispatches(rest, cameraId)
    ensures PlateCrop(d).cols == Span(Max(0, d.bbox.x1 - 5), Min(FrameWidth, d.bbox.x2 + 5))
    ensures PlateCrop(d).rows == Span(Max(0, d.bbox.y1 - 5), Min(FrameHeight, d.bbox.y2 + 5))
  {
    CropIsClampedGrownBox(d.bbox, CropMargin, FrameWidth, FrameHeight);
    assert ([d] + rest)[1..] == rest;
  }

  // ---------------------------------------------------------------------
  // detect_from_redis

  /** What one pass of the polling loop meets. */
  datatype Event =
      /** `r.get` gave nothing (or an empty value). */
    | FrameAbsent
      /** The stored value did not decode to an image. */
    | Undecodable
      /** A decoded frame; `prediction` is the detector's answer and `quit`
          says the display window reported 'q'. */
    | Frame(prediction: Option<Prediction>, quit: bool)
      /** `redis.ConnectionError` from the store. */
    | StoreLost
      /** Any other exception in the pass: `progress` is `None` when it
          struck before the frame decoded and the counter was reset, and
          otherwise says how far the frame got before the raise. */
    | Crash(progress: Option<Progress>)
      /** An exception escaping the loop, such as `KeyboardInterrupt`;
          `progress` says how far the frame of that pass got, as for a
          crash, since the requests queued before it stay queued. */
    | Interrupted(progress: Option<Progress>)

  /** A decoded frame whose pass then raised: the detector's answer (`None`
      when the raise came before detection finished) and how many of the
      frame's OCR requests were queued before the exception. A raise after
      `process_detections` returned, in the display or the cleanup, has
      queued them all. */
  datatype Progress = Progress(prediction: Option<Prediction>, queued: nat)

  /** The OCR requests queued before an exception in a pass that got as
      far as `progress`: a prefix of the frame's requests, all of them once
      `process_detections` has returned, none before the frame decoded. */
  function QueuedBefore(cameraId: int, progress: Option<Progress>): (r: seq<OcrDispatch>)
    ensures progress.None? ==> r == []
    ensures progress.Some? ==>
      var all := Dispatches(DetectPlates(progress.value.prediction).0, cameraId);
      && |r| <= |all| && r == all[..|r|]
      && (progress.value.queued >= |all| ==> r == all)
  {
    match progress
    case None => []
    case Some(p) =>
      var all := Dispatches(DetectPlates(p.prediction).0, cameraId);
      all[..Min(p.queued, |all|)]
  }

  /** The OCR requests one pass queues: all of a frame's dispatches, those
      queued before a crash or an interrupt, nothing otherwise. */
  function EventSent(cameraId: int, e: Event): (r: seq<OcrDispatch>)
    ensures e.Frame? ==> r == Dispatches(DetectPlates(e.prediction).0, cameraId)
    ensures e.Crash? || e.Interrupted? ==> r == QueuedBefore(cameraId, e.progress)
    ensures e.FrameAbsent? || e.Undecodable? || e.StoreLost? ==> r == []
  {
    match e
    case Frame(prediction, _) => Dispatches(DetectPlates(prediction).0, cameraId)
    case Crash(progress) => QueuedBefore(cameraId, progress)
    case Interrupted(progress) => QueuedBefore(cameraId, progress)
    case _ => []
  }

  datatype LoopState = LoopState(iterations: nat, errors: nat, running: bool, sent: seq<OcrDispatch>)

  /** One pass of the loop body. */
  function Step(cameraId: int, s: LoopState, e: Event): (t: LoopState)
    ensures e.FrameAbsent? ==> t == s
    ensures t.iterations == s.iterations + (if e.Frame? && !e.quit then 1 else 0)
    ensures e.Frame? ==> t.errors == 0
    ensures e.Undecodable? || e.StoreLost? ==> t.errors == s.errors + 1
    ensures e.Crash? ==> t.errors == (if e.progress.Some? then 1 else s.errors + 1)
    ensures t.sent == s.sent + EventSent(cameraId, e)
    ensures !t.running <==> (e.Frame? && e.quit) || e.Interrupted? || !s.running
                             || ((e.Undecodable? || e.Crash?) && t.errors > MaxConsecutiveErrors)
  {
    match e
    case FrameAbsent => s
    case Undecodable =>
      var errors := s.errors + 1;
      s.(errors := errors, running := s.running && errors <= MaxConsecutiveErrors)
    case Frame(prediction, quit) =>
      var (dets, _) := DetectPlates(prediction);
      var sent := Dispatches(dets, cameraId);
      if quit then s.(errors := 0, running := false, sent := s.sent + sent)
      else s.(iterations := s.iterations + 1, errors := 0, sent := s.sent + sent)
    case StoreLost => s.(errors := s.errors + 1)
    case Crash(None) =>
      var errors := s.errors + 1;
      s.(errors := errors, running := s.running && errors <= MaxConsecutiveErrors)
    case Crash(Some(p)) => s.(errors := 1, sent := s.sent + QueuedBefore(cameraId, Some(p)))
    case Interrupted(progress) => s.(running := false, sent := s.sent + QueuedBefore(cameraId, progress))
  }

  /** The loop: it runs while it has not stopped and `iterations` is below
      `maxIterations`; the events model what each pass meets. */
  function Run(cameraId: int, maxIterations: int, s: LoopState, events: seq<Event>): LoopState
    decreases |events|
  {
    if events == [] || !s.running || s.iterations >= maxIterations then s
    else Run(cameraId, maxIterations, Step(cameraId, s, events[0]), events[1..])
  }

  datatype Summary = Summary(cameraId: int, iterationsCompleted: nat, status: string)

  const Start := LoopState(0, 0, true, [])

  /** `detect_from_redis`: whatever happens, the `finally` clause returns the
      summary with status "completed". */
  function DetectFromRedis(cameraId: int, maxIterations: int, events: seq<Event>): (r: (Summary, seq<OcrDispatch>))
    ensures r.0.cameraId == cameraId && r.0.status == "completed"
    ensures r.0.iterationsCompleted <= Max(0, maxIterations)
    ensures r.0.iterationsCompleted <= CountedFrames(events)
    ensures var k := Consumed(cameraId, maxIterations, Start, events);
      && r.1 == SentDuring(cameraId, events[..k])
      && r.0.iterationsCompleted == CountedFrames(events[..k])
      && (k < |events| ==> r.0.iterationsCompleted >= maxIterations || (k > 0 && MayStop(events[k - 1])))
  {
    RunBounds(cameraId, maxIterations, Start, events);
    RunLog(cameraId, maxIterations, Start, events);
    RunStopsAt(cameraId, maxIterations, Start, events);
    var final := Run(cameraId, maxIterations, Start, events);
    (Summary(cameraId, final.iterations, "completed"), final.sent)
  }

  /** The number of frames that complete a pass. */
  function CountedFrames(events: seq<Event>): nat
  {
    if events == [] then 0
    else (if events[0].Frame? && !events[0].quit then 1 else 0) + CountedFrames(events[1..])
  }

  /** The OCR requests a sequence of passes queues, in order. */
  function SentDuring(cameraId: int, events: seq<Event>): seq<OcrDispatch>
  {
    if events == [] then [] else EventSent(cameraId, events[0]) + SentDuring(cameraId, events[1..])
  }

  /** How many events the loop reads before it stops or reaches the bound. */
  function Consumed(cameraId: int, maxIterations: int, s: LoopState, events: seq<Event>): (k: nat)
    ensures k <= |events|
    decreases |events|
  {
    if events == [] || !s.running || s.iterations >= maxIterations then 0
    else 1 + Consumed(cameraId, maxIterations, Step(cameraId, s, events[0]), events[1..])
  }

  /** The loop consumes a prefix of the events: its requests are exactly
      those that prefix queues, its count is the prefix's completed frames,
      and it leaves events unread only once it has stopped or reached the
      bound. */
  lemma {:induction false} RunLog(cameraId: int, maxIterations: int, s: LoopState, events: seq<Event>)
    ensures var t := Run(cameraId, maxIterations, s, events);
      var k := Consumed(cameraId, maxIterations, s, events);
      && t.sent == s.sent + SentDuring(cameraId, events[..k])
      && t.iterations == s.iterations + CountedFrames(events[..k])
      && (k < |events| ==> !t.running || t.iterations >= maxIterations)
  {
    RunSent(cameraId, maxIterations, s, events);
    RunCount(cameraId, maxIterations, s, events);
    RunStops(cameraId, maxIterations, s, events);
  }

  lemma {:induction false} RunSent(cameraId: int, maxIterations: int, s: LoopState, events: seq<Event>)
    ensures Run(cameraId, maxIterations, s, events).sent
            == s.sent + SentDuring(cameraId, events[..Consumed(cameraId, maxIterations, s, events)])
    decreases |events|
  {
    if events == [] || !s.running || s.iterations >= maxIterations {
      assert events[..0] == [];
    } else {
      var s' := Step(cameraId, s, events[0]);
      var k := Consumed(cameraId, maxIterations, s, events);
      var rest := Consumed(cameraId, maxIterations, s', events[1..]);
      assert k == 1 + rest;
      assert Run(cameraId, maxIterations, s, events) == Run(cameraId, maxIterations, s', events[1..]);
      RunSent(cameraId, maxIterations, s', events[1..]);
      DuringCons(cameraId, events, k);
      Reassociate(s.sent, EventSent(cameraId, events[0]), SentDuring(cameraId, events[1..][..rest]));
    }
  }

  lemma {:induction false} RunCount(cameraId: int, maxIterations: int, s: LoopState, events: seq<Event>)
    ensures Run(cameraId, maxIterations, s, events).iterations
            == s.iterations + CountedFrames(events[..Consumed(cameraId, maxIterations, s, events)])
    decreases |events|
  {
    if events == [] || !s.running || s.iterations >= maxIterations {
      assert events[..0] == [];
    } else {
      var s' := Step(cameraId, s, events[0]);
      var k := Consumed(cameraId, maxIterations, s, events);
      RunCount(cameraId, maxIterations, s', events[1..]);
      DuringCons(cameraId, events, k);
    }
  }

  lemma {:induction false} RunStops(cameraId: int, maxIterations: int, s: LoopState, events: seq<Event>)
    ensures var t := Run(cameraId, maxIterations, s, events);
      Consumed(cameraId, maxIterations, s, events) < |events| ==> !t.running || t.iterations >= maxIterations
    decreases |events|
  {
    if !(events == [] || !s.running || s.iterations >= maxIterations) {
      RunStops(cameraId, maxIterations, Step(cameraId, s, events[0]), events[1..]);
    }
  }

  /** A pass that can end the loop: a quit, an interrupt, or an error
      that adds to the count. */
  predicate MayStop(e: Event)
  {
    (e.Frame? && e.quit) || e.Interrupted? || e.Undecodable? || (e.Crash? && e.progress.None?)
  }

  /** A loop that leaves events unread below its bound stopped on the
      last pass it made. */
  lemma {:induction false} RunStopsAt(cameraId: int, maxIterations: int, s: LoopState, events: seq<Event>)
    requires s.running
    ensures var k := Consumed(cameraId, maxIterations, s, events);
      k < |events| && Run(cameraId, maxIterations, s, events).iterations < maxIterations
      ==> k > 0 && MayStop(events[k - 1])
    decreases |events|
  {
    if events != [] && s.iterations < maxIterations {
      var s' := Step(cameraId, s, events[0]);
      if s'.running {
        RunStopsAt(cameraId, maxIterations, s', events[1..]);
        var k' := Consumed(cameraId, maxIterations, s', events[1..]);
        if k' > 0 {
          assert events[1..][k' - 1] == events[k'];
        }
      }
    }
  }

  lemma Reassociate<T>(a: seq<T>, b: seq<T>, c: seq<T>)
    ensures (a + b) + c == a + (b + c)
  {
  }

  lemma DuringCons(cameraId: int, events: seq<Event>, k: nat)
    requires 0 < k <= |events|
    ensures SentDuring(cameraId, events[..k]) == EventSent(cameraId, events[0]) + SentDuring(cameraId, events[1..][..k - 1])
    ensures CountedFrames(events[..k]) == (if events[0].Frame? && !events[0].quit then 1 else 0) + CountedFrames(events[1..][..k - 1])
  {
    assert events[..k][1..] == events[1..][..k - 1];
  }

  /** The loop never counts past its bound nor more frames than it met. */
  lemma {:induction false} RunBounds(cameraId: int, maxIterations: int, s: LoopState, events: seq<Event>)
    ensures var t := Run(cameraId, maxIterations, s, events);
      && s.iterations <= t.iterations <= s.iterations + CountedFrames(events)
      && t.iterations <= Max(s.iterations, maxIterations)
    decreases |events|
  {
    if !(events == [] || !s.running || s.iterations >= maxIterations) {
      RunBounds(cameraId, maxIterations, Step(cameraId, s, events[0]), events[1..]);
    }
  }

  /** An absent frame changes nothing: the loop just polls again. */
  lemma AbsentFrameIsInvisible(cameraId: int, maxIterations: int, s: LoopState, events: seq<Event>)
    requires s.running && s.iterations < maxIterations
    ensures Run(cameraId, maxIterations, s, [FrameAbsent] + events) == Run(cameraId, maxIterations, s, events)
  {
    assert ([FrameAbsent] + events)[1..] == events;
  }

  /** Consecutive decode failures: from a running loop with `e` errors the
      loop survives while the count stays at most 10 and stops on the
      failure that takes it to 11. */
  lemma {:induction false} DecodeFailuresStop(cameraId: int, maxIterations: int, s: LoopState, n: nat)
    requires s.running && s.iterations < maxIterations && s.errors <= MaxConsecutiveErrors
    ensures var t := Run(cameraId, maxIterations, s, Repeat(Undecodable, n));
      && t.iterations == s.iterations && t.sent == s.sent
      && (s.errors + n <= MaxConsecutiveErrors ==> t.running && t.errors == s.errors + n)
      && (s.errors + n > MaxConsecutiveErrors ==> !t.running && t.errors == MaxConsecutiveErrors + 1)
    decreases n
  {
    if n > 0 {
      var s' := Step(cameraId, s, Undecodable);
      assert Repeat(Undecodable, n)[1..] == Repeat(Undecodable, n - 1);
      if s'.running {
        DecodeFailuresStop(cameraId, maxIterations, s', n - 1);
      } else {
        assert s'.errors == MaxConsecutiveErrors + 1;
      }
    }
  }

  /** From a fresh start, the eleventh consecutive decode failure ends the
      task and the tenth does not. */
  lemma EleventhFailureStops(cameraId: int, maxIterations: int)
    requires maxIterations > 0
    ensures !Run(cameraId, maxIterations, Start, Repeat(Undecodable, 11)).running
    ensures Run(cameraId, maxIterations, Start, Repeat(Undecodable, 10)).running
  {
    DecodeFailuresStop(cameraId, maxIterations, Start, 11);
    DecodeFailuresStop(cameraId, maxIterations, Start, 10);
  }

  /** A lost store connection is counted but never ends the loop, however
      many times it happens in a row. */
  lemma {:induction false} StoreLossNeverStops(cameraId: int, maxIterations: int, s: LoopState, n: nat)
    requires s.running && s.iterations < maxIterations
    ensures var t := Run(cameraId, maxIterations, s, Repeat(StoreLost, n));
      t.running && t.iterations == s.iterations && t.errors == s.errors + n
    decreases n
  {
    if n > 0 {
      assert Repeat(StoreLost, n)[1..] == Repeat(StoreLost, n - 1);
      StoreLossNeverStops(cameraId, maxIterations, Step(cameraId, s, StoreLost), n - 1);
    }
  }

  /** A decoded frame clears the error count, so failures must be
      consecutive to stop the loop. */
  lemma DecodedFrameResets(cameraId: int, maxIterations: int, s: LoopState, prediction: Option<Prediction>)
    requires s.running && s.iterations < maxIterations
    ensures var t := Step(cameraId, s, Frame(prediction, false));
      t.running && t.errors == 0 && t.iterations == s.iterations + 1
  {
  }

  /** A camera that yields a decoded frame on every pass is processed until
      the bound; with the task's default bound, 1000 times. */
  lemma {:induction false} FramesRunToBound(cameraId: int, maxIterations: int, s: LoopState, prediction: Option<Prediction>, n: nat)
    requires s.running && s.iterations <= maxIterations
    ensures var t := Run(cameraId, maxIterations, s, Repeat(Frame(prediction, false), n));
      t.running && t.iterations == Min(s.iterations + n, maxIterations)
    decreases n
  {
    if n > 0 && s.iterations < maxIterations {
      assert Repeat(Frame(prediction, false), n)[1..] == Repeat(Frame(prediction, false), n - 1);
      FramesRunToBound(cameraId, maxIterations, Step(cameraId, s, Frame(prediction, false)), prediction, n - 1);
    }
  }

  lemma DefaultBoundReached(cameraId: int, prediction: Option<Prediction>)
    ensures DetectFromRedis(cameraId, DefaultMaxIterations, Repeat(Frame(prediction, false), 1200)).0.iterationsCompleted == 1000
  {
    FramesRunToBound(cameraId, DefaultMaxIterations, Start, prediction, 1200);
  }

  // ---------------------------------------------------------------------
  // health_check_cameras

  datatype Health = Health(active: bool, ttl: int)

  /** The id is the last '_'-separated segment of the key. */
  function CameraIdOfKey(key: string): string
  {
    var parts := Split(key, '_');
    parts[|parts| - 1]
  }

  /** `health_check_cameras` over the keys matching "camera_frame_*", in
      the order the store lists them; `ttl` is Redis's TTL (-1 for a key
      without expiry). Later keys with the same id overwrite earlier ones. */
  function HealthCheck(keys: seq<string>, ttl: string -> int): (status: map<string, Health>)
    ensures forall id :: id in status ==> (status[id].active <==> status[id].ttl > 0)
    decreases |keys|
  {
    if keys == [] then map[]
    else
      var before := HealthCheck(keys[..|keys| - 1], ttl);
      var key := keys[|keys| - 1];
      if StartsWith(key, FrameKeyPrefix) then before[CameraIdOfKey(key) := Health(ttl(key) > 0, ttl(key))]
      else before
  }

  /** Every matching key is reported under its id, with the TTL of the last
      matching key carrying that id; active exactly when that TTL is
      positive. */
  lemma {:induction false} HealthCheckReportsLastKey(keys: seq<string>, ttl: string -> int, i: nat)
    requires i < |keys| && StartsWith(keys[i], FrameKeyPrefix)
    requires forall j :: i < j < |keys| && StartsWith(keys[j], FrameKeyPrefix) ==> CameraIdOfKey(keys[j]) != CameraIdOfKey(keys[i])
    ensures var status := HealthCheck(keys, ttl);
      CameraIdOfKey(keys[i]) in status
      && status[CameraIdOfKey(keys[i])] == Health(ttl(keys[i]) > 0, ttl(keys[i]))
    decreases |keys|
  {
    var last := |keys| - 1;
    var id := CameraIdOfKey(keys[i]);
    if i < last {
      var prefix := keys[..last];
      assert forall j :: i < j < |prefix| ==> prefix[j] == keys[j];
      HealthCheckReportsLastKey(prefix, ttl, i);
      var before := HealthCheck(prefix, ttl);
      assert prefix[i] == keys[i];
      assert id in before && before[id] == Health(ttl(keys[i]) > 0, ttl(keys[i]));
      if StartsWith(keys[last], FrameKeyPrefix) {
        assert CameraIdOfKey(keys[last]) != id;
      }
    }
  }

  /** Only ids of matching keys are reported. */
  lemma {:induction false} HealthCheckIds(keys: seq<string>, ttl: string -> int, id: string)
    requires id in HealthCheck(keys, ttl)
    ensures exists k :: k in keys && StartsWith(k, FrameKeyPrefix) && CameraIdOfKey(k) == id
    decreases |keys|
  {
    var last := |keys| - 1;
    var key := keys[last];
    if !(StartsWith(key, FrameKeyPrefix) && CameraIdOfKey(key) == id) {
      HealthCheckIds(keys[..last], ttl, id);
      var k :| k in keys[..last] && StartsWith(k, FrameKeyPrefix) && CameraIdOfKey(k) == id;
      assert k in keys;
    }
  }

  /** Every matching key's camera is reported. */
  lemma {:induction false} HealthCheckCovers(keys: seq<string>, ttl: string -> int, k: string)
    requires k in keys && StartsWith(k, FrameKeyPrefix)
    ensures CameraIdOfKey(k) in HealthCheck(keys, ttl)
    decreases |keys|
  {
    var last := |keys| - 1;
    if keys[last] != k {
      assert k in keys[..last];
      HealthCheckCovers(keys[..last], ttl, k);
    }
  }

  /** `health_check_cameras` with its failure: `listing` is what `r.keys`
      returned, `None` when listing raised, and `keyFails` says whether
      decoding a key or reading its TTL raises. Nothing inside the loop
      catches, so either raise gives the error result; otherwise the task
      reports every listed camera, active exactly when its TTL is positive. */
  function HealthCheckTask(listing: Option<seq<string>>, ttl: string -> int, keyFails: string -> bool): (r: TaskResult<map<string, Health>>)
    ensures r.Errored? <==> listing.None? || exists k :: k in listing.value && StartsWith(k, FrameKeyPrefix) && keyFails(k)
    ensures r.Completed? ==> forall id :: id in r.value <==>
              exists k :: k in listing.value && StartsWith(k, FrameKeyPrefix) && CameraIdOfKey(k) == id
    ensures r.Completed? ==> forall id :: id in r.value ==> (r.value[id].active <==> r.value[id].ttl > 0)
    ensures r.Completed? ==> r.value == HealthCheck(listing.value, ttl)
  {
    match listing
    case None => Errored
    case Some(keys) =>
      if exists k :: k in keys && StartsWith(k, FrameKeyPrefix) && keyFails(k) then Errored
      else
        HealthCheckDomain(keys, ttl);
        Completed(HealthCheck(keys, ttl))
  }

  /** The reported ids are exactly those of the matching keys. */
  lemma HealthCheckDomain(keys: seq<string>, ttl: string -> int)
    ensures forall id :: id in HealthCheck(keys, ttl) <==>
              exists k :: k in keys && StartsWith(k, FrameKeyPrefix) && CameraIdOfKey(k) == id
  {
    forall id | id in HealthCheck(keys, ttl)
      ensures exists k :: k in keys && StartsWith(k, FrameKeyPrefix) && CameraIdOfKey(k) == id
    {
      HealthCheckIds(keys, ttl, id);
    }
    forall k | k in keys && StartsWith(k, FrameKeyPrefix)
      ensures CameraIdOfKey(k) in HealthCheck(keys, ttl)
    {
      HealthCheckCovers(keys, ttl, k);
    }
  }

  /** The streamer's key for camera `n` is reported under `n`, and since
      the streamer sets no expiry (TTL -1) the camera reads as inactive. */
  lemma StreamedKeyReadsInactive(n: nat, ttl: string -> int)
    requires ttl(FrameKeyPrefix + NatToString(n)) == -1
    ensures var key := FrameKeyPrefix + NatToString(n);
      var status := HealthCheck([key], ttl);
      NatToString(n) in status && status[NatToString(n)] == Health(false, -1)
  {
    var key := FrameKeyPrefix + NatToString(n);
    var digits := NatToString(n);
    assert key == "camera" + ['_'] + ("frame" + ['_'] + digits);
    assert '_' !in digits by {
      assert forall c :: c in digits ==> IsDigit(c);
    }
    SplitAfterField("camera", "frame" + ['_'] + digits, '_');
    SplitAfterField("frame", digits, '_');
    SplitWithoutSep(digits, '_');
    assert StartsWith(key, FrameKeyPrefix);
    assert [key][..0] == [];
  }
}

=== FILE: fire.dfy ===
/** The fire-detection task of gismap/tasks/fire_clip_tasks.py: the CLIP
    description text, the per-frame aggregation of fire boxes into a flag
    and a description list, and the polling loop of
    `detect_fire_from_redis` over abstract events. YOLO and CLIP are
    inputs; a frame's raw JPEG is read from "camera:{id}:frame". */
module FireTask {
  import opened Wrappers
  import opened Text
  import opened Geometry
  import opened Json

  const Prompts: seq<string> := [
    "A photo showing fire",
    "Smoke and fire are visible",
    "Flames and smoke in the image",
    "A photo of burning fire",
    "No fire in the image",
    "No flames or smoke"
  ]
  const Unavailable := "Description unavailable"
  const FramePad: nat := 10
  const FrameWidth: nat := 640
  const FrameHeight: nat := 384
  const DefaultMaxIterations := 5
  const FrameTtl := 5
  const ResultTtl := 10

  type PromptIndex = i: int | 0 <= i < 6

  /** CLIP's verdict on an image: the most probable prompt and its
      probability already formatted with two decimals, or a failure. */
  datatype ClipAnswer = ClipFailed | ClipBest(index: PromptIndex, confidence: string)

  /** `generate_clip_description`'s text for an answer. */
  function Description(a: ClipAnswer): string
  {
    match a
    case ClipFailed => Unavailable
    case ClipBest(i, c) => Prompts[i] + " (confidence=" + c + ")"
  }

  /** Which prompt a description names, read back from its text. */
  function PromptOf(d: string): Option<PromptIndex>
  {
    if StartsWith(d, Prompts[0] + " (") then Some(0)
    else if StartsWith(d, Prompts[1] + " (") then Some(1)
    else if StartsWith(d, Prompts[2] + " (") then Some(2)
    else if StartsWith(d, Prompts[3] + " (") then Some(3)
    else if StartsWith(d, Prompts[4] + " (") then Some(4)
    else if StartsWith(d, Prompts[5] + " (") then Some(5)
    else None
  }

  /** The description names exactly the prompt CLIP chose, and a failure
      is told apart from every answer. */
  lemma DescriptionNamesPrompt(a: ClipAnswer)
    ensures a.ClipBest? ==> PromptOf(Description(a)) == Some(a.index)
    ensures a.ClipFailed? <==> PromptOf(Description(a)).None?
  {
    if a.ClipBest? {
      var p := Prompts[a.index] + " (";
      var d := Description(a);
      assert d == p + ("confidence=" + a.confidence + ")");
      assert d[..|p|] == p;
      HeadedBy(a.index, d);
    } else {
      FailureNamesNoPrompt();
    }
  }

  /** A text headed by prompt `i` reads back as `i`. */
  lemma HeadedBy(i: PromptIndex, d: string)
    requires StartsWith(d, Prompts[i] + " (")
    ensures PromptOf(d) == Some(i)
  {
    forall j: PromptIndex | j < i
      ensures !StartsWith(d, Prompts[j] + " (")
    {
      DifferAt(i, j, d);
    }
  }

  /** The failure text is headed by no prompt. */
  lemma FailureNamesNoPrompt()
    ensures PromptOf(Unavailable).None?
  {
    forall j: PromptIndex
      ensures !StartsWith(Unavailable, Prompts[j] + " (")
    {
      assert Unavailable[0] == 'D';
      assert (Prompts[j] + " (")[0] == Prompts[j][0] != 'D';
    }
  }

  /** A text headed by one prompt is not headed by another. */
  lemma DifferAt(i: PromptIndex, j: PromptIndex, d: string)
    requires i != j && StartsWith(d, Prompts[i] + " (")
    ensures !StartsWith(d, Prompts[j] + " (")
  {
    var p, q := Prompts[i] + " (", Prompts[j] + " (";
    var k := FirstDifference(i, j);
    assert d[k] == d[..|p|][k] == p[k];
  }

  /** Where two prompt headings first part: an index inside both. */
  function FirstDifference(i: PromptIndex, j: PromptIndex): (k: nat)
    requires i != j
    ensures k < |Prompts[i] + " ("| && k < |Prompts[j] + " ("|
    ensures (Prompts[i] + " (")[k] != (Prompts[j] + " (")[k]
  {
    if (i == 0 && j == 3) || (i == 3 && j == 0) then 8
    else if (i == 4 && j == 5) || (i == 5 && j == 4) then 4
    else 0
  }

  // ---------------------------------------------------------------------
  // One frame

  datatype FireBox = FireBox(bbox: Box, className: string)

  /** ASCII `str.lower()`. */
  function Lower(s: string): (r: string)
    ensures |r| == |s|
  {
    if s == [] then []
    else [if 'A' <= s[0] <= 'Z' then (s[0] as int + 32) as char else s[0]] + Lower(s[1..])
  }

  predicate IsFire(b: FireBox)
  {
    Lower(b.className) == "fire"
  }

  datatype Colour = Colour(blue: int, green: int, red: int)

  /** Red (in BGR order) for fire, cyan for any other class. */
  function BoxColour(b: FireBox): (c: Colour)
    ensures c == Colour(0, 0, 255) <==> IsFire(b)
    ensures !IsFire(b) ==> c == Colour(255, 255, 0)
  {
    if IsFire(b) then Colour(0, 0, 255) else Colour(255, 255, 0)
  }

  /** The padded crop handed to CLIP, cut by numpy. */
  function FireCrop(b: FireBox): Region
  {
    Crop(b.bbox, FramePad, FrameWidth, FrameHeight)
  }

  /** CLIP on a region; an empty crop makes the colour conversion raise,
      which the description helper reports as unavailable. */
  function Describe(region: Region, clip: Region -> ClipAnswer): string
  {
    if region.IsEmpty() then Unavailable else Description(clip(region))
  }

  function FireDescriptions(boxes: seq<FireBox>, clip: Region -> ClipAnswer): (ds: seq<string>)
    ensures |ds| == FireCount(boxes)
  {
    if boxes == [] then []
    else (if IsFire(boxes[0]) then [Describe(FireCrop(boxes[0]), clip)] else [])
         + FireDescriptions(boxes[1..], clip)
  }

  function FireCount(boxes: seq<FireBox>): nat
  {
    if boxes == [] then 0 else (if IsFire(boxes[0]) then 1 else 0) + FireCount(boxes[1..])
  }

  datatype FrameResult = FrameResult(fireDetected: bool, descriptions: seq<string>, drawn: seq<(Box, Colour)>)

  function Drawn(boxes: seq<FireBox>): (d: seq<(Box, Colour)>)
    ensures |d| == |boxes|
    ensures forall i :: 0 <= i < |boxes| ==> d[i] == (boxes[i].bbox, BoxColour(boxes[i]))
  {
    if boxes == [] then [] else [(boxes[0].bbox, BoxColour(boxes[0]))] + Drawn(boxes[1..])
  }

  /** The body of the per-box loop and the whole-frame fallback. */
  function AnalyseFrame(boxes: seq<FireBox>, clip: Region -> ClipAnswer): (r: FrameResult)
  {
    var fire := FireCount(boxes) > 0;
    FrameResult(
      fire,
      if fire then FireDescriptions(boxes, clip) else [Describe(FullFrame(FrameWidth, FrameHeight), clip)],
      Drawn(boxes))
  }

  /** `fire_detected` holds iff some box's class, lower-cased, is "fire";
      there is one description per fire box, or exactly one for the whole
      frame when there is none. */
  lemma FrameVerdict(boxes: seq<FireBox>, clip: Region -> ClipAnswer)
    ensures var r := AnalyseFrame(boxes, clip);
      && (r.fireDetected <==> exists i :: 0 <= i < |boxes| && IsFire(boxes[i]))
      && |r.descriptions| == Max(1, FireCount(boxes))
      && (!r.fireDetected ==> r.descriptions == [Describe(FullFrame(FrameWidth, FrameHeight), clip)])
  {
    FireCountPositive(boxes);
  }

  lemma {:induction false} FireCountPositive(boxes: seq<FireBox>)
    ensures FireCount(boxes) > 0 <==> exists i :: 0 <= i < |boxes| && IsFire(boxes[i])
  {
    if boxes != [] {
      FireCountPositive(boxes[1..]);
      if exists i :: 0 <= i < |boxes[1..]| && IsFire(boxes[1..][i]) {
        var i :| 0 <= i < |boxes[1..]| && IsFire(boxes[1..][i]);
        assert IsFire(boxes[i + 1]);
      }
      if exists i :: 0 <= i < |boxes| && IsFire(boxes[i]) {
        var i :| 0 <= i < |boxes| && IsFire(boxes[i]);
        if i > 0 {
          assert boxes[1..][i - 1] == boxes[i];
        }
      }
    }
  }

  /** Every description is a prompt with its confidence, or the
      unavailable text. */
  lemma {:induction false} DescriptionsAreWellFormed(boxes: seq<FireBox>, clip: Region -> ClipAnswer)
    ensures forall d :: d in AnalyseFrame(boxes, clip).descriptions ==> exists a :: d == Description(a)
  {
    FireDescriptionsWellFormed(boxes, clip);
    var full := Describe(FullFrame(FrameWidth, FrameHeight), clip);
    assert full == Description(if FullFrame(FrameWidth, FrameHeight).IsEmpty() then ClipFailed else clip(FullFrame(FrameWidth, FrameHeight)));
  }

  lemma {:induction false} FireDescriptionsWellFormed(boxes: seq<FireBox>, clip: Region -> ClipAnswer)
    ensures forall d :: d in FireDescriptions(boxes, clip) ==> exists a :: d == Description(a)
  {
    if boxes != [] {
      FireDescriptionsWellFormed(boxes[1..], clip);
      var r := FireCrop(boxes[0]);
      assert Describe(r, clip) == Description(if r.IsEmpty() then ClipFailed else clip(r));
    }
  }

  // ---------------------------------------------------------------------
  // detect_fire_from_redis

  datatype FireEvent =
      /** No value (or an empty one) under "camera:{id}:frame". */
    | NoFrame
      /** The stored bytes did not decode as an image. */
    | BadFrame
      /** A decoded frame: the detector's per-result boxes and CLIP's
          answers for regions of this frame. */
    | GoodFrame(results: seq<Option<seq<FireBox>>>, clip: Region -> ClipAnswer)
      /** An exception: it ends the loop. `reached` is `None` when it struck
          before a frame's first write, and otherwise the frame whose writes
          had begun. */
    | Failure(reached: Option<PartialFrame>)

  /** A frame whose pass raised after `stored` of its two writes reached the
      store: 1 when the result write raised, 2 when the cleanup did. */
  datatype PartialFrame = PartialFrame(results: seq<Option<seq<FireBox>>>, clip: Region -> ClipAnswer, stored: nat)

  /** A store write: the annotated JPEG or the JSON result, with its TTL. */
  datatype Write =
    | AnnotatedFrame(key: string, ttl: int)
    | Verdict(key: string, value: Json, ttl: int)

  function FrameKey(cameraId: nat): string { "frame:" + NatToString(cameraId) + ":fire" }
  function ResultKey(cameraId: nat): string { "result:" + NatToString(cameraId) + ":fire" }

  function ResultJson(r: FrameResult): Json
  {
    JObj(map["fire_detected" := JBool(r.fireDetected),
             "clip_descriptions" := JArr(Strings(r.descriptions))])
  }

  function Strings(ss: seq<string>): (js: seq<Json>)
    ensures |js| == |ss| && forall i :: 0 <= i < |ss| ==> js[i] == JStr(ss[i])
  {
    if ss == [] then [] else [JStr(ss[0])] + Strings(ss[1..])
  }

  /** The two writes one processed frame makes. */
  function FrameWrites(cameraId: nat, r: FrameResult): seq<Write>
  {
    [AnnotatedFrame(FrameKey(cameraId), FrameTtl), Verdict(ResultKey(cameraId), ResultJson(r), ResultTtl)]
  }

  /** The writes one pass makes: both of a processed frame's, the ones that
      got through before a failure, nothing otherwise. */
  function EventWrites(cameraId: nat, e: FireEvent): (ws: seq<Write>)
    ensures e.GoodFrame? ==> |ws| == 2
    ensures e.Failure? ==> |ws| <= 2
    ensures e.NoFrame? || e.BadFrame? ==> ws == []
  {
    match e
    case GoodFrame(results, clip) => FrameWrites(cameraId, AnalyseFrame(Flatten(results), clip))
    case Failure(Some(p)) => FrameWrites(cameraId, AnalyseFrame(Flatten(p.results), p.clip))[..Min(p.stored, 2)]
    case _ => []
  }

  /** The result written for a processed frame reports the frame's verdict:
      the flag is set iff a detected box is fire, and the list carries one
      description per fire box, or one for the whole frame. */
  lemma ResultReportsVerdict(cameraId: nat, results: seq<Option<seq<FireBox>>>, clip: Region -> ClipAnswer)
    ensures var w := EventWrites(cameraId, GoodFrame(results, clip))[1];
      && w.Verdict? && w.value.JObj?
      && "fire_detected" in w.value.fields && "clip_descriptions" in w.value.fields
      && w.value.fields["clip_descriptions"].JArr?
      && |w.value.fields["clip_descriptions"].items| == Max(1, FireCount(Flatten(results)))
    ensures EventWrites(cameraId, GoodFrame(results, clip))[1].value.fields["fire_detected"] == JBool(true)
            <==> exists i :: 0 <= i < |Flatten(results)| && IsFire(Flatten(results)[i])
  {
    var boxes := Flatten(results);
    var r := AnalyseFrame(boxes, clip);
    FrameVerdict(boxes, clip);
    var w := EventWrites(cameraId, GoodFrame(results, clip))[1];
    assert w.value == ResultJson(r);
    assert w.value.fields["fire_detected"] == JBool(r.fireDetected);
  }

  datatype FireState = FireState(iterations: nat, running: bool, writes: seq<Write>)

  function FireStep(cameraId: nat, s: FireState, e: FireEvent): (t: FireState)
    ensures t.writes == s.writes + EventWrites(cameraId, e)
    ensures t.iterations == s.iterations + (if e.GoodFrame? then 1 else 0)
    ensures !t.running <==> !s.running || e.Failure?
  {
    match e
    case NoFrame => s
    case BadFrame => s
    case GoodFrame(results, clip) =>
      var r := AnalyseFrame(Flatten(results), clip);
      s.(iterations := s.iterations + 1, writes := s.writes + FrameWrites(cameraId, r))
    case Failure(None) => s.(running := false)
    case Failure(Some(p)) =>
      var r := AnalyseFrame(Flatten(p.results), p.clip);
      s.(running := false, writes := s.writes + FrameWrites(cameraId, r)[..Min(p.stored, 2)])
  }

  function FireRun(cameraId: nat, maxIterations: int, s: FireState, events: seq<FireEvent>): FireState
    decreases |events|
  {
    if events == [] || !s.running || s.iterations >= maxIterations then s
    else FireRun(cameraId, maxIterations, FireStep(cameraId, s, events[0]), events[1..])
  }

  datatype FireSummary = FireSummary(cameraId: nat, iterations: nat)

  const FireStart := FireState(0, true, [])

  /** The loop of `detect_fire_from_redis`, taken as if the import of
      `send_fire_alert` that precedes it had resolved: the `finally` clause
      returns the camera and the number of processed frames whatever ends
      the loop. */
  function DetectFireFromRedis(cameraId: nat, maxIterations: int, events: seq<FireEvent>): (r: (FireSummary, seq<Write>))
    ensures r.0.cameraId == cameraId
    ensures r.0.iterations <= Max(0, maxIterations)
    ensures 2 * r.0.iterations <= |r.1| <= 2 * r.0.iterations + 2
    ensures WritesWellFormed(cameraId, r.1)
    ensures var k := Consumed(cameraId, maxIterations, FireStart, events);
      && r.1 == WritesDuring(cameraId, events[..k])
      && r.0.iterations == FramesDuring(events[..k])
      && (k < |events| ==> r.0.iterations >= maxIterations || (k > 0 && events[k - 1].Failure?))
  {
    FireRunInvariant(cameraId, maxIterations, FireStart, events);
    FireRunLog(cameraId, maxIterations, FireStart, events);
    FireRunStopsAt(cameraId, maxIterations, FireStart, events);
    var t := FireRun(cameraId, maxIterations, FireStart, events);
    (FireSummary(cameraId, t.iterations), t.writes)
  }

  /** The writes a sequence of passes makes, in order. */
  function WritesDuring(cameraId: nat, events: seq<FireEvent>): seq<Write>
  {
    if events == [] then [] else EventWrites(cameraId, events[0]) + WritesDuring(cameraId, events[1..])
  }

  /** The number of frames that complete a pass. */
  function FramesDuring(events: seq<FireEvent>): nat
  {
    if events == [] then 0 else (if events[0].GoodFrame? then 1 else 0) + FramesDuring(events[1..])
  }

  /** How many events the loop reads before it stops or reaches the bound. */
  function Consumed(cameraId: nat, maxIterations: int, s: FireState, events: seq<FireEvent>): (k: nat)
    ensures k <= |events|
    decreases |events|
  {
    if events == [] || !s.running || s.iterations >= maxIterations then 0
    else 1 + Consumed(cameraId, maxIterations, FireStep(cameraId, s, events[0]), events[1..])
  }

  /** The loop consumes a prefix of the events: its writes are exactly
      those the prefix makes, its count is the prefix's processed frames,
      and it leaves events unread only once it has stopped or reached the
      bound. */
  lemma {:induction false} FireRunLog(cameraId: nat, maxIterations: int, s: FireState, events: seq<FireEvent>)
    ensures var t := FireRun(cameraId, maxIterations, s, events);
      var k := Consumed(cameraId, maxIterations, s, events);
      && t.writes == s.writes + WritesDuring(cameraId, events[..k])
      && t.iterations == s.iterations + FramesDuring(events[..k])
      && (k < |events| ==> !t.running || t.iterations >= maxIterations)
    decreases |events|
  {
    if events == [] || !s.running || s.iterations >= maxIterations {
      assert events[..0] == [];
    } else {
      var s' := FireStep(cameraId, s, events[0]);
      var k := Consumed(cameraId, maxIterations, s, events);
      var t := FireRun(cameraId, maxIterations, s', events[1..]);
      FireRunLog(cameraId, maxIterations, s', events[1..]);
      DuringCons(cameraId, events, k);
      assert t.writes == s'.writes + WritesDuring(cameraId, events[1..][..k - 1]);
      assert s'.writes == s.writes + EventWrites(cameraId, events[0]);
    }
  }

  /** A loop that leaves events unread below its bound stopped on a
      failure, the last pass it made. */
  lemma {:induction false} FireRunStopsAt(cameraId: nat, maxIterations: int, s: FireState, events: seq<FireEvent>)
    requires s.running
    ensures var k := Consumed(cameraId, maxIterations, s, events);
      k < |events| && FireRun(cameraId, maxIterations, s, events).iterations < maxIterations
      ==> k > 0 && events[k - 1].Failure?
    decreases |events|
  {
    if events != [] && s.iterations < maxIterations {
      var s' := FireStep(cameraId, s, events[0]);
      if s'.running {
        FireRunStopsAt(cameraId, maxIterations, s', events[1..]);
        var k' := Consumed(cameraId, maxIterations, s', events[1..]);
        if k' > 0 {
          assert events[1..][k' - 1] == events[k'];
        }
      }
    }
  }

  lemma DuringCons(cameraId: nat, events: seq<FireEvent>, k: nat)
    requires 0 < k <= |events|
    ensures WritesDuring(cameraId, events[..k]) == EventWrites(cameraId, events[0]) + WritesDuring(cameraId, events[1..][..k - 1])
    ensures FramesDuring(events[..k]) == (if events[0].GoodFrame? then 1 else 0) + FramesDuring(events[1..][..k - 1])
  {
    assert events[..k][1..] == events[1..][..k - 1];
  }

  /** Writes alternate between the annotated frame and the JSON result,
      keyed for this camera with TTLs 5 and 10. */
  predicate WritesWellFormed(cameraId: nat, writes: seq<Write>)
  {
    forall k :: 0 <= k < |writes| ==>
      (k % 2 == 0 ==> writes[k] == AnnotatedFrame(FrameKey(cameraId), FrameTtl))
      && (k % 2 == 1 ==> writes[k].Verdict? && writes[k].key == ResultKey(cameraId) && writes[k].ttl == ResultTtl)
  }

  /** Two writes per processed frame while the loop runs; a failure may
      leave up to two more, from the frame it interrupted. */
  predicate Consistent(cameraId: nat, s: FireState)
  {
    && WritesWellFormed(cameraId, s.writes)
    && 2 * s.iterations <= |s.writes| <= 2 * s.iterations + 2
    && (s.running ==> |s.writes| == 2 * s.iterations)
  }

  lemma {:induction false} FireRunInvariant(cameraId: nat, maxIterations: int, s: FireState, events: seq<FireEvent>)
    requires Consistent(cameraId, s)
    ensures var t := FireRun(cameraId, maxIterations, s, events);
      && Consistent(cameraId, t)
      && s.iterations <= t.iterations <= Max(s.iterations, maxIterations)
      && |s.writes| <= |t.writes| && t.writes[..|s.writes|] == s.writes
    decreases |events|
  {
    if !(events == [] || !s.running || s.iterations >= maxIterations) {
      var s' := FireStep(cameraId, s, events[0]);
      FireStepInvariant(cameraId, s, events[0]);
      FireRunInvariant(cameraId, maxIterations, s', events[1..]);
      var t := FireRun(cameraId, maxIterations, s', events[1..]);
      assert t.writes[..|s.writes|] == t.writes[..|s'.writes|][..|s.writes|];
    }
  }

  /** One pass of a running loop keeps the state consistent and only
      appends to the writes. */
  lemma FireStepInvariant(cameraId: nat, s: FireState, e: FireEvent)
    requires Consistent(cameraId, s) && s.running
    ensures var s' := FireStep(cameraId, s, e);
      && Consistent(cameraId, s')
      && s.iterations <= s'.iterations <= s.iterations + 1
      && |s.writes| <= |s'.writes| && s'.writes[..|s.writes|] == s.writes
  {
    var ws := EventWrites(cameraId, e);
    var s' := FireStep(cameraId, s, e);
    assert s'.writes == s.writes + ws;
    if e.GoodFrame? {
      var r := AnalyseFrame(Flatten(e.results), e.clip);
      assert ws == FrameWrites(cameraId, r)[..2];
      AppendFrameWrites(cameraId, s.writes, r, 2);
    } else if e.Failure? && e.reached.Some? {
      var p := e.reached.value;
      var r := AnalyseFrame(Flatten(p.results), p.clip);
      assert ws == FrameWrites(cameraId, r)[..Min(p.stored, 2)];
      AppendFrameWrites(cameraId, s.writes, r, Min(p.stored, 2));
    } else {
      assert ws == [];
      assert s'.writes == s.writes;
    }
  }

  /** Appending the first `m` writes of a frame to an even-length log keeps
      the alternation. */
  lemma AppendFrameWrites(cameraId: nat, ws: seq<Write>, r: FrameResult, m: nat)
    requires WritesWellFormed(cameraId, ws) && |ws| % 2 == 0 && m <= 2
    ensures WritesWellFormed(cameraId, ws + FrameWrites(cameraId, r)[..m])
    ensures (ws + FrameWrites(cameraId, r)[..m])[..|ws|] == ws
  {
    var w := ws + FrameWrites(cameraId, r)[..m];
    assert forall k :: |ws| <= k < |w| ==> w[k] == FrameWrites(cameraId, r)[k - |ws|];
  }

  /** Missing and undecodable frames are not counted and write nothing. */
  lemma SkippedFramesAreInvisible(cameraId: nat, maxIterations: int, s: FireState, e: FireEvent, events: seq<FireEvent>)
    requires e.NoFrame? || e.BadFrame?
    requires s.running && s.iterations < maxIterations
    ensures FireRun(cameraId, maxIterations, s, [e] + events) == FireRun(cameraId, maxIterations, s, events)
  {
    assert ([e] + events)[1..] == events;
  }

  /** A camera that yields a decoded frame on every pass is processed until
      the bound; with the task's default bound, 5 times. */
  lemma {:induction false} FramesRunToBound(cameraId: nat, maxIterations: int, s: FireState, e: FireEvent, n: nat)
    requires e.GoodFrame? && s.running && s.iterations <= maxIterations
    ensures var t := FireRun(cameraId, maxIterations, s, Repeat(e, n));
      t.running && t.iterations == Min(s.iterations + n, maxIterations)
    decreases n
  {
    if n > 0 && s.iterations < maxIterations {
      assert Repeat(e, n)[1..] == Repeat(e, n - 1);
      FramesRunToBound(cameraId, maxIterations, FireStep(cameraId, s, e), e, n - 1);
    }
  }

  lemma DefaultBoundReached(cameraId: nat, e: FireEvent)
    requires e.GoodFrame?
    ensures DetectFireFromRedis(cameraId, DefaultMaxIterations, Repeat(e, 8)).0.iterations == 5
  {
    FramesRunToBound(cameraId, DefaultMaxIterations, FireStart, e, 8);
  }
}

=== FILE: forms.dfy ===
/** The account forms' field validators. Two copies of the `CinEmailControle`
    mixin exist: authentification/forms/formsAdmin.py (edits may keep their
    own e-mail and CIN) and authentification/forms/admin/formsAdmin.py (no
    exemption for e-mail, and a message naming the holder). The user table
    is a sequence in primary-key order. */
module Accounts {
  import opened Wrappers
  import opened Text

  /** The user columns the validators read. `cin` is optional because the
      column may be null. */
  datatype User = User(email: string, cin: Option<string>, firstName: string, lastName: string)

  /** `get_full_name()`: first and last name joined by a space, stripped. */
  function FullName(u: User): string
  {
    Strip(u.firstName + " " + u.lastName)
  }

  /** A validator's verdict: the cleaned value, or the error message. */
  datatype Verdict<T> = Accepted(value: T) | Rejected(message: string)

  /** The form's `instance` as the mixin sees it: none, or an object whose
      `email` and `cin` attributes read as given (`None` for a missing
      attribute or a null value). */
  datatype Instance = NoInstance | Instance(email: Option<string>, cin: Option<string>)

  /** The index of the first user, in key order, with that e-mail. */
  function FirstWithEmail(users: seq<User>, email: Option<string>): (r: Option<nat>)
    ensures r.Some? ==> r.value < |users| && Some(users[r.value].email) == email
    ensures r.Some? ==> forall j :: 0 <= j < r.value ==> Some(users[j].email) != email
    ensures r.None? ==> forall j :: 0 <= j < |users| ==> Some(users[j].email) != email
    decreases |users|
  {
    if users == [] then None
    else if Some(users[0].email) == email then Some(0)
    else
      var rest := FirstWithEmail(users[1..], email);
      if rest.Some? then
        assert forall j :: 1 <= j < rest.value + 1 ==> users[j] == users[1..][j - 1];
        Some(rest.value + 1)
      else
        assert forall j :: 1 <= j < |users| ==> users[j] == users[1..][j - 1];
        None
  }

  /** Whether some user has that CIN. */
  function CinTaken(users: seq<User>, cin: Option<string>): (taken: bool)
    ensures taken <==> exists j :: 0 <= j < |users| && users[j].cin == cin
    decreases |users|
  {
    if users == [] then false
    else if users[0].cin == cin then true
    else
      var rest := CinTaken(users[1..], cin);
      assert forall j :: 1 <= j < |users| ==> users[j] == users[1..][j - 1];
      assert rest ==> exists j :: 0 <= j < |users| && users[j].cin == cin by {
        if rest {
          var k :| 0 <= k < |users[1..]| && users[1..][k].cin == cin;
          assert users[k + 1].cin == cin;
        }
      }
      rest
  }

  const DuplicateCin := "Ce CIN est d\U{00E9}j\U{00E0} utilis\U{00E9}."

  /** `clean_cin`, the same in both files: an unchanged CIN on an edited
      instance is kept without a lookup; otherwise a CIN someone already
      has is refused. The value is never altered. */
  function CleanCin(cin: Option<string>, instance: Instance, users: seq<User>): (r: Verdict<Option<string>>)
    ensures r.Accepted? ==> r.value == cin
    ensures r.Rejected? ==> r.message == DuplicateCin
    ensures instance.Instance? && cin == instance.cin ==> r.Accepted?
    ensures !(instance.Instance? && cin == instance.cin) ==>
              (r.Rejected? <==> exists j :: 0 <= j < |users| && users[j].cin == cin)
  {
    if instance.Instance? && cin == instance.cin then Accepted(cin)
    else if CinTaken(users, cin) then Rejected(DuplicateCin)
    else Accepted(cin)
  }

  /** `data.isdigit() and len(data) == 8`. */
  predicate IsCin(data: string)
  {
    AllDigits(data) && |data| == 8
  }

  datatype Login = ByCin(cin: string) | ByEmail(email: string)

  const LoginError := "Veuillez entrer un email valide ou un CIN \U{00E0} 8 chiffres"

  /** `PasswordResetRequestForm.clean_email_or_cin` (identical in both
      files): eight digits are a CIN, checked before any e-mail test;
      otherwise a valid e-mail; otherwise an error. `isEmail` is Django's
      `validate_email`, which this model does not define. */
  function CleanEmailOrCin(data: string, isEmail: string -> bool): (r: Verdict<Login>)
    ensures r.Accepted? && r.value.ByCin? ==> r.value.cin == data
    ensures r.Accepted? && r.value.ByEmail? ==> r.value.email == data
    ensures r.Accepted? && r.value.ByCin? <==> IsCin(data)
    ensures r.Accepted? && r.value.ByEmail? <==> !IsCin(data) && isEmail(data)
    ensures r.Rejected? ==> r.message == LoginError
  {
    if AllDigits(data) && |data| == 8 then Accepted(ByCin(data))
    else if isEmail(data) then Accepted(ByEmail(data))
    else Rejected(LoginError)
  }
}

/** `CinEmailControle` of authentification/forms/formsAdmin.py. */
module AccountForms {
  import opened Wrappers
  import opened Accounts

  const DuplicateEmail := "Cet email est d\U{00E9}j\U{00E0} utilis\U{00E9}."

  /** `clean_email`: an unchanged e-mail on an edited instance is kept
      without a lookup; otherwise an e-mail someone already has is
      refused. The value is never altered. */
  function CleanEmail(email: Option<string>, instance: Instance, users: seq<User>): (r: Verdict<Option<string>>)
    ensures r.Accepted? ==> r.value == email
    ensures r.Rejected? ==> r.message == DuplicateEmail
    ensures instance.Instance? && email == instance.email ==> r.Accepted?
    ensures !(instance.Instance? && email == instance.email) ==>
              (r.Rejected? <==> exists j :: 0 <= j < |users| && Some(users[j].email) == email)
  {
    if instance.Instance? && email == instance.email then Accepted(email)
    else if FirstWithEmail(users, email).Some? then Rejected(DuplicateEmail)
    else Accepted(email)
  }

  /** Saving an edit that leaves a user's e-mail and CIN as they are passes
      both checks, although the table holds that very user. */
  lemma EditKeepsOwnIdentity(users: seq<User>, i: nat)
    requires i < |users|
    ensures var u := users[i];
      var instance := Instance(Some(u.email), u.cin);
      CleanEmail(Some(u.email), instance, users) == Accepted(Some(u.email))
      && CleanCin(u.cin, instance, users) == Accepted(u.cin)
  {
  }
}

/** `CinEmailControle` of authentification/forms/admin/formsAdmin.py. */
module AdminAccountForms {
  import opened Wrappers
  import opened Text
  import opened Accounts
  import AccountForms

  /** The mixin's CIN field: Django strips the input, then requires exactly
      eight characters matching `^[0-9]{8}$`. The cleaned value, if valid. */
  function CinField(raw: string): (r: Option<string>)
    ensures r.Some? ==> |r.value| == 8 && AllDigits(r.value)
  {
    var s := Strip(raw);
    if |s| == 8 && AllDigits(s) then Some(s) else None
  }

  /** On already-stripped input the field accepts exactly what the reset
      form's CIN branch accepts. */
  lemma CinFieldMatchesCinBranch(data: string, isEmail: string -> bool)
    requires Strip(data) == data
    ensures CinField(data).Some? <==> CleanEmailOrCin(data, isEmail) == Accepted(ByCin(data))
    ensures CinField(data).Some? ==> CinField(data).value == data
  {
  }

  const UsedByPrefix := "Email d\U{00E9}j\U{00E0} utilis\U{00E9} par "

  /** `clean_email`: any e-mail already in the table is refused, the edited
      user's own included, with a message naming the first holder in key
      order. */
  function CleanEmail(email: Option<string>, users: seq<User>): (r: Verdict<Option<string>>)
    ensures r.Accepted? <==> forall j :: 0 <= j < |users| ==> Some(users[j].email) != email
    ensures r.Accepted? ==> r.value == email
    ensures r.Rejected? ==>
              exists j :: 0 <= j < |users| && Some(users[j].email) == email
                && r.message == UsedByPrefix + FullName(users[j])
                && forall k :: 0 <= k < j ==> Some(users[k].email) != email
  {
    var first := FirstWithEmail(users, email);
    if first.Some? then Rejected(UsedByPrefix + FullName(users[first.value])) else Accepted(email)
  }

  /** Unlike the other copy, re-submitting a user's own e-mail fails. */
  lemma OwnEmailRefused(users: seq<User>, i: nat)
    requires i < |users|
    ensures CleanEmail(Some(users[i].email), users).Rejected?
    ensures AccountForms.CleanEmail(Some(users[i].email), Instance(Some(users[i].email), users[i].cin), users).Accepted?
  {
  }
}

=== FILE: geometry.dfy ===
/** Detector boxes and the crops cut around them. Python slices a frame as
    `frame[y1:y2, x1:x2]` with numpy's rules, so the region actually cut
    is what those rules make of the computed bounds. */
module Geometry {

  /** A detector box in pixel coordinates, corners (x1, y1) and (x2, y2). */
  datatype Box = Box(x1: int, y1: int, x2: int, y2: int)
  {
    function Width(): int { x2 - x1 }
    function Height(): int { y2 - y1 }
  }

  /** A half-open index range `lo..hi` of one frame axis. */
  datatype Span = Span(lo: nat, hi: nat)
  {
    function Length(): nat { if lo <= hi then hi - lo else 0 }
  }

  function Max(a: int, b: int): int { if a >= b then a else b }
  function Min(a: int, b: int): int { if a <= b then a else b }

  /** One bound of a numpy slice `a[start:stop]` on an axis of length `n`:
      a negative bound counts from the end, then the bound is clamped to
      `[0, n]`. */
  function SliceBound(i: int, n: nat): (b: nat)
    ensures b <= n
    ensures 0 <= i <= n ==> b == i
    ensures i > n ==> b == n
    ensures i < 0 ==> b == Max(0, i + n)
  {
    if i < 0 then (if i + n < 0 then 0 else i + n)
    else if i > n then n
    else i
  }

  /** The indices `a[start:stop]` selects on an axis of length `n`. */
  function Slice(start: int, stop: int, n: nat): (s: Span)
    ensures s.lo <= n && s.hi <= n
  {
    Span(SliceBound(start, n), SliceBound(stop, n))
  }

  /** The crop bounds the tasks compute: the box grown by `margin` on every
      side and clamped to the frame with `max(0, .)` and `min(limit, .)`. */
  function GrownBounds(b: Box, margin: nat, width: nat, height: nat): Box
  {
    Box(Max(0, b.x1 - margin), Max(0, b.y1 - margin), Min(width, b.x2 + margin), Min(height, b.y2 + margin))
  }

  /** The region numpy cuts for those bounds: rows, then columns. */
  datatype Region = Region(rows: Span, cols: Span)
  {
    /** numpy's `size` is rows times columns times channels, so it is zero
        exactly when one of the two spans is empty. */
    predicate IsEmpty() { rows.Length() == 0 || cols.Length() == 0 }
  }

  function Crop(b: Box, margin: nat, width: nat, height: nat): (r: Region)
    ensures r.rows.hi <= height && r.cols.hi <= width
  {
    var g := GrownBounds(b, margin, width, height);
    Region(Slice(g.y1, g.y2, height), Slice(g.x1, g.x2, width))
  }

  /** The whole frame as a region. */
  function FullFrame(width: nat, height: nat): Region
  {
    Region(Span(0, height), Span(0, width))
  }

  /** When the grown box's far corner is not left of or above the frame,
      the crop is exactly the grown box clamped to the frame; in particular
      it lies inside the frame and, for a box inside the frame, covers it. */
  lemma CropIsClampedGrownBox(b: Box, margin: nat, width: nat, height: nat)
    requires b.x2 + margin >= 0 && b.y2 + margin >= 0
    ensures var r := Crop(b, margin, width, height);
      && r.cols.lo == Min(width, Max(0, b.x1 - margin)) && r.cols.hi == Min(width, b.x2 + margin)
      && r.rows.lo == Min(height, Max(0, b.y1 - margin)) && r.rows.hi == Min(height, b.y2 + margin)
    ensures var r := Crop(b, margin, width, height);
      0 <= b.x1 <= b.x2 <= width && 0 <= b.y1 <= b.y2 <= height ==>
        && r.cols.lo <= b.x1 && b.x2 <= r.cols.hi && r.rows.lo <= b.y1 && b.y2 <= r.rows.hi
        && r.cols.Length() == Min(width, b.x2 + margin) - Max(0, b.x1 - margin)
        && r.rows.Length() == Min(height, b.y2 + margin) - Max(0, b.y1 - margin)
  {
  }

  /** A box lying wholly left of the frame yields a negative stop, which
      numpy counts from the right edge: the crop is then a wide strip of
      the frame rather than nothing. */
  lemma NegativeStopWraps()
    ensures Crop(Box(-100, 10, -40, 60), 5, 640, 384).cols == Span(0, 605)
  {
  }
}

=== FILE: json.dfy ===
/** The dictionaries the tasks hand to Redis, Celery and Channels, as JSON
    values. Objects are maps, so Python's `{**a, **b}` is the right-biased
    map union `a + b`. */
module Json {
  import opened Wrappers

  datatype Json =
    | JNull
    | JBool(b: bool)
    | JInt(i: int)
    | JNum(r: real)
    | JStr(s: string)
    | JArr(items: seq<Json>)
    | JObj(fields: map<string, Json>)

  /** Python's `x or {}` on an optional dictionary argument. */
  function OrEmpty(details: Option<map<string, Json>>): map<string, Json>
  {
    if details.Some? then details.value else map[]
  }
}

=== FILE: mapjs.dfy ===
/** `getCookie`, identical in static/js/map.js and app/static/js/map.js:
    prefix the cookie string with "; ", split it on "; name=", and when
    there are exactly two parts take the second up to the next ';'. */
module Cookies {
  import opened Wrappers
  import opened Text

  /** Whether `sep` occurs in `s` at position `p`. */
  predicate MatchesAt(s: string, sep: string, p: nat)
  {
    p + |sep| <= |s| && s[p..p + |sep|] == sep
  }

  /** JavaScript's `s.split(sep)` for a non-empty separator: cut at every
      occurrence, scanning left to right, occurrences not overlapping. */
  function JsSplit(s: string, sep: string): (parts: seq<string>)
    requires |sep| > 0
    ensures |parts| >= 1
    decreases |s|
  {
    if |s| < |sep| then [s]
    else if s[..|sep|] == sep then [""] + JsSplit(s[|sep|..], sep)
    else
      var rest := JsSplit(s[1..], sep);
      [[s[0]] + rest[0]] + rest[1..]
  }

  /** Text that cannot hold the separator's first character joins the
      first part of whatever follows. */
  lemma {:induction false} JsSplitGlue(x: string, y: string, sep: string)
    requires |sep| > 0 && sep[0] !in x
    ensures var r := JsSplit(y, sep);
      JsSplit(x + y, sep) == [x + r[0]] + r[1..]
    decreases |x|
  {
    if x != [] {
      var s := x + y;
      JsSplitGlue(x[1..], y, sep);
      assert s[1..] == x[1..] + y;
      var r := JsSplit(y, sep);
      if |s| < |sep| {
        assert r == [y];
        assert JsSplit(s, sep) == [x + y];
      } else {
        assert s[..|sep|][0] == x[0];
        assert s[..|sep|] != sep;
        var rest := JsSplit(s[1..], sep);
        assert rest == [x[1..] + r[0]] + r[1..];
        assert rest[0] == x[1..] + r[0] && rest[1..] == r[1..];
        assert JsSplit(s, sep) == [[s[0]] + rest[0]] + rest[1..];
        assert [s[0]] + (x[1..] + r[0]) == x + r[0];
      }
    } else {
      var r := JsSplit(y, sep);
      assert x + y == y;
      assert x + r[0] == r[0];
      assert [r[0]] + r[1..] == r;
    }
  }

  /** `getCookie(name)` against the cookie string; `None` is `undefined`. */
  function GetCookie(cookie: string, name: string): (r: Option<string>)
    ensures r.Some? ==> ';' !in r.value
  {
    var parts := JsSplit("; " + cookie, "; " + name + "=");
    if |parts| == 2 then Some(Split(parts[1], ';')[0]) else None
  }

  // ---------------------------------------------------------------------
  // The browser's cookie string

  /** A cookie as the browser reports it. */
  datatype Cookie = Cookie(name: string, value: string)

  /** Names hold neither ';' nor '=', values no ';'. */
  predicate WellFormed(c: Cookie)
  {
    ';' !in c.name && '=' !in c.name && ';' !in c.value
  }

  function Entry(c: Cookie): string
  {
    c.name + "=" + c.value
  }

  /** `document.cookie`: the entries joined by "; ". */
  function Serialize(jar: seq<Cookie>): string
  {
    if jar == [] then "" else Entry(jar[0]) + Prefixed(jar[1..])
  }

  /** Each entry preceded by "; ". */
  function Prefixed(jar: seq<Cookie>): string
  {
    if jar == [] then "" else "; " + Entry(jar[0]) + Prefixed(jar[1..])
  }

  /** How many cookies carry that name. */
  function Count(jar: seq<Cookie>, name: string): nat
  {
    if jar == [] then 0 else (if jar[0].name == name then 1 else 0) + Count(jar[1..], name)
  }

  /** "; name=" occurs at the start of an entry's chunk exactly when the
      entry has that name. */
  lemma {:induction false} ChunkMatch(c: Cookie, tail: string, name: string)
    requires WellFormed(c) && ';' !in name && '=' !in name
    ensures var s := "; " + Entry(c) + tail;
      var sep := "; " + name + "=";
      |s| >= |sep| && s[..|sep|] == sep <==> c.name == name
  {
    var s := "; " + Entry(c) + tail;
    var sep := "; " + name + "=";
    if c.name == name {
      assert s == sep + (c.value + tail);
    }
    if |s| >= |sep| && s[..|sep|] == sep {
      var rest := s[|sep|..];
      assert s == sep + rest;
      assert s[2..] == name + "=" + rest;
      assert s[2..] == c.name + "=" + (c.value + tail);
      SameName(name, c.name, rest, c.value + tail);
    }
  }

  /** The text before the first '=' determines the name. */
  lemma SameName(a: string, b: string, x: string, y: string)
    requires '=' !in a && '=' !in b && a + "=" + x == b + "=" + y
    ensures a == b
  {
    assert a + "=" + x == a + ['='] + x && b + "=" + y == b + ['='] + y;
    SplitAfterField(a, x, '=');
    SplitAfterField(b, y, '=');
    assert ([a] + Split(x, '='))[0] == a && ([b] + Split(y, '='))[0] == b;
  }

  /** Splitting one chunk off the front: a chunk for another name joins
      the first part; the chunk for this name starts a new part holding
      its value. */
  lemma {:induction false} SplitChunk(c: Cookie, tail: string, name: string)
    requires WellFormed(c) && ';' !in name && '=' !in name
    ensures var sep := "; " + name + "=";
      var r := JsSplit(tail, sep);
      JsSplit("; " + Entry(c) + tail, sep)
        == if c.name == name then [""] + ([c.value + r[0]] + r[1..]) else [("; " + Entry(c)) + r[0]] + r[1..]
  {
    var sep := "; " + name + "=";
    var s := "; " + Entry(c) + tail;
    ChunkMatch(c, tail, name);
    if c.name == name {
      assert s == sep + (c.value + tail);
      assert s[|sep|..] == c.value + tail;
      JsSplitGlue(c.value, tail, sep);
    } else {
      var x := " " + Entry(c);
      assert s[1..] == x + tail;
      assert sep[0] == ';';
      assert ';' !in x;
      JsSplitGlue(x, tail, sep);
      var r := JsSplit(tail, sep);
      assert [s[0]] + (x + r[0]) == ("; " + Entry(c)) + r[0];
    }
  }

  /** The parts of the prefixed cookie string: one more than the cookies
      with that name; with none it is whole, with exactly one the second
      part is that cookie's value followed by the later entries. */
  lemma {:induction false} PrefixedParts(jar: seq<Cookie>, name: string)
    requires forall i :: 0 <= i < |jar| ==> WellFormed(jar[i])
    requires ';' !in name && '=' !in name
    ensures |JsSplit(Prefixed(jar), "; " + name + "=")| == 1 + Count(jar, name)
    ensures Count(jar, name) == 0 ==> JsSplit(Prefixed(jar), "; " + name + "=") == [Prefixed(jar)]
    ensures forall k :: 0 <= k < |jar| && jar[k].name == name && Count(jar, name) == 1 ==>
              JsSplit(Prefixed(jar), "; " + name + "=")[1] == jar[k].value + Prefixed(jar[k + 1..])
    decreases |jar|
  {
    var sep := "; " + name + "=";
    if jar != [] {
      var rest := jar[1..];
      PrefixedParts(rest, name);
      assert Prefixed(jar) == "; " + Entry(jar[0]) + Prefixed(rest);
      SplitChunk(jar[0], Prefixed(rest), name);
      forall k | 0 <= k < |jar| && jar[k].name == name && Count(jar, name) == 1
        ensures JsSplit(Prefixed(jar), sep)[1] == jar[k].value + Prefixed(jar[k + 1..])
      {
        if k == 0 {
          assert jar[k + 1..] == rest;
        } else {
          assert rest[k - 1] == jar[k];
          assert rest[k - 1 + 1..] == jar[k + 1..];
          if jar[0].name == name {
            CountPositive(rest, name, k - 1);
          }
        }
      }
    }
  }

  lemma {:induction false} CountPositive(jar: seq<Cookie>, name: string, k: nat)
    requires k < |jar| && jar[k].name == name
    ensures Count(jar, name) >= 1
    decreases |jar|
  {
    if k > 0 {
      CountPositive(jar[1..], name, k - 1);
    }
  }

  lemma SerializeIsPrefixed(jar: seq<Cookie>)
    requires jar != []
    ensures "; " + Serialize(jar) == Prefixed(jar)
  {
    assert "; " + Serialize(jar) == "; " + Entry(jar[0]) + Prefixed(jar[1..]);
  }

  /** The first ';'-field of a value followed by nothing or by more
      entries is the value itself. */
  lemma {:induction false} ValueField(v: string, tail: seq<Cookie>)
    requires ';' !in v
    ensures Split(v + Prefixed(tail), ';')[0] == v
  {
    if tail == [] {
      assert v + Prefixed(tail) == v;
      SplitWithoutSep(v, ';');
    } else {
      var rest := " " + Entry(tail[0]) + Prefixed(tail[1..]);
      assert v + Prefixed(tail) == v + [';'] + rest;
      SplitAfterField(v, rest, ';');
    }
  }

  /** `getCookie` finds a cookie exactly when one cookie carries that name,
      and then returns that cookie's value; an absent or repeated name
      gives `undefined`. */
  lemma GetCookieOfJar(jar: seq<Cookie>, name: string)
    requires forall i :: 0 <= i < |jar| ==> WellFormed(jar[i])
    requires ';' !in name && '=' !in name
    ensures GetCookie(Serialize(jar), name).Some? <==> Count(jar, name) == 1
    ensures forall k :: 0 <= k < |jar| && jar[k].name == name && Count(jar, name) == 1 ==>
              GetCookie(Serialize(jar), name) == Some(jar[k].value)
  {
    var sep := "; " + name + "=";
    if jar == [] {
      assert "; " + Serialize(jar) == "; ";
      assert |"; "| < |sep|;
    } else {
      SerializeIsPrefixed(jar);
      PrefixedParts(jar, name);
      forall k | 0 <= k < |jar| && jar[k].name == name && Count(jar, name) == 1
        ensures GetCookie(Serialize(jar), name) == Some(jar[k].value)
      {
        ValueField(jar[k].value, jar[k + 1..]);
      }
    }
  }

  /** Because of the "; " in front, a cookie whose name merely ends with
      the requested name is not taken for it. */
  lemma SuffixNameIgnored(other: string, name: string, value: string)
    requires other != [] && ';' !in other + name && '=' !in other + name && ';' !in value
    requires ';' !in name && '=' !in name
    ensures GetCookie(Serialize([Cookie(other + name, value)]), name) == None
  {
    var jar := [Cookie(other + name, value)];
    assert WellFormed(jar[0]);
    GetCookieOfJar(jar, name);
    assert Count(jar, name) == 0;
  }
}

/** The map page's toast colours (both copies of map.js) and its
    department statistics (static/js/map.js). */
module MapPage {

  /** The toast background in static/js/map.js. */
  function ToastColour(kind: string): (colour: string)
    ensures kind == "success" <==> colour == "#27ae60"
    ensures kind == "error" <==> colour == "#e74c3c"
    ensures kind == "warning" <==> colour == "#f39c12"
    ensures kind !in {"success", "error", "warning"} <==> colour == "#3498db"
  {
    if kind == "success" then "#27ae60"
    else if kind == "error" then "#e74c3c"
    else if kind == "warning" then "#f39c12"
    else "#3498db"
  }

  /** The toast background in app/static/js/map.js. */
  function AppToastColour(kind: string): (colour: string)
    ensures kind == "success" <==> colour == "#28a745"
    ensures kind == "error" <==> colour == "#dc3545"
    ensures kind == "warning" <==> colour == "#ffc107"
    ensures kind !in {"success", "error", "warning"} <==> colour == "#007bff"
  {
    if kind == "success" then "#28a745"
    else if kind == "error" then "#dc3545"
    else if kind == "warning" then "#ffc107"
    else "#007bff"
  }

  /** `Math.round`: the nearest integer, halves rounded up. */
  function Round(x: real): (n: int)
    ensures x - 0.5 < n as real <= x + 0.5
  {
    (x + 0.5).Floor
  }

  datatype Stats = Stats(totalArea: real, deptCount: int, coverage: int)

  /** `updateStats(areaChange, countChange)` from the current totals;
      `siteArea` is the area of the site outline, in hectares. */
  function UpdateStats(totalArea: real, deptCount: int, areaChange: real, countChange: int, siteArea: real): (s: Stats)
    requires siteArea > 0.0
    ensures s.deptCount == deptCount + countChange
    ensures s.totalArea == totalArea + areaChange
    ensures s.totalArea <= 0.0 ==> s.coverage == 0
    ensures 0 <= s.coverage <= 100
    ensures s.totalArea > 0.0 && s.totalArea <= siteArea ==> s.coverage == Round(s.totalArea / siteArea * 100.0)
  {
    var area := totalArea + areaChange;
    var coverage := if area > 0.0 then Min(100, Round(area / siteArea * 100.0)) else 0;
    Stats(area, deptCount + countChange, coverage)
  }

  function Min(a: int, b: int): int
  {
    if a <= b then a else b
  }
}

=== FILE: notify_service.dfy ===
/** `NotificationService` of gismap/tasks/notification_service.py: a plate
    notification is saved to the database and, independently, pushed to
    the "notifications" WebSocket group. The database and the channel layer
    are inputs that say whether each step succeeds. */
module NotificationService {
  import opened Wrappers
  import opened Json
  import Base64

  /** The `image_bytes` argument: absent or empty bytes (both falsy), some
      bytes, or a truthy value that is not bytes-like, which base64 cannot
      encode. */
  datatype ImageArg = NoImage | Bytes(data: seq<Base64.Byte>) | NotBytes
  {
    /** Python truthiness of the argument. */
    predicate Truthy()
    {
      Bytes? ==> |data| > 0
    }
  }

  /** The stored image of a saved notification. */
  datatype Attached = NoAttachment | Attachment(image: ImageArg)

  datatype Notification = Notification(id: nat, alertType: string, matricule: string, camera: string,
                                       location: string, message: string, attached: Attached)

  /** How the database behaves: whether attaching the image raises, whether
      the save raises, and the id a successful save assigns. */
  datatype Database = Database(attachFails: bool, saveFails: bool, newId: nat)

  /** The channel layer: missing (`get_channel_layer()` returns nothing),
      or present and either delivering or raising. */
  datatype Layer = NoLayer | Live(sendFails: bool)

  datatype Effect =
    | Saved(notification: Notification)
    | GroupSend(group: string, payload: map<string, Json>)

  /** `_save_to_notifications_model`: a failed image attachment is
      swallowed, a failed save gives `None`. */
  function SaveNotification(db: Database, alertType: string, matricule: string, camera: string,
                            location: string, message: string, image: ImageArg): (r: Option<Notification>)
    ensures r.None? <==> db.saveFails
    ensures r.Some? ==> r.value.id == db.newId && r.value.matricule == matricule && r.value.alertType == alertType
    ensures r.Some? ==> (r.value.attached.Attachment? <==> image.Truthy() && image != NoImage && !db.attachFails)
    ensures r.Some? && r.value.attached.Attachment? ==> r.value.attached.image == image
  {
    if db.saveFails then None
    else
      var attached := if image != NoImage && image.Truthy() && !db.attachFails then Attachment(image) else NoAttachment;
      Some(Notification(db.newId, alertType, matricule, camera, location, message, attached))
  }

  /** The envelope the consumer dispatches on. */
  function Envelope(data: map<string, Json>): map<string, Json>
  {
    map["type" := JStr("send_notification"), "data" := JObj(data)]
  }

  /** `_send_websocket_notification`: whether it reports success, and the
      message it delivered, if any. */
  function SendWebsocket(data: map<string, Json>, layer: Layer): (r: (bool, seq<Effect>))
    ensures r.0 <==> layer == Live(false)
    ensures r.0 ==> r.1 == [GroupSend("notifications", Envelope(data))]
    ensures !r.0 ==> r.1 == []
  {
    match layer
    case NoLayer => (false, [])
    case Live(fails) => if fails then (false, []) else (true, [GroupSend("notifications", Envelope(data))])
  }

  function SavedEffects(n: Option<Notification>): seq<Effect>
  {
    if n.Some? then [Saved(n.value)] else []
  }

  function NotificationId(n: Option<Notification>): Json
  {
    if n.Some? then JInt(n.value.id) else JNull
  }

  const UnauthorizedPrefix := "\U{1F6A8} Matricule non autoris\U{00E9}e: "
  const AuthorizedPrefix := "\U{2705} Matricule autoris\U{00E9}e: "

  /** The `image_base64` field: the base64 text of truthy bytes, else null. */
  function ImageField(image: ImageArg): (j: Json)
    requires image != NotBytes
  {
    if image.Bytes? && |image.data| > 0 then JStr(Base64.Encode(image.data)) else JNull
  }

  function UnauthorizedData(matricule: string, camera: string, location: string, confidence: real, now: string,
                            image: ImageArg, saved: Option<Notification>, detectionId: Option<int>): map<string, Json>
    requires image != NotBytes
  {
    map[
      "alert_type" := JStr("unauthorized_plate"),
      "matricule" := JStr(matricule),
      "camera" := JStr(camera),
      "location" := JStr(location),
      "timestamp" := JStr(now),
      "confidence" := JNum(confidence),
      "message" := JStr(UnauthorizedPrefix + matricule),
      "image_base64" := ImageField(image),
      "notification_id" := NotificationId(saved),
      "detection_id" := if detectionId.Some? then JInt(detectionId.value) else JNull
    ]
  }

  /** `send_unauthorized_plate_notification`: the value returned and the
      effects in order. An image that base64 cannot encode raises after the
      save, so the method returns `None` and nothing is sent. */
  function SendUnauthorized(db: Database, layer: Layer, matricule: string, camera: string, location: string,
                            confidence: real, image: ImageArg, detectionId: Option<int>, now: string): (r: (Option<Notification>, seq<Effect>))
    ensures var saved := SaveNotification(db, "unauthorized_plate", matricule, camera, location, UnauthorizedPrefix + matricule, image);
      |SavedEffects(saved)| <= |r.1| && r.1[..|SavedEffects(saved)|] == SavedEffects(saved)
    ensures image == NotBytes ==> r.0.None? && forall e :: e in r.1 ==> e.Saved?
    ensures image != NotBytes ==> r.0 == SaveNotification(db, "unauthorized_plate", matricule, camera, location, UnauthorizedPrefix + matricule, image)
  {
    var message := UnauthorizedPrefix + matricule;
    var saved := SaveNotification(db, "unauthorized_plate", matricule, camera, location, message, image);
    if image == NotBytes then (None, SavedEffects(saved))
    else
      var sent := SendWebsocket(UnauthorizedData(matricule, camera, location, confidence, now, image, saved, detectionId), layer);
      (saved, SavedEffects(saved) + sent.1)
  }

  /** The WebSocket message goes out whether or not the save worked; the
      save's outcome only shows in `notification_id`. */
  lemma SendDoesNotDependOnSave(db: Database, layer: Layer, matricule: string, camera: string, location: string,
                                confidence: real, image: ImageArg, detectionId: Option<int>, now: string)
    requires image != NotBytes && layer == Live(false)
    ensures var r := SendUnauthorized(db, layer, matricule, camera, location, confidence, image, detectionId, now);
      var sent := r.1[|r.1| - 1];
      && sent.GroupSend? && sent.group == "notifications"
      && sent.payload["data"].JObj?
      && var data := sent.payload["data"].fields;
         && "notification_id" in data
         && (data["notification_id"] == JNull <==> db.saveFails)
         && (!db.saveFails ==> data["notification_id"] == JInt(db.newId))
  {
  }

  /** A failing image attachment does not stop the save. */
  lemma AttachFailureStillSaves(db: Database, layer: Layer, matricule: string, camera: string, location: string,
                                confidence: real, image: ImageArg, detectionId: Option<int>, now: string)
    requires image != NotBytes && db.attachFails && !db.saveFails
    ensures var r := SendUnauthorized(db, layer, matricule, camera, location, confidence, image, detectionId, now);
      r.0.Some? && r.0.value.attached == NoAttachment && r.1[0] == Saved(r.0.value)
  {
  }

  /** The image travels as base64 text that decodes back to exactly the
      image bytes; an empty or absent image travels as null. */
  lemma ImageTravelsAsBase64(image: ImageArg)
    requires image != NotBytes
    ensures ImageField(image) != JNull <==> image.Truthy() && image.Bytes?
    ensures ImageField(image).JStr? ==> Base64.Decode(ImageField(image).s) == Some(image.data)
  {
    if image.Bytes? && |image.data| > 0 {
      Base64.DecodeEncode(image.data);
    }
  }

  function AuthorizedData(matricule: string, camera: string, location: string, confidence: real, now: string,
                          saved: Option<Notification>, detectionId: Option<int>): map<string, Json>
  {
    map[
      "alert_type" := JStr("authorized_plate"),
      "matricule" := JStr(matricule),
      "camera" := JStr(camera),
      "location" := JStr(location),
      "timestamp" := JStr(now),
      "confidence" := JNum(confidence),
      "message" := JStr(AuthorizedPrefix + matricule),
      "notification_id" := NotificationId(saved),
      "detection_id" := if detectionId.Some? then JInt(detectionId.value) else JNull
    ]
  }

  /** `send_authorized_plate_notification`: saved without an image and
      announced without an image field; the send's result is ignored. */
  function SendAuthorized(db: Database, layer: Layer, matricule: string, camera: string, location: string,
                          confidence: real, detectionId: Option<int>, now: string): (r: (Option<Notification>, seq<Effect>))
    ensures r.0.None? <==> db.saveFails
    ensures r.0.Some? ==> r.0.value.attached == NoAttachment
    ensures forall e :: e in r.1 && e.GroupSend? ==>
              "data" in e.payload && e.payload["data"].JObj? && "image_base64" !in e.payload["data"].fields
    ensures |r.1| == (if db.saveFails then 0 else 1) + (if layer == Live(false) then 1 else 0)
  {
    var saved := SaveNotification(db, "authorized_plate", matricule, camera, location, AuthorizedPrefix + matricule, NoImage);
    var sent := SendWebsocket(AuthorizedData(matricule, camera, location, confidence, now, saved, detectionId), layer);
    (saved, SavedEffects(saved) + sent.1)
  }
}

=== FILE: notify_tasks.dfy ===
/** The Celery tasks of gismap/tasks/notification_tasks.py: the
    unauthorized-plate alert and its history key, system alerts and camera
    status updates, the camera health sweep, the daily report, history
    cleanup, and the human-incident alerts. Channels, Redis and Celery
    become a log of effects; the clock and the database are inputs. */
module AlertTasks {
  import opened Wrappers
  import opened Text
  import opened Json

  /** What a task does to the outside world, in order. */
  datatype Effect =
      /** `channel_layer.group_send(group, payload)`. */
    | GroupSend(group: string, payload: map<string, Json>)
      /** `redis_client.setex(key, ttl, value)`. */
    | SetEx(key: string, ttl: int, value: string)
      /** `send_system_alert.delay(...)`. */
    | SystemAlertTask(message: string, alertType: string, priority: string, details: map<string, Json>)
      /** `update_camera_status.delay(...)`. */
    | StatusTask(cameraId: nat, status: string, statusMessage: Option<string>)

  /** A task's effects up to an uncaught exception: `fault` is the number
      of effects made before it struck, `None` when nothing raised. */
  function UpTo(steps: seq<Effect>, fault: Option<nat>): (done: seq<Effect>)
    ensures fault.None? ==> done == steps
    ensures fault.Some? ==> |done| == if fault.value < |steps| then fault.value else |steps|
    ensures done == steps[..|done|]
  {
    if fault.Some? && fault.value < |steps| then steps[..fault.value] else steps
  }

  /** A task that would make `steps` and return `value`, struck by `fault`:
      the result is an error exactly when something raised, and the effects
      are those made before the raise. */
  function Attempt<T>(steps: seq<Effect>, value: T, fault: Option<nat>): (r: (TaskResult<T>, seq<Effect>))
    ensures r.0.Completed? <==> fault.None?
    ensures r.0.Completed? ==> r.0.value == value && r.1 == steps
    ensures fault.Some? ==> r.1 == steps[..if fault.value < |steps| then fault.value else |steps|]
  {
    (if fault.None? then Completed(value) else Errored, UpTo(steps, fault))
  }

  /** Python truthiness of an optional text argument. */
  predicate Given(x: Option<string>)
  {
    x.Some? && x.value != ""
  }

  /** Python's `x or fallback` for an optional text. */
  function OrElse(x: Option<string>, fallback: string): (r: string)
    ensures Given(x) ==> r == x.value
    ensures !Given(x) ==> r == fallback
  {
    if Given(x) then x.value else fallback
  }

  function OptionalText(x: Option<string>): Json
  {
    if x.Some? then JStr(x.value) else JNull
  }

  function OptionalInt(x: Option<int>): Json
  {
    if x.Some? then JInt(x.value) else JNull
  }

  // ---------------------------------------------------------------------
  // send_alert_notification

  const Undefined := "Non d\U{00E9}fini"

  function DefaultCameraName(cameraId: nat): string
  {
    "Cam\U{00E9}ra " + NatToString(cameraId)
  }

  /** A camera row: its name and its department's name, if it has one. */
  datatype CameraRow = CameraRow(name: string, department: Option<string>)

  /** The name and place the alert carries. The camera is looked up only
      when one of them is missing; `lookup` is `None` when that raised. */
  function AlertPlace(cameraId: nat, name: Option<string>, lieu: Option<string>, lookup: Option<CameraRow>): (r: (string, string))
    ensures Given(name) ==> r.0 == name.value
    ensures Given(lieu) ==> r.1 == lieu.value
    ensures !Given(name) ==> r.0 == (if lookup.Some? then lookup.value.name else DefaultCameraName(cameraId))
    ensures !Given(lieu) ==> r.1 == (if lookup.Some? && lookup.value.department.Some? then lookup.value.department.value else Undefined)
  {
    if Given(name) && Given(lieu) then (name.value, lieu.value)
    else
      match lookup
      case Some(cam) =>
        (OrElse(name, cam.name), OrElse(lieu, if cam.department.Some? then cam.department.value else Undefined))
      case None =>
        (OrElse(name, DefaultCameraName(cameraId)), OrElse(lieu, Undefined))
  }

  const UnauthorizedMessage := "\U{1F6A8} MATRICULE NON AUTORIS\U{00C9} D\U{00C9}TECT\U{00C9}"

  function AlertPayload(matricule: string, cameraId: nat, name: string, lieu: string, now: string, detectionId: Option<int>): map<string, Json>
  {
    map[
      "type" := JStr("send_alert"),
      "message" := JStr(UnauthorizedMessage),
      "matricule" := JStr(matricule),
      "camera_id" := JInt(cameraId),
      "camera_name" := JStr(name),
      "lieu" := JStr(lieu),
      "timestamp" := JStr(now),
      "detection_id" := OptionalInt(detectionId),
      "priority" := JStr("high")
    ]
  }

  /** The history key `alert_{camera_id}_{int(time.time())}`. */
  function HistoryKey(cameraId: nat, unixTime: nat): string
  {
    "alert_" + NatToString(cameraId) + "_" + NatToString(unixTime)
  }

  function HistoryValue(matricule: string, name: string, lieu: string): string
  {
    "UNAUTHORIZED:" + matricule + ":" + name + ":" + lieu
  }

  datatype NotifyResult = Notified(matricule: string, cameraId: nat, timestamp: string) | NotifyFailed

  /** `send_alert_notification`: broadcast to "alerts", record the history
      entry for an hour, then broadcast to the camera's own group. The clock
      is read twice: `now` stamps the payload and `returnedAt` the result.
      `fault` says how many effects were made before an exception, if one
      was raised; the task then reports failure. */
  function SendAlertNotification(
    matricule: string, cameraId: nat, name: Option<string>, lieu: Option<string>, detectionId: Option<int>,
    lookup: Option<CameraRow>, now: string, unixTime: nat, returnedAt: string, fault: Option<nat>): (r: (NotifyResult, seq<Effect>))
    ensures r.0.Notified? <==> fault.None?
    ensures |r.1| <= 3
    ensures fault.Some? ==> |r.1| == if fault.value < 3 then fault.value else 3
    ensures var place := AlertPlace(cameraId, name, lieu, lookup);
      var payload := AlertPayload(matricule, cameraId, place.0, place.1, now, detectionId);
      r.1 == [GroupSend("alerts", payload),
              SetEx(HistoryKey(cameraId, unixTime), 3600, HistoryValue(matricule, place.0, place.1)),
              GroupSend("camera_" + NatToString(cameraId) + "_alerts", payload)][..|r.1|]
    ensures r.0.Notified? ==> |r.1| == 3 && r.0.matricule == matricule && r.0.cameraId == cameraId
                              && r.0.timestamp == returnedAt
  {
    var place := AlertPlace(cameraId, name, lieu, lookup);
    var payload := AlertPayload(matricule, cameraId, place.0, place.1, now, detectionId);
    var steps := [
      GroupSend("alerts", payload),
      SetEx(HistoryKey(cameraId, unixTime), 3600, HistoryValue(matricule, place.0, place.1)),
      GroupSend("camera_" + NatToString(cameraId) + "_alerts", payload)
    ];
    var done := UpTo(steps, fault);
    if fault.None? then (Notified(matricule, cameraId, returnedAt), done) else (NotifyFailed, done)
  }

  /** The alert payload has type "send_alert", priority "high", and the
      same payload goes to "alerts" and then to the camera's group. */
  lemma AlertIsHighPriority(
    matricule: string, cameraId: nat, name: Option<string>, lieu: Option<string>, detectionId: Option<int>,
    lookup: Option<CameraRow>, now: string, unixTime: nat, returnedAt: string)
    ensures var r := SendAlertNotification(matricule, cameraId, name, lieu, detectionId, lookup, now, unixTime, returnedAt, None);
      && r.1[0].GroupSend? && r.1[0].group == "alerts"
      && r.1[0].payload["type"] == JStr("send_alert") && r.1[0].payload["priority"] == JStr("high")
      && r.1[2] == GroupSend("camera_" + NatToString(cameraId) + "_alerts", r.1[0].payload)
      && r.1[1].SetEx? && r.1[1].ttl == 3600
  {
  }

  // ---------------------------------------------------------------------
  // cleanup_old_alerts

  const MaxAlertAge := 86400

  /** The timestamp cleanup reads from a key: the third '_' segment, when
      there is one and it parses as an integer. */
  function KeyTimestamp(key: string): Option<int>
  {
    var parts := Split(key, '_');
    if |parts| >= 3 then ParseInt(parts[2]) else None
  }

  /** Cleanup recovers exactly the time a history key was written at. */
  lemma HistoryKeyRoundTrip(cameraId: nat, unixTime: nat)
    ensures KeyTimestamp(HistoryKey(cameraId, unixTime)) == Some(unixTime)
  {
    var id, ts := NatToString(cameraId), NatToString(unixTime);
    NoSeparatorInDigits(id);
    NoSeparatorInDigits(ts);
    var key := HistoryKey(cameraId, unixTime);
    assert key == "alert" + ['_'] + (id + ['_'] + ts);
    SplitAfterField("alert", id + ['_'] + ts, '_');
    SplitAfterField(id, ts, '_');
    SplitWithoutSep(ts, '_');
    ParseIntOfNatToString(unixTime);
  }

  lemma NoSeparatorInDigits(s: string)
    requires AllDigits(s)
    ensures '_' !in s
  {
  }

  /** Whether cleanup deletes `key` at time `now`. */
  predicate Expired(key: string, now: int)
  {
    var ts := KeyTimestamp(key);
    ts.Some? && now - ts.value > MaxAlertAge
  }

  /** The per-key loop: the keys deleted, in order. A key without a numeric
      third segment, or whose delete raised (`deleteFails`), is skipped by
      the inner `except` and not counted. */
  function Deletions(keys: seq<string>, now: int, deleteFails: string -> bool): (deleted: seq<string>)
    ensures |deleted| <= |keys|
    ensures forall k :: k in deleted <==> k in keys && StartsWith(k, "alert_") && Expired(k, now) && !deleteFails(k)
  {
    if keys == [] then []
    else
      (if StartsWith(keys[0], "alert_") && Expired(keys[0], now) && !deleteFails(keys[0]) then [keys[0]] else [])
      + Deletions(keys[1..], now, deleteFails)
  }

  /** `cleanup_old_alerts`: `listing` is the keys matching "alert_*", or
      `None` when reading the clock or listing the keys raised, which gives
      the error result before any deletion. Otherwise the result is the
      number of keys deleted. */
  function CleanupOldAlerts(listing: Option<seq<string>>, now: int, deleteFails: string -> bool): (r: (TaskResult<nat>, seq<string>))
    ensures r.0.Errored? <==> listing.None?
    ensures listing.None? ==> r.1 == []
    ensures r.0.Completed? ==> r.0.value == |r.1| <= |listing.value|
    ensures listing.Some? ==> forall k :: k in r.1 <==>
              k in listing.value && StartsWith(k, "alert_") && Expired(k, now) && !deleteFails(k)
  {
    match listing
    case None => (Errored, [])
    case Some(keys) =>
      var deleted := Deletions(keys, now, deleteFails);
      (Completed(|deleted|), deleted)
  }

  /** A history entry is deleted exactly when it is more than a day old
      and its delete goes through. */
  lemma HistoryEntryExpiry(cameraId: nat, unixTime: nat, now: int, deleteFails: string -> bool)
    ensures var key := HistoryKey(cameraId, unixTime);
      key in CleanupOldAlerts(Some([key]), now, deleteFails).1 <==> now - unixTime > MaxAlertAge && !deleteFails(key)
  {
    HistoryKeyRoundTrip(cameraId, unixTime);
    var key := HistoryKey(cameraId, unixTime);
    assert key[..6] == "alert_";
  }

  // ---------------------------------------------------------------------
  // send_system_alert and update_camera_status

  /** `send_system_alert`'s broadcast. */
  function SystemAlertBroadcast(message: string, alertType: string, priority: string,
                                details: Option<map<string, Json>>, now: string): (e: Effect)
    ensures e.GroupSend? && e.group == "alerts"
    ensures "details" in e.payload && e.payload["details"] == JObj(OrEmpty(details))
    ensures "alert_type" in e.payload && e.payload["alert_type"] == JStr(alertType)
    ensures "priority" in e.payload && e.payload["priority"] == JStr(priority)
  {
    GroupSend("alerts", map[
      "type" := JStr("send_system_alert"),
      "message" := JStr(message),
      "alert_type" := JStr(alertType),
      "priority" := JStr(priority),
      "details" := JObj(OrEmpty(details)),
      "timestamp" := JStr(now)
    ])
  }

  /** `send_system_alert`: the broadcast, then `{"success": True,
      "message": message}`; an exception gives the error result. */
  function SystemAlert(message: string, alertType: string, priority: string,
                       details: Option<map<string, Json>>, now: string, fault: Option<nat>): (r: (TaskResult<string>, seq<Effect>))
    ensures r.0.Completed? <==> fault.None?
    ensures r.0.Completed? ==> r.0.value == message
    ensures |r.1| <= 1
    ensures |r.1| == 1 <==> fault.None? || fault.value >= 1
    ensures |r.1| == 1 ==> r.1[0] == SystemAlertBroadcast(message, alertType, priority, details, now)
  {
    Attempt([SystemAlertBroadcast(message, alertType, priority, details, now)], message, fault)
  }

  function StatusMessage(cameraId: nat, status: string, message: Option<string>): string
  {
    OrElse(message, "Cam\U{00E9}ra " + NatToString(cameraId) + ": " + status)
  }

  /** `update_camera_status`'s effects: the same status message to "alerts"
      and "camera_status", then `camera_status_{id}` set for five minutes. */
  function StatusBroadcasts(cameraId: nat, status: string, message: Option<string>, now: string): (effects: seq<Effect>)
    ensures |effects| == 3
    ensures effects[0].GroupSend? && effects[1].GroupSend?
    ensures effects[0].group == "alerts" && effects[1].group == "camera_status"
    ensures effects[0].payload == effects[1].payload
    ensures "message" in effects[0].payload && effects[0].payload["message"] == JStr(StatusMessage(cameraId, status, message))
    ensures effects[2] == SetEx("camera_status_" + NatToString(cameraId), 300, status)
  {
    var data := map[
      "type" := JStr("send_camera_status"),
      "camera_id" := JInt(cameraId),
      "status" := JStr(status),
      "message" := JStr(StatusMessage(cameraId, status, message)),
      "timestamp" := JStr(now)
    ];
    [GroupSend("alerts", data), GroupSend("camera_status", data), SetEx("camera_status_" + NatToString(cameraId), 300, status)]
  }

  /** `update_camera_status`: its effects, then `{"success": True,
      "camera_id": ..., "status": ...}`; an exception stops the effects
      that follow it and gives the error result. */
  function UpdateCameraStatus(cameraId: nat, status: string, message: Option<string>, now: string, fault: Option<nat>): (r: (TaskResult<(nat, string)>, seq<Effect>))
    ensures r.0.Completed? <==> fault.None?
    ensures r.0.Completed? ==> r.0.value == (cameraId, status) && |r.1| == 3
    ensures fault.Some? ==> |r.1| == if fault.value < 3 then fault.value else 3
    ensures r.1 == StatusBroadcasts(cameraId, status, message, now)[..|r.1|]
  {
    Attempt(StatusBroadcasts(cameraId, status, message, now), (cameraId, status), fault)
  }

  // ---------------------------------------------------------------------
  // monitor_camera_health

  datatype Camera = Camera(id: nat, name: string)

  /** What the store says about a camera's frame key: absent, or present
      with its TTL (-1 when it has no expiry). */
  type FrameTtl = nat -> Option<int>

  predicate Online(c: Camera, frameTtl: FrameTtl)
  {
    frameTtl(c.id).Some? && frameTtl(c.id).value > 0
  }

  function OnlineIds(cameras: seq<Camera>, frameTtl: FrameTtl): seq<nat>
  {
    if cameras == [] then []
    else (if Online(cameras[0], frameTtl) then [cameras[0].id] else []) + OnlineIds(cameras[1..], frameTtl)
  }

  function OfflineIds(cameras: seq<Camera>, frameTtl: FrameTtl): seq<nat>
  {
    if cameras == [] then []
    else (if Online(cameras[0], frameTtl) then [] else [cameras[0].id]) + OfflineIds(cameras[1..], frameTtl)
  }

  /** Every camera lands in exactly one of the two lists. */
  lemma {:induction false} HealthPartition(cameras: seq<Camera>, frameTtl: FrameTtl)
    ensures multiset(OnlineIds(cameras, frameTtl)) + multiset(OfflineIds(cameras, frameTtl))
            == multiset(Ids(cameras))
    ensures |OnlineIds(cameras, frameTtl)| + |OfflineIds(cameras, frameTtl)| == |cameras|
    ensures forall c :: c in cameras && Online(c, frameTtl) ==> c.id in OnlineIds(cameras, frameTtl)
    ensures forall c :: c in cameras && !Online(c, frameTtl) ==> c.id in OfflineIds(cameras, frameTtl)
  {
    PartitionCounts(cameras, frameTtl);
    PartitionMembers(cameras, frameTtl);
  }

  lemma {:induction false} PartitionCounts(cameras: seq<Camera>, frameTtl: FrameTtl)
    ensures multiset(OnlineIds(cameras, frameTtl)) + multiset(OfflineIds(cameras, frameTtl))
            == multiset(Ids(cameras))
    ensures |OnlineIds(cameras, frameTtl)| + |OfflineIds(cameras, frameTtl)| == |cameras|
  {
    if cameras != [] {
      PartitionCounts(cameras[1..], frameTtl);
      assert Ids(cameras) == [cameras[0].id] + Ids(cameras[1..]);
    }
  }

  lemma {:induction false} PartitionMembers(cameras: seq<Camera>, frameTtl: FrameTtl)
    ensures forall c :: c in cameras && Online(c, frameTtl) ==> c.id in OnlineIds(cameras, frameTtl)
    ensures forall c :: c in cameras && !Online(c, frameTtl) ==> c.id in OfflineIds(cameras, frameTtl)
  {
    if cameras != [] {
      PartitionMembers(cameras[1..], frameTtl);
      assert forall c :: c in cameras ==> c == cameras[0] || c in cameras[1..];
    }
  }

  function Ids(cameras: seq<Camera>): (ids: seq<nat>)
    ensures |ids| == |cameras| && forall i :: 0 <= i < |cameras| ==> ids[i] == cameras[i].id
  {
    if cameras == [] then [] else [cameras[0].id] + Ids(cameras[1..])
  }

  const OfflineWarning := "\U{26A0}\U{FE0F} Cam\U{00E9}ra '"

  /** The alert and the status update sent for one offline camera; `name`
      is `None` when re-reading the camera raised, which skips both. */
  function OfflineEffects(id: nat, name: Option<string>): seq<Effect>
  {
    if name.None? then []
    else [
      SystemAlertTask(OfflineWarning + name.value + "' hors ligne", "camera_offline", "medium",
                      map["camera_id" := JInt(id), "camera_name" := JStr(name.value)]),
      StatusTask(id, "offline", Some("Aucune frame re\U{00E7}ue"))
    ]
  }

  function OnlineEffects(cameras: seq<Camera>, frameTtl: FrameTtl): seq<Effect>
  {
    if cameras == [] then []
    else (if Online(cameras[0], frameTtl) then [StatusTask(cameras[0].id, "online", None)] else [])
         + OnlineEffects(cameras[1..], frameTtl)
  }

  function AllOfflineEffects(ids: seq<nat>, reread: nat -> Option<string>): seq<Effect>
  {
    if ids == [] then [] else OfflineEffects(ids[0], reread(ids[0])) + AllOfflineEffects(ids[1..], reread)
  }

  datatype HealthReport = HealthReport(total: nat, online: nat, offline: nat, offlineCameras: seq<nat>)

  /** Where an exception escaping the health sweep struck: in the scan of
      the cameras after `queued` online statuses were queued, or after the
      offline alerts, before the summary went out. Exceptions inside the
      per-camera offline block are swallowed there and never get here. */
  datatype HealthFault = DuringScan(queued: nat) | BeforeSummary

  /** `monitor_camera_health`: the report, and the effects in order (online
      status updates, then each offline camera's alert and status, then the
      summary broadcast); an exception gives `{"error": ...}` after the
      effects made before it. */
  function MonitorCameraHealth(cameras: seq<Camera>, frameTtl: FrameTtl, reread: nat -> Option<string>, now: string,
                               fault: Option<HealthFault>): (r: (TaskResult<HealthReport>, seq<Effect>))
    ensures r.0.Completed? <==> fault.None?
    ensures r.0.Completed? ==>
              && r.0.value.total == |cameras| && r.0.value.online + r.0.value.offline == r.0.value.total
              && r.0.value.online == |OnlineIds(cameras, frameTtl)|
              && r.0.value.offlineCameras == OfflineIds(cameras, frameTtl)
    ensures fault.None? ==>
              && |r.1| >= 1 && r.1[|r.1| - 1].GroupSend? && r.1[|r.1| - 1].group == "alerts"
              && r.1[..|r.1| - 1] == OnlineEffects(cameras, frameTtl) + AllOfflineEffects(OfflineIds(cameras, frameTtl), reread)
    ensures fault == Some(BeforeSummary) ==>
              r.1 == OnlineEffects(cameras, frameTtl) + AllOfflineEffects(OfflineIds(cameras, frameTtl), reread)
    ensures fault.Some? && fault.value.DuringScan? ==>
              && |r.1| <= |OnlineEffects(cameras, frameTtl)|
              && r.1 == OnlineEffects(cameras, frameTtl)[..|r.1|]
  {
    HealthPartition(cameras, frameTtl);
    var online := OnlineIds(cameras, frameTtl);
    var offline := OfflineIds(cameras, frameTtl);
    var summary := GroupSend("alerts", map[
      "type" := JStr("send_detection_update"),
      "camera_count" := JInt(|cameras|),
      "online_cameras" := JInt(|online|),
      "offline_cameras" := JInt(|offline|),
      "timestamp" := JStr(now)
    ]);
    var scanned := OnlineEffects(cameras, frameTtl);
    var alerted := scanned + AllOfflineEffects(offline, reread);
    match fault
    case None => (Completed(HealthReport(|cameras|, |online|, |offline|, offline)), alerted + [summary])
    case Some(BeforeSummary) => (Errored, alerted)
    case Some(DuringScan(n)) => (Errored, scanned[..if n < |scanned| then n else |scanned|])
  }

  /** An online camera gets an "online" status and nothing else; an
      offline one that can be re-read gets a medium-priority
      "camera_offline" alert followed by an "offline" status. */
  lemma {:induction false} OnlineCamerasMarkedOnline(cameras: seq<Camera>, frameTtl: FrameTtl)
    ensures forall e :: e in OnlineEffects(cameras, frameTtl) ==>
              e.StatusTask? && e.status == "online" && e.cameraId in OnlineIds(cameras, frameTtl)
    ensures |OnlineEffects(cameras, frameTtl)| == |OnlineIds(cameras, frameTtl)|
  {
    if cameras != [] {
      OnlineCamerasMarkedOnline(cameras[1..], frameTtl);
    }
  }

  lemma OfflineCameraAlerted(id: nat, name: string)
    ensures var es := OfflineEffects(id, Some(name));
      && |es| == 2
      && es[0].SystemAlertTask? && es[0].alertType == "camera_offline" && es[0].priority == "medium"
      && es[0].details["camera_id"] == JInt(id)
      && es[1] == StatusTask(id, "offline", Some("Aucune frame re\U{00E7}ue"))
  {
  }

  // ---------------------------------------------------------------------
  // generate_daily_report

  /** One of today's detections: its camera and whether it was authorized. */
  datatype Sighting = Sighting(cameraId: nat, authorized: bool)

  function CountWhere(rows: seq<Sighting>, cameraId: Option<nat>, onlyUnauthorized: bool): (n: nat)
    ensures n <= |rows|
  {
    if rows == [] then 0
    else
      var hit := (cameraId.None? || rows[0].cameraId == cameraId.value) && (!onlyUnauthorized || !rows[0].authorized);
      (if hit then 1 else 0) + CountWhere(rows[1..], cameraId, onlyUnauthorized)
  }

  /** The independent count of authorized sightings. */
  function CountAuthorized(rows: seq<Sighting>, cameraId: Option<nat>): nat
  {
    if rows == [] then 0
    else
      var hit := (cameraId.None? || rows[0].cameraId == cameraId.value) && rows[0].authorized;
      (if hit then 1 else 0) + CountAuthorized(rows[1..], cameraId)
  }

  /** `total - unauthorized` counts exactly the authorized sightings. */
  lemma {:induction false} AuthorizedIsDifference(rows: seq<Sighting>, cameraId: Option<nat>)
    ensures CountWhere(rows, cameraId, true) <= CountWhere(rows, cameraId, false)
    ensures CountWhere(rows, cameraId, false) - CountWhere(rows, cameraId, true) == CountAuthorized(rows, cameraId)
  {
    if rows != [] {
      AuthorizedIsDifference(rows[1..], cameraId);
    }
  }

  datatype Stats = Stats(total: nat, unauthorized: nat, authorized: int)

  function CameraStats(rows: seq<Sighting>, id: nat): Stats
  {
    var total := CountWhere(rows, Some(id), false);
    var unauthorized := CountWhere(rows, Some(id), true);
    Stats(total, unauthorized, total - unauthorized)
  }

  /** Per-camera statistics keyed by camera name; a later camera with the
      same name replaces an earlier one. */
  function StatsByName(cameras: seq<Camera>, rows: seq<Sighting>): map<string, Stats>
    decreases |cameras|
  {
    if cameras == [] then map[]
    else
      var last := cameras[|cameras| - 1];
      StatsByName(cameras[..|cameras| - 1], rows)[last.name := CameraStats(rows, last.id)]
  }

  datatype Report = Report(total: nat, authorized: int, unauthorized: nat, percentage: real, cameras: map<string, Stats>)

  /** The unauthorized share in percent, before Python's rounding to two
      decimals. */
  function Percentage(unauthorized: nat, total: nat): (p: real)
    ensures total == 0 ==> p == 0.0
    ensures unauthorized <= total ==> 0.0 <= p <= 100.0
  {
    if total > 0 then (unauthorized as real / total as real) * 100.0 else 0.0
  }

  function StatsJson(s: Stats): Json
  {
    JObj(map["total" := JInt(s.total), "unauthorized" := JInt(s.unauthorized), "authorized" := JInt(s.authorized)])
  }

  /** The report as the dictionary the alert carries. */
  function ReportJson(report: Report, date: string): map<string, Json>
  {
    map[
      "date" := JStr(date),
      "summary" := JObj(map[
        "total_detections" := JInt(report.total),
        "authorized" := JInt(report.authorized),
        "unauthorized" := JInt(report.unauthorized),
        "unauthorized_percentage" := JNum(report.percentage)
      ]),
      "cameras" := JObj(map name | name in report.cameras :: StatsJson(report.cameras[name]))
    ]
  }

  /** The report over today's sightings. */
  function DailyReport(rows: seq<Sighting>, cameras: seq<Camera>): (report: Report)
    ensures report.total == |rows|
    ensures report.authorized == CountAuthorized(rows, None) && report.authorized + report.unauthorized == report.total
    ensures 0.0 <= report.percentage <= 100.0
    ensures report.cameras == StatsByName(cameras, rows)
  {
    AuthorizedIsDifference(rows, None);
    AllRowsCounted(rows);
    var total := CountWhere(rows, None, false);
    var unauthorized := CountWhere(rows, None, true);
    Report(total, total - unauthorized, unauthorized, Percentage(unauthorized, total), StatsByName(cameras, rows))
  }

  /** `generate_daily_report`: the report, after the low-priority
      "daily_report" alert carrying it when there was an unauthorized
      sighting; an exception gives `{"error": ...}`. */
  function GenerateDailyReport(rows: seq<Sighting>, cameras: seq<Camera>, date: string, fault: Option<nat>): (r: (TaskResult<Report>, seq<Effect>))
    ensures r.0.Completed? <==> fault.None?
    ensures r.0.Completed? ==> r.0.value == DailyReport(rows, cameras)
    ensures |r.1| <= 1
    ensures |r.1| == 1 <==> DailyReport(rows, cameras).unauthorized > 0 && (fault.None? || fault.value >= 1)
    ensures |r.1| == 1 ==> r.1[0].SystemAlertTask? && r.1[0].alertType == "daily_report" && r.1[0].priority == "low"
                           && r.1[0].details == ReportJson(DailyReport(rows, cameras), date)
  {
    var report := DailyReport(rows, cameras);
    var unauthorized := report.unauthorized;
    var steps :=
      if unauthorized > 0 then
        [SystemAlertTask("\U{1F4CA} Rapport quotidien: " + NatToString(unauthorized) + " matricules non autoris\U{00E9}s d\U{00E9}tect\U{00E9}s",
                         "daily_report", "low", ReportJson(report, date))]
      else [];
    Attempt(steps, report, fault)
  }

  lemma {:induction false} AllRowsCounted(rows: seq<Sighting>)
    ensures CountWhere(rows, None, false) == |rows|
  {
    if rows != [] {
      AllRowsCounted(rows[1..]);
    }
  }

  /** Each camera's entry satisfies the same identity as the summary, and
      the entry under a name comes from the last camera carrying it. */
  lemma {:induction false} CameraEntries(cameras: seq<Camera>, rows: seq<Sighting>, name: string)
    requires name in StatsByName(cameras, rows)
    ensures var s := StatsByName(cameras, rows)[name];
      s.authorized >= 0 && s.total == s.unauthorized + s.authorized
      && exists i :: 0 <= i < |cameras| && cameras[i].name == name
           && s.authorized == CountAuthorized(rows, Some(cameras[i].id))
           && forall j :: i < j < |cameras| ==> cameras[j].name != name
    decreases |cameras|
  {
    var n := |cameras| - 1;
    var last := cameras[n];
    if last.name == name {
      AuthorizedIsDifference(rows, Some(last.id));
    } else {
      CameraEntries(cameras[..n], rows, name);
      var i :| 0 <= i < n && cameras[..n][i].name == name
             && StatsByName(cameras, rows)[name].authorized == CountAuthorized(rows, Some(cameras[..n][i].id))
             && forall j :: i < j < n ==> cameras[..n][j].name != name;
      assert cameras[i] == cameras[..n][i];
      assert forall j :: i < j < n ==> cameras[j] == cameras[..n][j];
    }
  }

  // ---------------------------------------------------------------------
  // Human-incident alerts

  datatype Incident = HumanBoxes | Fallen | Aggression
  {
    function AlertType(): string
    {
      match this
      case HumanBoxes => "human_boxes"
      case Fallen => "fallen"
      case Aggression => "aggression"
    }

    function Priority(): string
    {
      match this
      case HumanBoxes => "medium"
      case Fallen => "high"
      case Aggression => "high"
    }

    function Message(): string
    {
      match this
      case HumanBoxes => "\U{1F6A8} Personne avec bo\U{00EE}te d\U{00E9}tect\U{00E9}e"
      case Fallen => "\U{26A0}\U{FE0F} Personne tomb\U{00E9}e d\U{00E9}tect\U{00E9}e"
      case Aggression => "\U{26A0}\U{FE0F} Agression d\U{00E9}tect\U{00E9}e"
    }
  }

  /** The alert `send_human_boxes_alert`, `send_fallen_alert` and
      `send_aggression_alert` queue: the caller's details are merged after
      the camera fields, so they win on a clash. */
  function IncidentEffect(kind: Incident, cameraId: nat, name: Option<string>, details: Option<map<string, Json>>): (e: Effect)
    ensures e.SystemAlertTask? && e.alertType == kind.AlertType() && e.priority == kind.Priority()
    ensures forall k :: k in OrEmpty(details) ==> k in e.details && e.details[k] == OrEmpty(details)[k]
    ensures e.details.Keys == {"camera_id", "camera_name"} + OrEmpty(details).Keys
    ensures "camera_id" !in OrEmpty(details) ==> e.details["camera_id"] == JInt(cameraId)
    ensures "camera_name" !in OrEmpty(details) ==> e.details["camera_name"] == OptionalText(name)
  {
    SystemAlertTask(kind.Message(), kind.AlertType(), kind.Priority(),
                    map["camera_id" := JInt(cameraId), "camera_name" := OptionalText(name)] + OrEmpty(details))
  }

  /** The task itself: the alert, then `{"success": True, "camera_id": ...}`;
      when queueing raises, `{"success": False, ...}`. */
  function IncidentAlert(kind: Incident, cameraId: nat, name: Option<string>, details: Option<map<string, Json>>,
                         fault: Option<nat>): (r: (TaskResult<nat>, seq<Effect>))
    ensures r.0.Completed? <==> fault.None?
    ensures r.0.Completed? ==> r.0.value == cameraId
    ensures |r.1| <= 1
    ensures |r.1| == 1 <==> fault.None? || fault.value >= 1
    ensures |r.1| == 1 ==> r.1[0] == IncidentEffect(kind, cameraId, name, details)
  {
    Attempt([IncidentEffect(kind, cameraId, name, details)], cameraId, fault)
  }

  /** Falls and aggressions are high priority, boxes medium, and the three
      kinds are told apart by their alert type. */
  lemma IncidentPriorities()
    ensures HumanBoxes.Priority() == "medium" && Fallen.Priority() == "high" && Aggression.Priority() == "high"
    ensures forall a: Incident, b: Incident :: a.AlertType() == b.AlertType() ==> a == b
  {
  }
}

=== FILE: ocr.dfy ===
/** Candidate selection and outcome classification of `run_ocr_task`
    (gismap/tasks/ocr_task.py). Image decoding, preprocessing and the
    Tesseract engine are inputs: the engine's answer for each image variant
    and profile is given, `None` standing for a call that raised. */
module OcrTask {
  import opened Wrappers
  import opened Text
  import PlateText

  /** The image variants and Tesseract profiles tried, variant-major. */
  const ImageVariants: seq<string> := ["original_gray", "processed", "enhanced"]
  const Profiles: seq<string> := [
    "--psm 8 -c tessedit_char_whitelist=0123456789",
    "--psm 7 -c tessedit_char_whitelist=0123456789",
    "--psm 6 -l ara",
    "--psm 8 -l ara",
    "--psm 7 -l ara",
    "--psm 6 -l ara+eng",
    "--psm 8"
  ]

  /** The language handed to Tesseract: Arabic when the profile mentions it. */
  function Language(profile: string): (lang: string)
    ensures lang == "ara" <==> Contains(profile, "ara")
    ensures lang == "ara" || lang == "eng"
  {
    if Contains(profile, "ara") then "ara" else "eng"
  }

  /** One OCR attempt: `output` is the engine's raw text, `None` when it raised. */
  datatype Trial = Trial(variant: string, profile: string, output: Option<string>)

  /** The attempts in the order the nested loops make them. */
  function Trials(ocr: (string, string) -> Option<string>): (ts: seq<Trial>)
    ensures |ts| == |ImageVariants| * |Profiles|
    ensures forall k :: 0 <= k < |ts| ==>
              ts[k].variant == ImageVariants[k / |Profiles|] && ts[k].profile == Profiles[k % |Profiles|]
              && ts[k].output == ocr(ts[k].variant, ts[k].profile)
  {
    seq(|ImageVariants| * |Profiles|,
        k requires 0 <= k < |ImageVariants| * |Profiles| =>
          Trial(ImageVariants[k / |Profiles|], Profiles[k % |Profiles|],
                ocr(ImageVariants[k / |Profiles|], Profiles[k % |Profiles|])))
  }

  /** The text a trial offers, stripped as the source strips it. */
  function TrialText(t: Trial): string
  {
    if t.output.Some? then Strip(t.output.value) else ""
  }

  /** Only stripped outputs of at least two characters compete. */
  predicate Competes(t: Trial)
  {
    |TrialText(t)| >= 2
  }

  /** The approximate confidence: ten points per character. */
  function Score(t: Trial): nat
  {
    if Competes(t) then 10 * |TrialText(t)| else 0
  }

  datatype Best = Best(text: string, confidence: nat, via: string)

  function CandidateOf(t: Trial): Best
  {
    Best(TrialText(t), Score(t), t.variant + "+" + t.profile)
  }

  /** Trial `i` is the first one reaching the highest score. */
  ghost predicate FirstMaximum(trials: seq<Trial>, i: int)
  {
    && 0 <= i < |trials|
    && Competes(trials[i])
    && (forall j :: 0 <= j < i ==> Score(trials[j]) < Score(trials[i]))
    && (forall j :: 0 <= j < |trials| ==> Score(trials[j]) <= Score(trials[i]))
  }

  /** The candidate the task settles on: the first best-scoring trial, or,
      when no trial competes, the fallback reading. */
  ghost predicate Chosen(input: OcrInput, b: Best)
  {
    || (exists i :: FirstMaximum(Trials(input.ocr), i) && b == CandidateOf(Trials(input.ocr)[i]))
    || ((forall j :: 0 <= j < |Trials(input.ocr)| ==> !Competes(Trials(input.ocr)[j]))
        && Fallback(input.fallbackArabic, input.fallbackEnglish) == Some(b))
  }

  /** At most one candidate is chosen, so the outcome is determined by the
      input. */
  lemma ChosenIsUnique(input: OcrInput, b1: Best, b2: Best)
    requires Chosen(input, b1) && Chosen(input, b2)
    ensures b1 == b2
  {
    var trials := Trials(input.ocr);
    if i1 :| FirstMaximum(trials, i1) && b1 == CandidateOf(trials[i1]) {
      var i2 :| FirstMaximum(trials, i2) && b2 == CandidateOf(trials[i2]);
      assert i1 == i2;
    }
  }

  /** The selection loop: a candidate replaces the best only on a strictly
      greater score, so the first maximum wins. */
  method SelectBest(trials: seq<Trial>) returns (best: Option<Best>)
    ensures best.None? <==> forall j :: 0 <= j < |trials| ==> !Competes(trials[j])
    ensures best.Some? ==> exists i :: FirstMaximum(trials, i) && best.value == CandidateOf(trials[i])
  {
    best := None;
    var bestScore := 0;
    ghost var at := -1;
    var k := 0;
    while k < |trials|
      invariant 0 <= k <= |trials|
      invariant -1 <= at < k
      invariant at == -1 <==> best.None?
      invariant at == -1 ==> bestScore == 0
      invariant forall j :: 0 <= j < k ==> Score(trials[j]) <= bestScore
      invariant at == -1 ==> forall j :: 0 <= j < k ==> !Competes(trials[j])
      invariant at >= 0 ==> Competes(trials[at]) && best == Some(CandidateOf(trials[at])) && bestScore == Score(trials[at])
      invariant at >= 0 ==> forall j :: 0 <= j < at ==> Score(trials[j]) < bestScore
    {
      var t := trials[k];
      var text := TrialText(t);
      if |text| >= 2 {
        var score := 10 * |text|;
        if score > bestScore {
          best := Some(CandidateOf(t));
          bestScore := score;
          at := k;
        }
      }
      k := k + 1;
    }
    if best.Some? {
      assert FirstMaximum(trials, at);
    }
  }

  /** The permissive fallback: an Arabic read of the grey image, then an
      English one when the Arabic read is empty. `None` is a call that raised,
      which abandons the fallback. */
  function Fallback(arabic: Option<string>, english: Option<string>): (best: Option<Best>)
    ensures best.Some? ==> best.value.text != []
    ensures best.Some? && best.value.confidence == 10 ==>
              arabic.Some? && best.value.text == Strip(arabic.value) && best.value.via == "fallback_arabic"
    ensures best.Some? && best.value.confidence != 10 ==>
              best.value.confidence == 5 && arabic.Some? && Strip(arabic.value) == []
              && english.Some? && best.value.text == Strip(english.value) && best.value.via == "fallback_eng"
    ensures arabic.Some? && Strip(arabic.value) != [] ==> best.Some? && best.value.confidence == 10
  {
    match arabic
    case None => None
    case Some(a) =>
      if Strip(a) != [] then Some(Best(Strip(a), 10, "fallback_arabic"))
      else
        match english
        case None => None
        case Some(e) => if Strip(e) != [] then Some(Best(Strip(e), 5, "fallback_eng")) else None
  }

  /** What the engine gives for one image crop. */
  datatype OcrInput = OcrInput(
    decodes: bool,
    ocr: (string, string) -> Option<string>,
    fallbackArabic: Option<string>,
    fallbackEnglish: Option<string>)

  datatype OcrOutcome =
    | DecodeError
    | NoTextDetected
    | InvalidFormat(rawText: string, cameraId: int, via: string)
    | Success(licensePlate: string, confidence: nat, cameraId: int, timestamp: int, via: string)
  {
    /** The `error` field of the result dictionary, empty on success. */
    function ErrorTag(): string
    {
      match this
      case DecodeError => "decode_error"
      case NoTextDetected => "no_text_detected"
      case InvalidFormat(_, _, _) => "invalid_format"
      case Success(_, _, _, _, _) => ""
    }
  }

  /** `run_ocr_task`, with `timestamp` the clock reading taken after selection. */
  method RunOcrTask(input: OcrInput, cameraId: int, timestamp: int) returns (outcome: OcrOutcome)
    ensures !input.decodes <==> outcome == DecodeError
    ensures outcome == NoTextDetected <==>
              input.decodes && (forall j :: 0 <= j < |Trials(input.ocr)| ==> !Competes(Trials(input.ocr)[j]))
              && Fallback(input.fallbackArabic, input.fallbackEnglish).None?
    ensures outcome.Success? ==>
              && PlateText.ExtractLicensePlateText(outcome.licensePlate) != None
              && outcome.cameraId == cameraId && outcome.timestamp == timestamp
              && (outcome.confidence >= 20 || outcome.confidence == 10 || outcome.confidence == 5)
    ensures outcome.InvalidFormat? ==> outcome.cameraId == cameraId
    ensures outcome.Success? || outcome.InvalidFormat? ==>
              exists b :: Chosen(input, b) && b.text != [] && outcome.via == b.via
                && (outcome.Success? <==> PlateText.ExtractLicensePlateText(b.text).Some?)
                && (outcome.Success? ==>
                      PlateText.ExtractLicensePlateText(b.text) == Some(outcome.licensePlate)
                      && outcome.confidence == b.confidence)
                && (outcome.InvalidFormat? ==> outcome.rawText == b.text)
  {
    if !input.decodes {
      return DecodeError;
    }
    var trials := Trials(input.ocr);
    var best := SelectBest(trials);
    if best.None? {
      best := Fallback(input.fallbackArabic, input.fallbackEnglish);
    } else {
      ghost var i :| FirstMaximum(trials, i) && best.value == CandidateOf(trials[i]);
      assert best.value.confidence >= 20;
    }
    if best.None? {
      return NoTextDetected;
    }
    assert Chosen(input, best.value);
    var raw := best.value.text;
    var plate := PlateText.ExtractLicensePlateText(raw);
    if plate.Some? {
      PlateText.ExtractIsIdempotent(raw);
      outcome := Success(plate.value, best.value.confidence, cameraId, timestamp, best.value.via);
    } else {
      outcome := InvalidFormat(raw, cameraId, best.value.via);
    }
  }
}

=== FILE: plate.dfy ===
/** Tunisian plate-text reconstruction from raw OCR output
    (`extract_license_plate_text` in gismap/tasks/ocr_task.py).

    The pipeline is: clean the text, take its maximal digit runs, repair
    implausible runs with a fixed table, and join the first and last runs
    with the country marker "تونس". */
module PlateText {
  import opened Wrappers
  import opened Text

  /** The country marker "تونس" (Tunisia), and the two fragments the source
      accepts as evidence of it. */
  const Marker: string := "\U{062A}\U{0648}\U{0646}\U{0633}"
  const MarkerHead: string := "\U{062A}\U{0648}\U{0646}"
  const MarkerTail: string := "\U{0648}\U{0646}\U{0633}"

  /** The canonical plate format "<left> تونس <right>". */
  function PlateFormat(left: string, right: string): string
  {
    left + " " + Marker + " " + right
  }

  predicate InArabicBlock(c: char)
  {
    '\U{0600}' <= c <= '\U{06FF}'
  }

  /** Characters the cleaning deletes outright, so that the digits on either
      side of them become adjacent. */
  predicate IsJoiner(c: char)
  {
    c == '(' || c == ')' || c == '|' || c == '[' || c == ']' || c == '_'
  }

  predicate IsBracketOrBar(c: char)
  {
    c == '(' || c == ')' || c == '|' || c == '[' || c == ']'
  }

  predicate IsUnderscore(c: char)
  {
    c == '_'
  }

  /** The three classes that decide how a character affects the digit runs. */
  predicate SameClass(c: char, d: char)
  {
    if IsDigit(c) then d == c
    else if IsJoiner(c) then IsJoiner(d)
    else !IsDigit(d) && !IsJoiner(d)
  }

  // ---------------------------------------------------------------------
  // Character-wise rewriting

  function MapChars(s: string, f: char -> char): (r: string)
    ensures |r| == |s|
    ensures forall i :: 0 <= i < |s| ==> r[i] == f(s[i])
  {
    if s == [] then [] else [f(s[0])] + MapChars(s[1..], f)
  }

  function DeleteChars(s: string, p: char -> bool): (r: string)
    ensures forall i :: 0 <= i < |r| ==> !p(r[i])
    ensures forall i :: 0 <= i < |r| ==> r[i] in s
  {
    if s == [] then []
    else if p(s[0]) then DeleteChars(s[1..], p)
    else [s[0]] + DeleteChars(s[1..], p)
  }

  function NewlineToSpace(c: char): char
  {
    if c == '\n' || c == '\t' then ' ' else c
  }

  function DotOrCommaToSpace(c: char): char
  {
    if c == '.' || c == ',' then ' ' else c
  }

  /** Keeps digits, whitespace and the Arabic block; anything else becomes a space. */
  function ForeignToSpace(c: char): char
  {
    if IsDigit(c) || IsSpace(c) || InArabicBlock(c) then c else ' '
  }

  /** `re.sub(r'\s+', ' ', s)`: every maximal whitespace run becomes one space. */
  function CollapseSpaces(s: string): (r: string)
    ensures |r| <= |s|
    decreases |s|
  {
    if s == [] then []
    else if IsSpace(s[0]) then [' '] + CollapseSpaces(TrimLeft(s[1..]))
    else [s[0]] + CollapseSpaces(s[1..])
  }

  /** The cleaning steps of the source, in their order. */
  function Clean(text: string): (r: string)
    ensures forall i :: 0 <= i < |r| ==> IsDigit(r[i]) || IsSpace(r[i]) || InArabicBlock(r[i])
  {
    var t1 := MapChars(Strip(text), NewlineToSpace);
    var t2 := CollapseSpaces(t1);
    var t3 := DeleteChars(t2, IsBracketOrBar);
    var t4 := MapChars(t3, DotOrCommaToSpace);
    var t5 := DeleteChars(t4, IsUnderscore);
    MapChars(t5, ForeignToSpace)
  }

  // ---------------------------------------------------------------------
  // Digit runs

  function Flush(cur: string): seq<string>
  {
    if cur == [] then [] else [cur]
  }

  predicate RunsWellFormed(runs: seq<string>)
  {
    forall k :: 0 <= k < |runs| ==> |runs[k]| >= 1 && AllDigits(runs[k])
  }

  /** Maximal digit runs of `s`, where `cur` is the run read so far. */
  function RunsFrom(s: string, cur: string): (runs: seq<string>)
    requires AllDigits(cur)
    ensures RunsWellFormed(runs)
    decreases |s|
  {
    if s == [] then Flush(cur)
    else if IsDigit(s[0]) then RunsFrom(s[1..], cur + [s[0]])
    else Flush(cur) + RunsFrom(s[1..], [])
  }

  /** `re.findall(r'\d+', s)`. */
  function DigitRuns(s: string): (runs: seq<string>)
    ensures RunsWellFormed(runs)
  {
    RunsFrom(s, [])
  }

  /** The digit runs read with joiners skipped: the reference the cleaning
      is measured against. */
  function JoinedRuns(s: string, cur: string): (runs: seq<string>)
    requires AllDigits(cur)
    decreases |s|
  {
    if s == [] then Flush(cur)
    else if IsDigit(s[0]) then JoinedRuns(s[1..], cur + [s[0]])
    else if IsJoiner(s[0]) then JoinedRuns(s[1..], cur)
    else Flush(cur) + JoinedRuns(s[1..], [])
  }

  /** The runs hold exactly the digits of the text, in order. */
  lemma {:induction false} RunsFromDigits(s: string, cur: string)
    requires AllDigits(cur)
    ensures Concat(RunsFrom(s, cur)) == cur + Digits(s)
    decreases |s|
  {
    if s == [] {
      FlushConcat(cur);
    } else if IsDigit(s[0]) {
      RunsFromDigits(s[1..], cur + [s[0]]);
      assert RunsFrom(s, cur) == RunsFrom(s[1..], cur + [s[0]]);
      assert Digits(s) == [s[0]] + Digits(s[1..]);
      assert (cur + [s[0]]) + Digits(s[1..]) == cur + ([s[0]] + Digits(s[1..]));
    } else {
      RunsFromDigits(s[1..], []);
      assert RunsFrom(s, cur) == Flush(cur) + RunsFrom(s[1..], []);
      assert Digits(s) == Digits(s[1..]);
      ConcatAppend(Flush(cur), RunsFrom(s[1..], []));
      FlushConcat(cur);
      assert [] + Digits(s[1..]) == Digits(s[1..]);
    }
  }

  lemma FlushConcat(cur: string)
    ensures Concat(Flush(cur)) == cur
  {
    if cur != [] {
      assert Concat([cur]) == cur + Concat([]);
    }
  }

  lemma DigitRunsHoldDigits(s: string)
    ensures Concat(DigitRuns(s)) == Digits(s)
  {
    RunsFromDigits(s, []);
  }

  lemma {:induction false} DigitsExtendRun(d: string, rest: string, cur: string)
    requires AllDigits(cur) && AllDigits(d)
    ensures RunsFrom(d + rest, cur) == RunsFrom(rest, cur + d)
    decreases |d|
  {
    if d == [] {
      assert d + rest == rest && cur + d == cur;
    } else {
      assert (d + rest)[0] == d[0] && (d + rest)[1..] == d[1..] + rest;
      DigitsExtendRun(d[1..], rest, cur + [d[0]]);
      assert cur + [d[0]] + d[1..] == cur + d;
    }
  }

  lemma {:induction false} NonDigitsEndRun(nd: string, rest: string, cur: string)
    requires AllDigits(cur) && |nd| >= 1
    requires forall i :: 0 <= i < |nd| ==> !IsDigit(nd[i])
    ensures RunsFrom(nd + rest, cur) == Flush(cur) + RunsFrom(rest, [])
    decreases |nd|
  {
    assert (nd + rest)[0] == nd[0] && (nd + rest)[1..] == nd[1..] + rest;
    if |nd| > 1 {
      NonDigitsEndRun(nd[1..], rest, []);
      assert Flush([]) + RunsFrom(rest, []) == RunsFrom(rest, []);
    } else {
      assert nd[1..] + rest == rest;
    }
  }

  lemma {:induction false} DeleteNothing(s: string, p: char -> bool)
    requires forall i :: 0 <= i < |s| ==> !p(s[i])
    ensures DeleteChars(s, p) == s
  {
    if s != [] {
      DeleteNothing(s[1..], p);
      assert [s[0]] + s[1..] == s;
    }
  }

  lemma {:induction false} DeleteJoinersRuns(s: string, cur: string)
    requires AllDigits(cur)
    ensures RunsFrom(DeleteChars(s, IsJoiner), cur) == JoinedRuns(s, cur)
    decreases |s|
  {
    if s != [] {
      if IsDigit(s[0]) {
        DeleteJoinersRuns(s[1..], cur + [s[0]]);
      } else if IsJoiner(s[0]) {
        DeleteJoinersRuns(s[1..], cur);
      } else {
        DeleteJoinersRuns(s[1..], []);
      }
    }
  }

  lemma {:induction false} JoinerFreeRuns(s: string, cur: string)
    requires AllDigits(cur)
    requires forall i :: 0 <= i < |s| ==> !IsJoiner(s[i])
    ensures RunsFrom(s, cur) == JoinedRuns(s, cur)
    decreases |s|
  {
    if s != [] {
      if IsDigit(s[0]) {
        JoinerFreeRuns(s[1..], cur + [s[0]]);
      } else {
        JoinerFreeRuns(s[1..], []);
      }
    }
  }

  lemma {:induction false} ClassPreservingMap(s: string, f: char -> char, cur: string)
    requires AllDigits(cur)
    requires forall i :: 0 <= i < |s| ==> SameClass(s[i], f(s[i]))
    ensures JoinedRuns(MapChars(s, f), cur) == JoinedRuns(s, cur)
    decreases |s|
  {
    if s != [] {
      var m := MapChars(s, f);
      assert m[1..] == MapChars(s[1..], f);
      if IsDigit(s[0]) {
        ClassPreservingMap(s[1..], f, cur + [s[0]]);
      } else if IsJoiner(s[0]) {
        ClassPreservingMap(s[1..], f, cur);
      } else {
        ClassPreservingMap(s[1..], f, []);
      }
    }
  }

  lemma {:induction false} DeleteOnlyJoiners(s: string, p: char -> bool, cur: string)
    requires AllDigits(cur)
    requires forall c :: p(c) ==> IsJoiner(c)
    ensures JoinedRuns(DeleteChars(s, p), cur) == JoinedRuns(s, cur)
    decreases |s|
  {
    if s != [] {
      if IsDigit(s[0]) {
        DeleteOnlyJoiners(s[1..], p, cur + [s[0]]);
      } else if IsJoiner(s[0]) {
        DeleteOnlyJoiners(s[1..], p, cur);
      } else {
        DeleteOnlyJoiners(s[1..], p, []);
      }
    }
  }

  lemma {:induction false} LeadingSpacesRuns(sp: string, s: string)
    requires AllSpaces(sp)
    ensures JoinedRuns(sp + s, []) == JoinedRuns(s, [])
    decreases |sp|
  {
    if sp != [] {
      assert IsSpace(sp[0]);
      assert (sp + s)[0] == sp[0] && !IsDigit(sp[0]) && !IsJoiner(sp[0]);
      assert (sp + s)[1..] == sp[1..] + s;
      LeadingSpacesRuns(sp[1..], s);
      var rest := JoinedRuns(sp[1..] + s, []);
      assert JoinedRuns(sp + s, []) == Flush([]) + rest;
      assert Flush([]) + rest == rest;
    } else {
      assert sp + s == s;
    }
  }

  lemma {:induction false} TrailingSpacesRuns(s: string, sp: string, cur: string)
    requires AllDigits(cur)
    requires AllSpaces(sp)
    ensures JoinedRuns(s + sp, cur) == JoinedRuns(s, cur)
    decreases |s|
  {
    if s == [] {
      assert s + sp == sp;
      if sp != [] {
        assert IsSpace(sp[0]) && !IsDigit(sp[0]) && !IsJoiner(sp[0]);
        LeadingSpacesRuns(sp[1..], []);
        assert sp[1..] + [] == sp[1..];
        assert JoinedRuns(sp[1..], []) == [];
        assert JoinedRuns(sp, cur) == Flush(cur) + JoinedRuns(sp[1..], []);
        assert Flush(cur) + [] == Flush(cur);
      }
    } else {
      assert (s + sp)[0] == s[0];
      assert (s + sp)[1..] == s[1..] + sp;
      if IsDigit(s[0]) {
        TrailingSpacesRuns(s[1..], sp, cur + [s[0]]);
      } else if IsJoiner(s[0]) {
        TrailingSpacesRuns(s[1..], sp, cur);
      } else {
        TrailingSpacesRuns(s[1..], sp, []);
      }
    }
  }

  lemma StripRuns(s: string)
    ensures JoinedRuns(Strip(s), []) == JoinedRuns(s, [])
  {
    TrimLeftRuns(s);
    TrimRightRuns(TrimLeft(s));
  }

  lemma TrimLeftRuns(s: string)
    ensures JoinedRuns(TrimLeft(s), []) == JoinedRuns(s, [])
  {
    var l := TrimLeft(s);
    TrimLeftDropsSpaces(s);
    var front := s[..|s| - |l|];
    assert s == front + l;
    LeadingSpacesRuns(front, l);
  }

  lemma TrimRightRuns(l: string)
    ensures JoinedRuns(TrimRight(l), []) == JoinedRuns(l, [])
  {
    var r := TrimRight(l);
    TrimRightDropsSpaces(l);
    var back := l[|r|..];
    assert l == r + back;
    TrailingSpacesRuns(r, back, []);
  }

  lemma {:induction false} CollapseRuns(s: string, cur: string)
    requires AllDigits(cur)
    ensures JoinedRuns(CollapseSpaces(s), cur) == JoinedRuns(s, cur)
    decreases |s|
  {
    if s != [] {
      if IsSpace(s[0]) {
        var rest := TrimLeft(s[1..]);
        TrimLeftDropsSpaces(s[1..]);
        CollapseRuns(rest, []);
        assert s[1..] == s[1..][..|s[1..]| - |rest|] + rest;
        LeadingSpacesRuns(s[1..][..|s[1..]| - |rest|], rest);
        assert ([' '] + CollapseSpaces(rest))[1..] == CollapseSpaces(rest);
      } else {
        assert ([s[0]] + CollapseSpaces(s[1..]))[1..] == CollapseSpaces(s[1..]);
        if IsDigit(s[0]) {
          CollapseRuns(s[1..], cur + [s[0]]);
        } else if IsJoiner(s[0]) {
          CollapseRuns(s[1..], cur);
        } else {
          CollapseRuns(s[1..], []);
        }
      }
    }
  }

  /** Cleaning changes the digit runs only by joining the digits around the
      six deleted characters: `.`, `,`, letters, symbols, Arabic letters and
      whitespace all separate runs, whatever the cleaning does to them. */
  lemma CleanKeepsJoinedRuns(text: string)
    ensures DigitRuns(Clean(text)) == DigitRuns(DeleteChars(text, IsJoiner))
  {
    var t2 := CollapseSpaces(MapChars(Strip(text), NewlineToSpace));
    FirstStagesKeepRuns(text);
    var t5 := DeleteChars(MapChars(DeleteChars(t2, IsBracketOrBar), DotOrCommaToSpace), IsUnderscore);
    MiddleStagesKeepRuns(t2);
    var t6 := MapChars(t5, ForeignToSpace);
    LastStageKeepsRuns(t5);
    JoinerFreeRuns(t6, []);
    DeleteJoinersRuns(text, []);
  }

  lemma FirstStagesKeepRuns(text: string)
    ensures JoinedRuns(CollapseSpaces(MapChars(Strip(text), NewlineToSpace)), []) == JoinedRuns(text, [])
  {
    var t0 := Strip(text);
    var t1 := MapChars(t0, NewlineToSpace);
    StripRuns(text);
    forall i | 0 <= i < |t0| ensures SameClass(t0[i], NewlineToSpace(t0[i])) {
    }
    ClassPreservingMap(t0, NewlineToSpace, []);
    CollapseRuns(t1, []);
  }

  lemma MiddleStagesKeepRuns(t2: string)
    ensures var t5 := DeleteChars(MapChars(DeleteChars(t2, IsBracketOrBar), DotOrCommaToSpace), IsUnderscore);
            JoinedRuns(t5, []) == JoinedRuns(t2, []) && forall i :: 0 <= i < |t5| ==> !IsJoiner(t5[i])
  {
    var t3 := DeleteChars(t2, IsBracketOrBar);
    var t4 := MapChars(t3, DotOrCommaToSpace);
    var t5 := DeleteChars(t4, IsUnderscore);
    DeleteOnlyJoiners(t2, IsBracketOrBar, []);
    forall i | 0 <= i < |t3| ensures SameClass(t3[i], DotOrCommaToSpace(t3[i])) {
    }
    ClassPreservingMap(t3, DotOrCommaToSpace, []);
    DeleteOnlyJoiners(t4, IsUnderscore, []);
    MiddleStagesLeaveNoJoiner(t2);
  }

  /** After the middle stages no joiner is left: brackets and bars go first,
      the mapping creates none, underscores go last. */
  lemma MiddleStagesLeaveNoJoiner(t2: string)
    ensures var t5 := DeleteChars(MapChars(DeleteChars(t2, IsBracketOrBar), DotOrCommaToSpace), IsUnderscore);
            forall i :: 0 <= i < |t5| ==> !IsJoiner(t5[i])
  {
    var t3 := DeleteChars(t2, IsBracketOrBar);
    var t4 := MapChars(t3, DotOrCommaToSpace);
    var t5 := DeleteChars(t4, IsUnderscore);
    forall i | 0 <= i < |t5| ensures !IsJoiner(t5[i]) {
      assert t5[i] in t4;
      var j :| 0 <= j < |t4| && t4[j] == t5[i];
      assert !IsBracketOrBar(t3[j]);
    }
  }

  lemma LastStageKeepsRuns(t5: string)
    requires forall i :: 0 <= i < |t5| ==> !IsJoiner(t5[i])
    ensures JoinedRuns(MapChars(t5, ForeignToSpace), []) == JoinedRuns(t5, [])
    ensures forall i :: 0 <= i < |t5| ==> !IsJoiner(MapChars(t5, ForeignToSpace)[i])
  {
    forall i | 0 <= i < |t5| ensures SameClass(t5[i], ForeignToSpace(t5[i])) {
    }
    ClassPreservingMap(t5, ForeignToSpace, []);
  }

  // ---------------------------------------------------------------------
  // Run repair

  predicate Anchored179(num: string)
  {
    StartsWith(num, "179")
  }

  predicate Anchored911(num: string)
  {
    EndsWith(num, "911")
  }

  /** The fixed repair table applied to one digit run. */
  function RepairRun(num: string): (r: seq<string>)
    ensures |r| <= 2
    ensures forall k :: 0 <= k < |r| ==> |r[k]| >= 2 && |r[k]| != 6
    ensures AllDigits(num) ==> forall k :: 0 <= k < |r| ==> AllDigits(r[k])
  {
    if num == "1799" then ["179"]
    else if |num| == 4 && Anchored179(num) then ["179"]
    else if |num| == 4 && Anchored911(num) then ["911"]
    else if 2 <= |num| <= 4 then [num]
    else if |num| > 4 then
      if |num| == 7 && (Anchored179(num) || Anchored911(num)) then
        if Anchored179(num) then ["179", num[4..]] else [num[..3], "911"]
      else if |num| == 6 then [num[..3], num[3..]]
      else [num]
    else []
  }

  /** Repair only cuts runs: a one-digit run vanishes, an anchored 4-digit run
      keeps its anchor, an anchored 7-digit run loses its middle digit, and
      every other run survives digit for digit (a 6-digit run as two halves). */
  lemma RepairRunCuts(num: string)
    ensures |num| <= 1 ==> RepairRun(num) == []
    ensures |num| == 4 && Anchored179(num) ==> Concat(RepairRun(num)) == num[..3]
    ensures |num| == 4 && !Anchored179(num) && Anchored911(num) ==> Concat(RepairRun(num)) == num[1..]
    ensures |num| == 7 && (Anchored179(num) || Anchored911(num)) ==>
              RepairRun(num) == [num[..3], num[4..]]
    ensures |num| == 6 ==> |RepairRun(num)| == 2 && Concat(RepairRun(num)) == num
    ensures (|num| in {2, 3, 5} || |num| >= 8 || (|num| in {4, 7} && !Anchored179(num) && !Anchored911(num)))
              ==> RepairRun(num) == [num]
  {
    var r := RepairRun(num);
    if |num| == 6 {
      assert Concat([num[3..]]) == num[3..] + Concat([]);
      assert Concat(r) == num[..3] + Concat([num[3..]]);
      assert num[..3] + num[3..] == num;
    }
    if |num| == 7 && Anchored911(num) && !Anchored179(num) {
      assert num[4..] == num[|num| - 3..];
    }
    if |num| == 4 && !Anchored179(num) && Anchored911(num) {
      assert num != "1799";
      assert num[1..] == num[|num| - 3..];
    }
  }

  /** Python's loop over the runs: the repaired runs, source order kept. */
  function Repair(runs: seq<string>): (r: seq<string>)
    ensures forall k :: 0 <= k < |r| ==> |r[k]| >= 2 && |r[k]| != 6
    ensures |r| <= 2 * |runs|
  {
    if runs == [] then [] else RepairRun(runs[0]) + Repair(runs[1..])
  }

  lemma {:induction false} RepairKeepsOrder(a: seq<string>, b: seq<string>)
    ensures Repair(a + b) == Repair(a) + Repair(b)
  {
    if a == [] {
      assert a + b == b;
    } else {
      assert (a + b)[1..] == a[1..] + b;
      RepairKeepsOrder(a[1..], b);
    }
  }

  /** A run the repair table leaves as it is. */
  predicate Settled(run: string)
  {
    RepairRun(run) == [run]
  }

  /** Repair is idempotent: every repaired run is left alone by a second pass. */
  lemma RepairRunSettles(num: string)
    ensures forall k :: 0 <= k < |RepairRun(num)| ==> Settled(RepairRun(num)[k])
  {
    var r := RepairRun(num);
    forall k | 0 <= k < |r| ensures Settled(r[k]) {
      var piece := r[k];
      assert |piece| == 3 || !(Anchored179(piece) || Anchored911(piece)) || (|piece| != 4 && |piece| != 7);
      if |piece| == 3 {
        assert piece != "1799";
      }
    }
  }

  lemma {:induction false} RepairSettles(runs: seq<string>)
    ensures forall k :: 0 <= k < |Repair(runs)| ==> Settled(Repair(runs)[k])
  {
    if runs != [] {
      RepairRunSettles(runs[0]);
      RepairSettles(runs[1..]);
      SettledAppend(RepairRun(runs[0]), Repair(runs[1..]));
    }
  }

  lemma SettledAppend(h: seq<string>, t: seq<string>)
    requires forall k :: 0 <= k < |h| ==> Settled(h[k])
    requires forall k :: 0 <= k < |t| ==> Settled(t[k])
    ensures forall k :: 0 <= k < |h + t| ==> Settled((h + t)[k])
  {
    forall k | 0 <= k < |h + t| ensures Settled((h + t)[k]) {
      if k < |h| {
        assert (h + t)[k] == h[k];
      } else {
        assert (h + t)[k] == t[k - |h|];
      }
    }
  }

  lemma {:induction false} RepairKeepsDigits(runs: seq<string>)
    requires RunsWellFormed(runs)
    ensures forall k :: 0 <= k < |Repair(runs)| ==> AllDigits(Repair(runs)[k])
  {
    if runs != [] {
      RepairKeepsDigits(runs[1..]);
      var h := RepairRun(runs[0]);
      var t := Repair(runs[1..]);
      assert forall k :: 0 <= k < |h| ==> AllDigits(h[k]);
      assert forall k :: 0 <= k < |h + t| ==> (h + t)[k] == (if k < |h| then h[k] else t[k - |h|]);
    }
  }

  // ---------------------------------------------------------------------
  // Reconstruction

  /** The marker the source reports when the cleaned text shows it whole or in part. */
  function MarkerSeen(text: string): Option<string>
  {
    if Contains(text, Marker) then Some(Marker)
    else if Contains(text, MarkerHead) || Contains(text, MarkerTail) then Some(Marker)
    else None
  }

  /** Steps 3 to 5 of the source, every branch as written. */
  function ReconstructAsWritten(text: string, numbers: seq<string>): Option<string>
  {
    var marker := MarkerSeen(text);
    if |numbers| >= 2 && |numbers[0]| >= 2 && |numbers[|numbers| - 1]| >= 2 then
      if marker.Some? then Some(numbers[0] + " " + marker.value + " " + numbers[|numbers| - 1])
      else Some(PlateFormat(numbers[0], numbers[|numbers| - 1]))
    else if |numbers| == 1 && |numbers[0]| == 6 then
      Some(PlateFormat(numbers[0][..3], numbers[0][3..]))
    else if |numbers| == 1 && |numbers[0]| >= 4 then
      Some(numbers[0])
    else if |numbers| > 0 && |Concat(numbers)| >= 4 then
      Some(Concat(numbers))
    else None
  }

  /** What the reconstruction amounts to once runs are repaired. */
  function PlateOfRuns(numbers: seq<string>): Option<string>
  {
    if |numbers| >= 2 then Some(PlateFormat(numbers[0], numbers[|numbers| - 1]))
    else if |numbers| == 1 && |numbers[0]| >= 4 then Some(numbers[0])
    else None
  }

  /** On repaired runs the single-6-digit branch and the concatenation
      fallback are dead, and the marker makes no difference. */
  lemma ReconstructOnRepairedRuns(text: string, numbers: seq<string>)
    requires forall k :: 0 <= k < |numbers| ==> |numbers[k]| >= 2 && |numbers[k]| != 6
    ensures ReconstructAsWritten(text, numbers) == PlateOfRuns(numbers)
  {
    if |numbers| == 1 {
      assert Concat(numbers) == numbers[0] + Concat([]);
    }
  }

  /** `extract_license_plate_text`. */
  function ExtractLicensePlateText(text: string): (r: Option<string>)
    ensures text == [] ==> r == None
    ensures text != [] ==> r == PlateOfRuns(Repair(DigitRuns(DeleteChars(text, IsJoiner))))
    ensures r.Some? ==>
              (|r.value| >= 4 && AllDigits(r.value) && Settled(r.value)) ||
              (exists left, right :: |left| >= 2 && |right| >= 2 && AllDigits(left) && AllDigits(right)
                                     && Settled(left) && Settled(right) && r.value == PlateFormat(left, right))
  {
    if text == [] then None
    else
      var cleaned := Clean(text);
      var numbers := Repair(DigitRuns(cleaned));
      CleanKeepsJoinedRuns(text);
      RepairKeepsDigits(DigitRuns(cleaned));
      RepairSettles(DigitRuns(cleaned));
      ReconstructOnRepairedRuns(cleaned, numbers);
      ReconstructAsWritten(cleaned, numbers)
  }

  // ---------------------------------------------------------------------
  // The two worked examples of the plate format

  /** A clean read of a plate gives the plate back. */
  lemma MarkedPlateReadsBack()
    ensures ExtractLicensePlateText("179 " + Marker + " 911") == Some(PlateFormat("179", "911"))
  {
    var gap: string := " " + Marker + " ";
    assert "179 " + Marker + " 911" == "179" + gap + "911";
    assert ExtractLicensePlateText("179" + gap + "911") == PlateOfRuns(Repair(["179", "911"])) by {
      TwoRunText("179", gap, "911");
    }
    assert PlateOfRuns(Repair(["179", "911"])) == Some(PlateFormat("179", "911")) by {
      assert RepairRun("179") == ["179"] && RepairRun("911") == ["911"];
      assert Repair(["179", "911"]) == ["179"] + (["911"] + []);
    }
  }

  /** "1799" is a misread of the anchor "179": the repair restores the plate. */
  lemma MisreadAnchorRepaired()
    ensures ExtractLicensePlateText("1799 911") == Some(PlateFormat("179", "911"))
  {
    assert "1799 911" == "1799" + " " + "911";
    assert ExtractLicensePlateText("1799" + " " + "911") == PlateOfRuns(Repair(["1799", "911"])) by {
      TwoRunText("1799", " ", "911");
    }
    RepairsMisreadAnchor();
  }

  /** The digit runs ["1799", "911"] repair to ["179", "911"]. */
  lemma RepairsMisreadAnchor()
    ensures Repair(["1799", "911"]) == ["179", "911"]
  {
    assert RepairRun("1799") == ["179"] && RepairRun("911") == ["911"];
    assert Repair(["1799", "911"]) == ["179"] + (["911"] + []);
  }

  /** A reconstructed plate is a fixed point of the extractor: reading the
      plate string again gives the same plate. */
  lemma ExtractIsIdempotent(text: string)
    requires ExtractLicensePlateText(text).Some?
    ensures ExtractLicensePlateText(ExtractLicensePlateText(text).value) == ExtractLicensePlateText(text)
  {
    var p := ExtractLicensePlateText(text).value;
    if |p| >= 4 && AllDigits(p) && Settled(p) {
      SingleRunPlateReadsBack(p);
    } else {
      var left, right :| |left| >= 2 && |right| >= 2 && AllDigits(left) && AllDigits(right)
                         && Settled(left) && Settled(right) && p == PlateFormat(left, right);
      TwoRunPlateReadsBack(left, right);
    }
  }

  lemma SingleRunPlateReadsBack(p: string)
    requires |p| >= 4 && AllDigits(p) && Settled(p)
    ensures ExtractLicensePlateText(p) == Some(p)
  {
    assert forall i :: 0 <= i < |p| ==> !IsJoiner(p[i]) by {
      forall i | 0 <= i < |p| ensures !IsJoiner(p[i]) {
        assert IsDigit(p[i]);
      }
    }
    DeleteNothing(p, IsJoiner);
    TrailingRun(p);
    SettledRunStays(p);
  }

  /** A settled run of four or more digits is its own plate. */
  lemma SettledRunStays(p: string)
    requires |p| >= 4 && Settled(p)
    ensures PlateOfRuns(Repair([p])) == Some(p)
  {
    assert Repair([p]) == RepairRun(p) + Repair([]);
    assert Repair([p]) == [p];
  }

  lemma TwoRunPlateReadsBack(left: string, right: string)
    requires |left| >= 2 && |right| >= 2 && AllDigits(left) && AllDigits(right)
    requires Settled(left) && Settled(right)
    ensures ExtractLicensePlateText(PlateFormat(left, right)) == Some(PlateFormat(left, right))
  {
    var gap: string := " " + Marker + " ";
    assert PlateFormat(left, right) == left + gap + right;
    MarkerGap();
    TwoRunText(left, gap, right);
    SettledPairStays(left, right);
  }

  /** The gap around the marker holds no digit and no joiner. */
  lemma MarkerGap()
    ensures var gap: string := " " + Marker + " ";
      gap != [] && forall i :: 0 <= i < |gap| ==> !IsDigit(gap[i]) && !IsJoiner(gap[i])
  {
  }

  /** Two settled runs make the plate of those two runs. */
  lemma SettledPairStays(left: string, right: string)
    requires Settled(left) && Settled(right)
    ensures PlateOfRuns(Repair([left, right])) == Some(PlateFormat(left, right))
  {
    assert Repair([left, right]) == RepairRun(left) + (RepairRun(right) + Repair([]));
    assert Repair([left, right]) == [left, right];
  }

  /** Two digit runs separated by non-digits that are not joiners. */
  lemma TwoRunText(left: string, gap: string, right: string)
    requires AllDigits(left) && AllDigits(right) && left != [] && right != [] && gap != []
    requires forall i :: 0 <= i < |gap| ==> !IsDigit(gap[i]) && !IsJoiner(gap[i])
    ensures ExtractLicensePlateText(left + gap + right) == PlateOfRuns(Repair([left, right]))
  {
    var t := left + gap + right;
    NoJoinerAcross(left, gap, right);
    DeleteNothing(t, IsJoiner);
    TwoRuns(left, gap, right);
  }

  /** None of the three parts holds a joiner, so neither does the text. */
  lemma NoJoinerAcross(left: string, gap: string, right: string)
    requires AllDigits(left) && AllDigits(right)
    requires forall i :: 0 <= i < |gap| ==> !IsJoiner(gap[i])
    ensures forall i :: 0 <= i < |left + gap + right| ==> !IsJoiner((left + gap + right)[i])
  {
    var t := left + gap + right;
    forall i | 0 <= i < |t| ensures !IsJoiner(t[i]) {
      if i < |left| {
        assert t[i] == left[i] && IsDigit(left[i]);
      } else if i < |left| + |gap| {
        assert t[i] == gap[i - |left|];
      } else {
        assert t[i] == right[i - |left| - |gap|] && IsDigit(right[i - |left| - |gap|]);
      }
    }
  }

  /** The text's digit runs are the two runs. */
  lemma TwoRuns(left: string, gap: string, right: string)
    requires AllDigits(left) && AllDigits(right) && left != [] && right != [] && gap != []
    requires forall i :: 0 <= i < |gap| ==> !IsDigit(gap[i])
    ensures DigitRuns(left + gap + right) == [left, right]
  {
    assert left + gap + right == left + (gap + right);
    DigitsExtendRun(left, gap + right, []);
    assert [] + left == left;
    NonDigitsEndRun(gap, right, left);
    TrailingRun(right);
  }

  lemma TrailingRun(d: string)
    requires AllDigits(d) && d != []
    ensures DigitRuns(d) == [d]
  {
    DigitsExtendRun(d, [], []);
    assert d + [] == d && [] + d == d;
  }
}

=== FILE: streaming.dfy ===
/** Live streaming: the process-wide "already started" guard of
    gismap/streaming_utils.py, the ingest task and launch policies of
    gismap/tasks/streaming_tasks.py, and the MJPEG view of
    gismap/streaming_views.py. Capture devices and the store are inputs;
    launching a Celery task is a recorded effect. */
module Streaming {
  import opened Wrappers
  import opened Text
  import Base64

  // ---------------------------------------------------------------------
  // should_start_stream

  /** One call of the guard: whether to start, and the recorded set after. */
  function ShouldStart(running: set<nat>, id: nat): (r: (bool, set<nat>))
    ensures r.0 <==> id !in running
    ensures id in r.1 && running <= r.1
    ensures forall other :: other != id ==> (other in r.1 <==> other in running)
  {
    if id !in running then (true, running + {id}) else (false, running)
  }

  /** The answers to a sequence of guard calls, and the set afterwards. */
  function Guards(running: set<nat>, ids: seq<nat>): (r: (seq<bool>, set<nat>))
    ensures |r.0| == |ids|
    decreases |ids|
  {
    if ids == [] then ([], running)
    else
      var first := ShouldStart(running, ids[0]);
      var rest := Guards(first.1, ids[1..]);
      ([first.0] + rest.0, rest.1)
  }

  /** A call answers yes exactly at the first sighting of an id that was
      not already recorded; the set only grows, by the ids asked about. */
  lemma {:induction false} GuardsAnswerFirstSightings(running: set<nat>, ids: seq<nat>)
    ensures forall i :: 0 <= i < |ids| ==>
              (Guards(running, ids).0[i] <==> ids[i] !in running && ids[i] !in ids[..i])
    ensures forall x :: x in Guards(running, ids).1 <==> x in running || x in ids
    decreases |ids|
  {
    if ids != [] {
      var after := ShouldStart(running, ids[0]).1;
      GuardsAnswerFirstSightings(after, ids[1..]);
      var answers := Guards(running, ids).0;
      forall i | 0 < i < |ids|
        ensures answers[i] <==> ids[i] !in running && ids[i] !in ids[..i]
      {
        assert answers[i] == Guards(after, ids[1..]).0[i - 1];
        assert ids[1..][i - 1] == ids[i];
        assert ids[..i] == [ids[0]] + ids[1..][..i - 1];
      }
      assert forall x :: x in ids <==> x == ids[0] || x in ids[1..];
    }
  }

  /** Once an id has been asked about, every later call for it says no. */
  lemma OnlyFirstCallStarts(running: set<nat>, ids: seq<nat>, i: nat, j: nat)
    requires i < j < |ids| && ids[i] == ids[j]
    ensures !Guards(running, ids).0[j]
  {
    GuardsAnswerFirstSightings(running, ids);
    assert ids[..j][i] == ids[j];
  }

  // ---------------------------------------------------------------------
  // stream_camera

  type Byte = Base64.Byte

  /** A capture source: one that cannot be opened, or one whose reads yield
      these JPEG-encoded frames and then fail. */
  datatype Capture = Unopenable | Opened(jpegs: seq<seq<Byte>>)

  datatype StoreEffect = SetFrame(key: string, value: string) | ReleaseCapture

  function FrameKey(cameraId: nat): string
  {
    "camera_frame_" + NatToString(cameraId)
  }

  function FrameWrites(cameraId: nat, jpegs: seq<seq<Byte>>): (effects: seq<StoreEffect>)
    ensures |effects| == |jpegs|
    ensures forall i :: 0 <= i < |jpegs| ==> effects[i] == SetFrame(FrameKey(cameraId), Base64.Encode(jpegs[i]))
  {
    if jpegs == [] then []
    else
      var rest := FrameWrites(cameraId, jpegs[1..]);
      assert forall i :: 1 <= i < |jpegs| ==> jpegs[i] == jpegs[1..][i - 1];
      [SetFrame(FrameKey(cameraId), Base64.Encode(jpegs[0]))] + rest
  }

  /** Every stored frame decodes back to the JPEG it came from. */
  lemma FramesDecode(cameraId: nat, jpegs: seq<seq<Byte>>)
    ensures forall i :: 0 <= i < |jpegs| ==>
              Base64.Decode(FrameWrites(cameraId, jpegs)[i].value) == Some(jpegs[i])
  {
    forall i | 0 <= i < |jpegs|
      ensures Base64.Decode(FrameWrites(cameraId, jpegs)[i].value) == Some(jpegs[i])
    {
      Base64.DecodeEncode(jpegs[i]);
    }
  }

  /** `stream_camera`: an unopenable source writes nothing and is not
      released; otherwise each frame overwrites the camera's key, with no
      expiry, until the first failed read, and the capture is released.
      `fault` is the index of a frame whose JPEG encoding, base64 encoding
      or store raises: nothing in the task catches it, so the task ends
      there with the earlier frames written and the capture not released. */
  function StreamCamera(cameraId: nat, source: Capture, fault: Option<nat>): (effects: seq<StoreEffect>)
    ensures source.Unopenable? ==> effects == []
    ensures source.Opened? && (fault.None? || fault.value >= |source.jpegs|) ==>
              |effects| == |source.jpegs| + 1 && effects[|effects| - 1] == ReleaseCapture
    ensures source.Opened? && fault.Some? && fault.value < |source.jpegs| ==>
              |effects| == fault.value && ReleaseCapture !in effects
    ensures source.Opened? ==> forall i :: 0 <= i < |effects| && effects[i].SetFrame? ==>
              i < |source.jpegs| && effects[i].key == FrameKey(cameraId)
              && Base64.Decode(effects[i].value) == Some(source.jpegs[i])
  {
    match source
    case Unopenable => []
    case Opened(jpegs) =>
      if fault.Some? && fault.value < |jpegs| then
        var done := jpegs[..fault.value];
        FramesDecode(cameraId, done);
        FrameWrites(cameraId, done)
      else
        FramesDecode(cameraId, jpegs);
        FrameWrites(cameraId, jpegs) + [ReleaseCapture]
  }

  // ---------------------------------------------------------------------
  // stream_all_cameras, detect_all_cameras, all_cameras_stream

  /** A camera row: its id, its URL field and its department. */
  datatype StreamCam = StreamCam(id: nat, url: string, department: Option<nat>)

  datatype Launch = StreamTask(cameraId: nat, url: string) | DetectTask(cameraId: nat)

  function Ids(cams: seq<StreamCam>): (ids: seq<nat>)
    ensures |ids| == |cams| && forall i :: 0 <= i < |cams| ==> ids[i] == cams[i].id
  {
    if cams == [] then [] else [cams[0].id] + Ids(cams[1..])
  }

  /** Guard each camera in order and launch its stream when the guard says
      yes, passing the camera's URL (the intended
      `stream_all_cameras`, which passes the camera's `url`; see
      `StartStreamsAsWritten`). */
  function StartStreams(running: set<nat>, cams: seq<StreamCam>): (r: (seq<Launch>, set<nat>))
    decreases |cams|
  {
    if cams == [] then ([], running)
    else
      var g := ShouldStart(running, cams[0].id);
      var rest := StartStreams(g.1, cams[1..]);
      ((if g.0 then [StreamTask(cams[0].id, cams[0].url)] else []) + rest.0, rest.1)
  }

  /** The cameras whose flag is set, as stream launches. */
  function Selected(cams: seq<StreamCam>, flags: seq<bool>): seq<Launch>
    requires |flags| == |cams|
  {
    if cams == [] then []
    else (if flags[0] then [StreamTask(cams[0].id, cams[0].url)] else []) + Selected(cams[1..], flags[1..])
  }

  /** The streams launched are exactly the cameras the guard answers yes
      for, in order, and the recorded set ends as the guard leaves it. */
  lemma {:induction false} StartStreamsFollowsGuard(running: set<nat>, cams: seq<StreamCam>)
    ensures StartStreams(running, cams).0 == Selected(cams, Guards(running, Ids(cams)).0)
    ensures StartStreams(running, cams).1 == Guards(running, Ids(cams)).1
    decreases |cams|
  {
    if cams != [] {
      var after := ShouldStart(running, cams[0].id).1;
      StartStreamsFollowsGuard(after, cams[1..]);
      assert Ids(cams)[1..] == Ids(cams[1..]);
    }
  }

  /** With every id already recorded, nothing is launched. */
  lemma {:induction false} NothingLaunchedWhenAllRunning(running: set<nat>, cams: seq<StreamCam>)
    requires forall c :: c in cams ==> c.id in running
    ensures StartStreams(running, cams) == ([], running)
    decreases |cams|
  {
    if cams != [] {
      assert cams[0] in cams;
      assert forall c :: c in cams[1..] ==> c in cams;
      assert ShouldStart(running, cams[0].id) == (false, running);
      NothingLaunchedWhenAllRunning(running, cams[1..]);
      var rest := StartStreams(running, cams[1..]);
      assert StartStreams(running, cams) == ([] + rest.0, rest.1);
      assert rest.0 == [] && [] + rest.0 == [];
    }
  }

  /** Calling the launcher again with the same cameras launches nothing. */
  lemma RepeatLaunchesNothing(running: set<nat>, cams: seq<StreamCam>)
    ensures var after := StartStreams(running, cams).1;
      StartStreams(after, cams).0 == []
  {
    StartStreamsFollowsGuard(running, cams);
    GuardsAnswerFirstSightings(running, Ids(cams));
    var after := StartStreams(running, cams).1;
    forall c | c in cams
      ensures c.id in after
    {
      var i :| 0 <= i < |cams| && cams[i] == c;
      assert Ids(cams)[i] == c.id;
    }
    NothingLaunchedWhenAllRunning(after, cams);
  }

  /** `stream_all_cameras` as written reads `camera.rtsp_url`, a field the
      camera model does not have: the first camera the guard says yes to is
      recorded as running, then the task dies before launching anything. */
  function StartStreamsAsWritten(running: set<nat>, cams: seq<StreamCam>): (r: (seq<Launch>, set<nat>, bool))
    ensures r.0 == []
    decreases |cams|
  {
    if cams == [] then ([], running, false)
    else
      var g := ShouldStart(running, cams[0].id);
      if g.0 then ([], g.1, true)
      else StartStreamsAsWritten(g.1, cams[1..])
  }

  /** The first camera not yet running is stranded: the task fails after
      recording it, so no later call of either version ever launches its
      stream. */
  lemma {:induction false} StrandedCamera(running: set<nat>, cams: seq<StreamCam>, i: nat)
    requires i < |cams| && cams[i].id !in running
    requires forall j :: 0 <= j < i ==> cams[j].id in running
    ensures var r := StartStreamsAsWritten(running, cams);
      r.2 && r.1 == running + {cams[i].id}
      && StartStreamsAsWritten(r.1, cams).0 == []
      && forall l :: l in StartStreams(r.1, cams).0 ==> l.cameraId != cams[i].id
    decreases |cams|
  {
    var r := StartStreamsAsWritten(running, cams);
    if i > 0 {
      assert cams[0].id in running;
      StrandedCamera(running, cams[1..], i - 1);
    }
    LaunchesOnlyUnrecorded(r.1, cams);
  }

  lemma {:induction false} LaunchesOnlyUnrecorded(running: set<nat>, cams: seq<StreamCam>)
    ensures forall l :: l in StartStreams(running, cams).0 ==> l.cameraId !in running
    decreases |cams|
  {
    if cams != [] {
      var after := ShouldStart(running, cams[0].id).1;
      LaunchesOnlyUnrecorded(after, cams[1..]);
    }
  }

  /** `detect_all_cameras`: a detection task for every camera, every time. */
  function DetectAll(cams: seq<StreamCam>): (launches: seq<Launch>)
  {
    if cams == [] then [] else [DetectTask(cams[0].id)] + DetectAll(cams[1..])
  }

  /** Detection is not guarded: every camera gets a detection task, in
      order, whatever the stream guard has recorded. */
  lemma {:induction false} DetectIgnoresGuard(cams: seq<StreamCam>)
    ensures |DetectAll(cams)| == |cams|
    ensures forall i :: 0 <= i < |cams| ==> DetectAll(cams)[i] == DetectTask(cams[i].id)
    decreases |cams|
  {
    if cams != [] {
      DetectIgnoresGuard(cams[1..]);
    }
  }

  /** The cameras `all_cameras_stream` lists: those of the requested
      department, or all of them when none is requested. */
  function Listed(cams: seq<StreamCam>, department: Option<nat>): (r: seq<StreamCam>)
    ensures department.None? ==> r == cams
    ensures forall c :: c in r <==> c in cams && (department.None? || c.department == department)
    ensures |r| <= |cams|
  {
    if department.None? then cams
    else if cams == [] then []
    else (if cams[0].department == department then [cams[0]] else []) + Listed(cams[1..], department)
  }

  /** `all_cameras_stream`: the listed cameras, the streams launched for
      them through the guard, and the guard's set afterwards (with the URL
      field read as intended; the view has the same `rtsp_url` slip). */
  function AllCamerasStream(running: set<nat>, cams: seq<StreamCam>, department: Option<nat>): (r: (seq<StreamCam>, seq<Launch>, set<nat>))
    ensures r.0 == Listed(cams, department)
    ensures forall l :: l in r.1 ==>
              l.StreamTask? && l.cameraId !in running && exists c :: c in r.0 && c.id == l.cameraId
    ensures r.1 == Selected(r.0, Guards(running, Ids(r.0)).0)
    ensures r.2 == Guards(running, Ids(r.0)).1
  {
    var listed := Listed(cams, department);
    LaunchesOnlyUnrecorded(running, listed);
    LaunchesAreListed(running, listed);
    StartStreamsFollowsGuard(running, listed);
    var s := StartStreams(running, listed);
    (listed, s.0, s.1)
  }

  lemma {:induction false} LaunchesAreListed(running: set<nat>, cams: seq<StreamCam>)
    ensures forall l :: l in StartStreams(running, cams).0 ==>
              l.StreamTask? && exists c :: c in cams && c.id == l.cameraId
    decreases |cams|
  {
    if cams != [] {
      var after := ShouldStart(running, cams[0].id).1;
      LaunchesAreListed(after, cams[1..]);
      assert cams[0] in cams;
      assert forall c :: c in cams[1..] ==> c in cams;
    }
  }

  function AllCamerasStreamAsWritten(running: set<nat>, cams: seq<StreamCam>, department: Option<nat>): (r: (seq<Launch>, set<nat>, bool))
    ensures r.0 == []
  {
    StartStreamsAsWritten(running, Listed(cams, department))
  }

  // ---------------------------------------------------------------------
  // stream_camera_view

  /** Bytes of an ASCII literal. */
  function Ascii(s: string): (b: seq<Byte>)
    ensures |b| == |s|
  {
    seq(|s|, i requires 0 <= i < |s| => (s[i] as int) % 256)
  }

  const Boundary := "frame"
  const ContentType := "multipart/x-mixed-replace; boundary=frame"
  const DelimiterLine := "--frame\r\n"
  const PartHeaders := "Content-Type: image/jpeg\r\n\r\n"
  const LineBreak := "\r\n"

  /** One part of the multipart response. */
  function Chunk(jpeg: seq<Byte>): seq<Byte>
  {
    Ascii(DelimiterLine) + Ascii(PartHeaders) + jpeg + Ascii(LineBreak)
  }

  /** Every chunk opens with the delimiter line of the boundary the
      response declares, and carries the frame bytes unchanged between the
      part headers and the closing line break. */
  lemma ChunkFraming(jpeg: seq<Byte>)
    ensures ContentType == "multipart/x-mixed-replace; boundary=" + Boundary
    ensures DelimiterLine == "--" + Boundary + LineBreak
    ensures var c := Chunk(jpeg);
      var h := |DelimiterLine| + |PartHeaders|;
      && |c| == h + |jpeg| + |LineBreak|
      && c[..|DelimiterLine|] == Ascii(DelimiterLine)
      && c[h..|c| - |LineBreak|] == jpeg
      && c[|c| - |LineBreak|..] == Ascii(LineBreak)
  {
    var c := Chunk(jpeg);
    var h := |DelimiterLine| + |PartHeaders|;
    assert c == Ascii(DelimiterLine) + (Ascii(PartHeaders) + jpeg + Ascii(LineBreak));
    assert c == (Ascii(DelimiterLine) + Ascii(PartHeaders)) + jpeg + Ascii(LineBreak);
  }

  /** The chunks the view's generator yields for successive reads of the
      camera's key (`None` when the key is absent). An empty or missing
      value yields nothing; a value that does not decode raises and ends
      the stream. */
  function StreamView(polls: seq<Option<string>>): (chunks: seq<seq<Byte>>)
    ensures |chunks| <= |polls|
  {
    if polls == [] then []
    else if polls[0].None? || polls[0].value == "" then StreamView(polls[1..])
    else
      match Base64.Decode(polls[0].value)
      case None => []
      case Some(jpeg) => [Chunk(jpeg)] + StreamView(polls[1..])
  }

  /** While the key is absent the view yields nothing. */
  lemma {:induction false} AbsentFrameYieldsNothing(polls: seq<Option<string>>)
    requires forall i :: 0 <= i < |polls| ==> polls[i].None?
    ensures StreamView(polls) == []
    decreases |polls|
  {
    if polls != [] {
      AbsentFrameYieldsNothing(polls[1..]);
    }
  }

  /** The values the ingest task leaves in the store, as the view reads them. */
  function Stored(effects: seq<StoreEffect>): seq<Option<string>>
  {
    if effects == [] then []
    else (if effects[0].SetFrame? then [Some(effects[0].value)] else []) + Stored(effects[1..])
  }

  /** The base64 texts of the frames, in order. */
  function Encoded(jpegs: seq<seq<Byte>>): seq<Option<string>>
  {
    if jpegs == [] then [] else [Some(Base64.Encode(jpegs[0]))] + Encoded(jpegs[1..])
  }

  lemma {:induction false} StoredOfStream(cameraId: nat, jpegs: seq<seq<Byte>>)
    ensures Stored(FrameWrites(cameraId, jpegs) + [ReleaseCapture]) == Encoded(jpegs)
    decreases |jpegs|
  {
    var w := FrameWrites(cameraId, jpegs) + [ReleaseCapture];
    if jpegs == [] {
      assert w == [ReleaseCapture];
      assert w[1..] == [];
    } else {
      StoredOfStream(cameraId, jpegs[1..]);
      assert w[1..] == FrameWrites(cameraId, jpegs[1..]) + [ReleaseCapture];
    }
  }

  lemma {:induction false} ViewOfEncoded(jpegs: seq<seq<Byte>>)
    requires forall i :: 0 <= i < |jpegs| ==> |jpegs[i]| > 0
    ensures var chunks := StreamView(Encoded(jpegs));
      |chunks| == |jpegs| && forall i :: 0 <= i < |jpegs| ==> chunks[i] == Chunk(jpegs[i])
    decreases |jpegs|
  {
    if jpegs != [] {
      ViewOfEncoded(jpegs[1..]);
      Base64.DecodeEncode(jpegs[0]);
      var e := Encoded(jpegs);
      assert e[0] == Some(Base64.Encode(jpegs[0])) && e[1..] == Encoded(jpegs[1..]);
      ViewStep(e);
      var rest := StreamView(e[1..]);
      assert forall i :: 1 <= i < |jpegs| ==> ([Chunk(jpegs[0])] + rest)[i] == rest[i - 1] && jpegs[i] == jpegs[1..][i - 1];
    }
  }

  /** A stored value that decodes yields its chunk ahead of the rest. */
  lemma ViewStep(polls: seq<Option<string>>)
    requires polls != [] && polls[0].Some? && polls[0].value != ""
    requires Base64.Decode(polls[0].value).Some?
    ensures StreamView(polls) == [Chunk(Base64.Decode(polls[0].value).value)] + StreamView(polls[1..])
  {
  }

  /** Ingest then view: if the view reads the key after each write, it
      yields one chunk per captured frame, carrying exactly that frame. */
  lemma IngestThenView(cameraId: nat, jpegs: seq<seq<Byte>>)
    requires forall i :: 0 <= i < |jpegs| ==> |jpegs[i]| > 0
    ensures var chunks := StreamView(Stored(StreamCamera(cameraId, Opened(jpegs), None)));
      |chunks| == |jpegs| && forall i :: 0 <= i < |jpegs| ==> chunks[i] == Chunk(jpegs[i])
  {
    StoredOfStream(cameraId, jpegs);
    ViewOfEncoded(jpegs);
  }
}

=== FILE: text.dfy ===
/** Character classes and string helpers shared by the model.

    Python's `\d`, `\s`, `str.isdigit` and `str.strip` use the Unicode
    character database; this model takes digits to be ASCII '0'..'9' and
    whitespace to be the six ASCII whitespace characters. */
module Text {
  import opened Wrappers

  predicate IsDigit(c: char)
  {
    '0' <= c <= '9'
  }

  predicate IsSpace(c: char)
  {
    c == ' ' || c == '\t' || c == '\n' || c == '\r' || c == '\U{0B}' || c == '\U{0C}'
  }

  predicate AllDigits(s: string)
  {
    forall i :: 0 <= i < |s| ==> IsDigit(s[i])
  }

  predicate AllSpaces(s: string)
  {
    forall i :: 0 <= i < |s| ==> IsSpace(s[i])
  }

  predicate StartsWith(s: string, prefix: string)
  {
    |prefix| <= |s| && s[..|prefix|] == prefix
  }

  predicate EndsWith(s: string, suffix: string)
  {
    |suffix| <= |s| && s[|s| - |suffix|..] == suffix
  }

  /** Python's `sub in s` for strings. */
  predicate Contains(s: string, sub: string)
  {
    exists i :: 0 <= i <= |s| - |sub| && OccursAt(s, sub, i)
  }

  predicate OccursAt(s: string, sub: string, i: int)
  {
    0 <= i <= |s| - |sub| && s[i..i + |sub|] == sub
  }

  /** The digits of `s`, in order. */
  function Digits(s: string): (r: string)
    ensures AllDigits(r)
    ensures |r| <= |s|
  {
    if s == [] then []
    else if IsDigit(s[0]) then [s[0]] + Digits(s[1..])
    else Digits(s[1..])
  }

  lemma {:induction false} DigitsAppend(a: string, b: string)
    ensures Digits(a + b) == Digits(a) + Digits(b)
  {
    if a == [] {
      assert a + b == b;
    } else {
      assert (a + b)[1..] == a[1..] + b;
      DigitsAppend(a[1..], b);
    }
  }

  lemma {:induction false} DigitsOfDigits(s: string)
    requires AllDigits(s)
    ensures Digits(s) == s
  {
    if s != [] {
      DigitsOfDigits(s[1..]);
    }
  }

  /** Concatenation of a sequence of strings. */
  function Concat(parts: seq<string>): string
  {
    if parts == [] then [] else parts[0] + Concat(parts[1..])
  }

  lemma {:induction false} ConcatAppend(a: seq<string>, b: seq<string>)
    ensures Concat(a + b) == Concat(a) + Concat(b)
  {
    if a == [] {
      assert a + b == b;
    } else {
      assert (a + b)[1..] == a[1..] + b;
      ConcatAppend(a[1..], b);
    }
  }

  // ---------------------------------------------------------------------
  // Stripping

  function TrimLeft(s: string): (r: string)
    ensures |r| <= |s|
  {
    if |s| > 0 && IsSpace(s[0]) then TrimLeft(s[1..]) else s
  }

  function TrimRight(s: string): (r: string)
    ensures |r| <= |s|
  {
    if |s| > 0 && IsSpace(s[|s| - 1]) then TrimRight(s[..|s| - 1]) else s
  }

  /** Trimming on the left drops a whitespace prefix and stops at the first
      other character. */
  lemma {:induction false} TrimLeftDropsSpaces(s: string)
    ensures TrimLeft(s) == s[|s| - |TrimLeft(s)|..]
    ensures AllSpaces(s[..|s| - |TrimLeft(s)|])
    ensures TrimLeft(s) == [] || !IsSpace(TrimLeft(s)[0])
  {
    if |s| > 0 && IsSpace(s[0]) {
      TrimLeftDropsSpaces(s[1..]);
      var r := TrimLeft(s);
      assert s[1..][..|s[1..]| - |r|] == s[1..|s| - |r|];
    }
  }

  /** Trimming on the right drops a whitespace suffix and stops at the last
      other character. */
  lemma {:induction false} TrimRightDropsSpaces(s: string)
    ensures TrimRight(s) == s[..|TrimRight(s)|]
    ensures AllSpaces(s[|TrimRight(s)|..])
    ensures TrimRight(s) == [] || !IsSpace(TrimRight(s)[|TrimRight(s)| - 1])
  {
    if |s| > 0 && IsSpace(s[|s| - 1]) {
      var init := s[..|s| - 1];
      TrimRightDropsSpaces(init);
      var r := TrimRight(s);
      assert r == TrimRight(init);
      assert init[..|r|] == s[..|r|];
      assert s[|r|..] == init[|r|..] + [s[|s| - 1]];
      assert forall i :: 0 <= i < |s[|r|..]| ==> IsSpace(s[|r|..][i]) by {
        forall i | 0 <= i < |s[|r|..]|
          ensures IsSpace(s[|r|..][i])
        {
          if i < |init[|r|..]| {
            assert s[|r|..][i] == init[|r|..][i];
          }
        }
      }
    }
  }

  /** Python's `str.strip()`: whitespace removed from both ends. */
  function Strip(s: string): (r: string)
    ensures |r| <= |s|
  {
    TrimRight(TrimLeft(s))
  }

  /** Stripping removes whitespace from the ends and nothing else. */
  lemma StripRemovesOnlyEndSpaces(s: string)
    ensures exists i, j :: 0 <= i <= j <= |s| && Strip(s) == s[i..j] && AllSpaces(s[..i]) && AllSpaces(s[j..])
    ensures Strip(s) == [] || (!IsSpace(Strip(s)[0]) && !IsSpace(Strip(s)[|Strip(s)| - 1]))
  {
    var l := TrimLeft(s);
    var r := TrimRight(l);
    TrimLeftDropsSpaces(s);
    TrimRightDropsSpaces(l);
    var i := |s| - |l|;
    var j := i + |r|;
    assert s[i..j] == r;
    assert s[j..] == l[|r|..];
  }

  // ---------------------------------------------------------------------
  // Decimal numbers

  function DigitChar(d: nat): (c: char)
    requires d < 10
    ensures IsDigit(c)
  {
    ('0' as int + d) as char
  }

  function DigitValue(c: char): (d: nat)
    requires IsDigit(c)
    ensures d < 10 && DigitChar(d) == c
  {
    c as int - '0' as int
  }

  /** Python's `str(n)` for a non-negative integer. */
  function NatToString(n: nat): (s: string)
    ensures |s| >= 1 && AllDigits(s)
    decreases n
  {
    if n < 10 then [DigitChar(n)] else NatToString(n / 10) + [DigitChar(n % 10)]
  }

  /** The value of a string of decimal digits. */
  function DigitsValue(s: string): nat
    requires AllDigits(s)
  {
    if s == [] then 0 else 10 * DigitsValue(s[..|s| - 1]) + DigitValue(s[|s| - 1])
  }

  lemma {:induction false} DigitsValueOfNatToString(n: nat)
    ensures DigitsValue(NatToString(n)) == n
  {
    var s := NatToString(n);
    if n >= 10 {
      assert s[..|s| - 1] == NatToString(n / 10);
      DigitsValueOfNatToString(n / 10);
    }
  }

  /** Python's `int(s)` restricted to its ASCII forms: surrounding
      whitespace, an optional sign and at least one decimal digit. */
  function ParseInt(s: string): Option<int>
  {
    var t := Strip(s);
    if |t| >= 2 && (t[0] == '-' || t[0] == '+') && AllDigits(t[1..]) then
      var v: int := DigitsValue(t[1..]);
      Some(if t[0] == '-' then -v else v)
    else if |t| >= 1 && AllDigits(t) then Some(DigitsValue(t))
    else None
  }

  lemma StripOfDigits(s: string)
    requires AllDigits(s) && |s| >= 1
    ensures Strip(s) == s
  {
    assert !IsSpace(s[0]) && !IsSpace(s[|s| - 1]);
    assert TrimLeft(s) == s;
    assert TrimRight(s) == s;
  }

  lemma ParseIntOfNatToString(n: nat)
    ensures ParseInt(NatToString(n)) == Some(n)
  {
    var s := NatToString(n);
    StripOfDigits(s);
    assert IsDigit(s[0]);
    DigitsValueOfNatToString(n);
  }

  /** A string that is not an integer literal does not parse. */
  lemma ParseIntRejectsNonNumeric(s: string)
    requires |s| >= 1 && !IsSpace(s[0]) && !IsDigit(s[0]) && s[0] != '-' && s[0] != '+'
    ensures ParseInt(s) == None
  {
    assert TrimLeft(s) == s;
    TrimRightDropsSpaces(s);
    var t := Strip(s);
    assert |t| >= 1 ==> t[0] == s[0];
  }

  // ---------------------------------------------------------------------
  // Splitting on one character

  /** Python's `s.split(sep)` for a one-character separator. */
  function Split(s: string, sep: char): (parts: seq<string>)
    ensures |parts| >= 1
    ensures forall k :: 0 <= k < |parts| ==> sep !in parts[k]
    decreases |s|
  {
    if |s| == 0 then [""]
    else
      var rest := Split(s[1..], sep);
      if s[0] == sep then [""] + rest else [[s[0]] + rest[0]] + rest[1..]
  }

  /** Joining the parts with the separator gives back the string. */
  function Join(parts: seq<string>, sep: char): string
    requires |parts| >= 1
  {
    if |parts| == 1 then parts[0] else parts[0] + [sep] + Join(parts[1..], sep)
  }

  lemma {:induction false} JoinSplit(s: string, sep: char)
    ensures Join(Split(s, sep), sep) == s
    decreases |s|
  {
    if |s| > 0 {
      var rest := Split(s[1..], sep);
      JoinSplit(s[1..], sep);
      if s[0] == sep {
        JoinEmptyHead(rest, sep);
        assert s == [sep] + s[1..];
      } else {
        JoinExtendedHead(s[0], rest, sep);
        assert s == [s[0]] + s[1..];
      }
    }
  }

  /** An empty first part contributes just its separator. */
  lemma JoinEmptyHead(parts: seq<string>, sep: char)
    requires |parts| >= 1
    ensures Join([""] + parts, sep) == [sep] + Join(parts, sep)
  {
    assert ([""] + parts)[1..] == parts;
  }

  /** A character put in front of the first part comes first in the join. */
  lemma JoinExtendedHead(c: char, parts: seq<string>, sep: char)
    requires |parts| >= 1
    ensures Join([[c] + parts[0]] + parts[1..], sep) == [c] + Join(parts, sep)
  {
    var ps := [[c] + parts[0]] + parts[1..];
    if |parts| > 1 {
      assert ps[1..] == parts[1..];
      assert ([c] + parts[0]) + [sep] + Join(parts[1..], sep) == [c] + (parts[0] + [sep] + Join(parts[1..], sep));
    }
  }

  lemma {:induction false} SplitWithoutSep(a: string, sep: char)
    requires sep !in a
    ensures Split(a, sep) == [a]
    decreases |a|
  {
    if |a| > 0 {
      SplitWithoutSep(a[1..], sep);
      assert [a[0]] + a[1..] == a;
    }
  }

  lemma {:induction false} SplitAfterField(a: string, b: string, sep: char)
    requires sep !in a
    ensures Split(a + [sep] + b, sep) == [a] + Split(b, sep)
    decreases |a|
  {
    if |a| == 0 {
      assert a + [sep] + b == [sep] + b;
      assert ([sep] + b)[1..] == b;
    } else {
      var s := a + [sep] + b;
      assert s[1..] == a[1..] + [sep] + b;
      SplitAfterField(a[1..], b, sep);
      assert [a[0]] + a[1..] == a;
    }
  }
}

=== FILE: wrappers.dfy ===
/** Python's `None` as an option type, a task's result or error,
    flattening of optional lists, and repetition. */
module Wrappers {

  /** `None` stands for Python's `None` (or an absent value). */
  datatype Option<+T> = None | Some(value: T) {

    /** Returns the wrapped value, or `default` when there is none. */
    function GetOr(default: T): T
    {
      match this
      case Some(v) => v
      case None => default
    }
  }

  /** What a task returns: its result dictionary, or the error dictionary
      its `except Exception` clause builds once something raised (the error
      text, `str(e)`, is left abstract). */
  datatype TaskResult<T> = Completed(value: T) | Errored

  /** `n` copies of `x`: the same event met on `n` passes in a row. */
  function Repeat<T>(x: T, n: nat): (r: seq<T>)
    ensures |r| == n && forall i :: 0 <= i < n ==> r[i] == x
  {
    if n == 0 then [] else [x] + Repeat(x, n - 1)
  }

  /** The items of the present lists, in order: a detector's results
      flattened, skipping results that carry no boxes. */
  function Flatten<T>(lists: seq<Option<seq<T>>>): seq<T>
  {
    if lists == [] then []
    else lists[0].GetOr([]) + Flatten(lists[1..])
  }

  /** The flattened list holds exactly the items of the present lists. */
  lemma {:induction false} FlattenMembers<T>(lists: seq<Option<seq<T>>>, x: T)
    ensures x in Flatten(lists) <==> exists i :: 0 <= i < |lists| && lists[i].Some? && x in lists[i].value
  {
    if lists != [] {
      FlattenMembers(lists[1..], x);
      if x in Flatten(lists[1..]) {
        var i :| 0 <= i < |lists[1..]| && lists[1..][i].Some? && x in lists[1..][i].value;
        assert lists[i + 1] == lists[1..][i];
      }
      if exists i :: 0 <= i < |lists| && lists[i].Some? && x in lists[i].value {
        var i :| 0 <= i < |lists| && lists[i].Some? && x in lists[i].value;
        if i > 0 {
          assert lists[1..][i - 1] == lists[i];
        }
      }
    }
  }
}
